=== FILE: README.md ===
# Travelassist in Dafny

Travelassist is a Next.js travel-companion application. Travellers sign up, publish blog posts,
like and wishlist posts, create and join trips, review trips and fellow travellers, send buddy
requests, chat, and form groups. Its server side is a set of API route handlers over a Prisma
database, guarded by a page middleware; a client-side context keeps a notification list, and a
maintenance script removes groups whose creator has gone.

This project models that core and proves what each handler promises:

- **Buddies.** Matchmaking (`GET /api/buddies/matchmaking`): blog-overlap scoring, candidate
  exclusion and ranking. Buddy requests (`POST`/`GET /api/buddies/requests`). Pending requests
  (`GET /api/buddies/requests/pending`). Chat buddies (`GET /api/chat-buddies`). The traveller
  directory (`GET /api/buddies`).
- **Trips.** Creation and the public listing (`/api/trips`). The caller's trips with progress,
  categories and stats (`/api/trips/my`). Ended trips with ratings (`/api/profile/trips`).
- **Reviews** (`POST /api/reviews`): two keyed upserts.
- **Chats** (`/api/chats`), **blogs** (`/api/blogs`), **groups** (`/api/groups`), **sign-up**
  (`/api/auth/signup`), **profile** (`/api/profile`) and the **admin user list**
  (`/api/admin/users`).
- The **page middleware**, the **random-destination** text parser, the **notification list**
  and the **orphan-group cleanup** script.

Each source file has one module. Shared modules hold the rest:

- `Base`: `Option` and JavaScript truthiness.
- `Seqs`: `filter`, `map`, keep-first de-duplication, and a descending sort.
- `Text`: `trim`, `split`, `join`, `substring`, `replace`.
- `Http`: responses, and the ways a handler finds its caller.
- `Db`: the rows, and one class per table that a handler writes.
- `Interests`: the two ways the comma-separated interests column is parsed.

How the model represents the application:

- **Handlers.** A handler that only reads is a function from the request and the table contents
  to a `Response`.
- **Writes.** A handler that writes is a method on the table's class. It is specified by a pure
  decision function and states the table's whole new state. Each table keeps an invariant,
  `Valid()`: its primary key and its unique constraints.
- **Loops.** The matchmaking loop and the cleanup loop are `for` loops with invariants.
- **Abstractions.** Token verification, password hashing, token signing, date parsing, the
  database's case-insensitive `contains`, the language-model call, and the ids and clock values
  the database assigns are all parameters.

## Model

| member | source | states |
|---|---|---|
| Text.Trim | app/api/blogs/route.ts:111-114 | `trim()` yields a slice of the input that starts and ends with non-space, with only white space cut on either side |
| Text.TrimIdempotent | app/api/blogs/route.ts:111-113 | trimming twice is trimming once |
| Text.TrimSubstring | app/api/buddies/route.ts:65 | trimming never introduces a character that was not there |
| Text.TrimEmpty | app/api/groups/route.ts:66 | a string trims to "" exactly when it is all white space |
| Text.Prefix | app/api/blogs/route.ts:113 | `substring(0, n)` is a prefix of at most n code points, and the whole string when it is shorter |
| Text.Split | app/api/destinations/random/route.ts:41 | `split(d)` gives at least one piece, and no piece contains `d` |
| Text.JoinSplit | app/api/destinations/random/route.ts:41-43 | joining the pieces of a split with the same separator gives back the string |
| Text.SplitJoin | app/api/destinations/random/route.ts:41-43 | splitting a join of separator-free pieces gives back the pieces |
| Text.SplitCount | app/api/buddies/route.ts:65 | the number of pieces is one more than the number of separators |
| Text.ReplaceFirst | middleware.ts:16 | `replace` with a string pattern replaces exactly the first occurrence of the pattern, and leaves a string without it unchanged |
| Seqs.DedupBy | app/api/buddies/requests/route.ts:136 | de-duplication keeps only input elements, leaves no repeated key, loses no key and never grows |
| Seqs.DedupByKeepsFirst | app/api/buddies/requests/route.ts:136 | every kept element is the first element with its key (`index === findIndex`) |
| Seqs.SortByDesc | app/api/buddies/matchmaking/route.ts:111 | the sorted list is non-increasing by the key and a permutation of the input |
| Http.BearerToken | app/api/trips/my/route.ts:8-13 | a token exists iff the header starts with "Bearer ", and it is the rest of the header |
| Http.BearerClaims | app/api/trips/my/route.ts:8-15 | no Bearer header gives 401; a rejected token gives the handler's 500; otherwise the verified claims |
| Http.OptionalCaller | app/api/buddies/route.ts:14-25 | an absent header, a rejected token or a token without an id leave the caller anonymous; otherwise the caller is the token's id |
| Http.HeaderOrCookieToken | app/api/chat-buddies/route.ts:7-10 | a non-empty Bearer token wins; otherwise the `token` cookie, otherwise "" |
| Http.ChatCaller | app/api/chat-buddies/route.ts:6-21 | no token gives 401; success needs a verified token, and the caller is `sub` when it is set, else `id`, and never "" |
| Http.HeaderBeatsCookie | app/api/chats/route.ts:10-13 | a Bearer header with a non-empty token is used whatever the cookie holds |
| Db.RoleName | app/api/trips/my/route.ts:86 | `role.toLowerCase()`: CREATOR gives "creator" and PARTICIPANT gives "participant" |
| Db.UserIndex | app/api/profile/route.ts:17-18 | the lookup finds a row with the id, and finds none exactly when no row has it |
| Db.UserTable.Insert | app/api/auth/signup/route.ts:37-44 | the new user is appended; ids and emails stay unique |
| Db.UserTable.Put | app/api/profile/route.ts:58-66 | exactly one row is replaced; ids and emails stay unique |
| Db.RequestTable.Insert | app/api/buddies/requests/route.ts:44-48 | the request is appended; ids and ordered (requester, receiver) pairs stay unique |
| Db.TripTable.Insert | app/api/trips/route.ts:124-134 | the trip is appended; trip ids stay unique |
| Db.ParticipantTable.Insert | app/api/trips/route.ts:147-153 | the participant row is appended; (user, trip) stays unique |
| Db.ReviewStore.UpsertTripReview | app/api/reviews/route.ts:252-256 | the (trip, reviewer) entry is created or overwritten, and the buddy reviews are untouched |
| Db.ReviewStore.UpsertBuddyReview | app/api/reviews/route.ts:264-268 | the (trip, reviewer, buddy) entry is created or overwritten, and the trip reviews are untouched |
| Db.ChatTable.Insert | app/api/chats/route.ts:58-65 | the chat is appended; chat ids stay unique |
| Db.BlogTable.Insert | app/api/blogs/route.ts:109-120 | the post is appended; blog ids stay unique |
| Db.GroupTable.Insert | app/api/groups/route.ts:81-85 | the group is appended; ids and names stay unique |
| Db.GroupTable.Delete | scripts/cleanup_groups.ts:31-33 | exactly the rows with that id are removed, the others keep their order, and ids and names stay unique |
| Interests.ParseInterests | app/api/buddies/requests/route.ts:131 | a falsy column gives []; otherwise one entry per comma-separated piece, each trimmed |
| Interests.ParseInterestsNonEmpty | app/api/buddies/requests/pending/route.ts:142-147 | the pending-requests form never yields an empty interest |
| Interests.ParsedPieces | app/api/buddies/route.ts:65 | every parsed interest is already trimmed and has no comma; a non-empty column gives one piece per comma plus one |
| Interests.NonEmptyFormAgrees | app/api/buddies/requests/pending/route.ts:142-147 | the pending-requests form keeps exactly the non-empty entries of the other form, and equals it when no entry is empty |
| Matchmaking.BlogIdsOf | app/api/buddies/matchmaking/route.ts:28-31 | the list has one entry per like row and one per wishlist row of the user |
| Matchmaking.BlogIdsOfMembers | app/api/buddies/matchmaking/route.ts:18-31 | a blog is in the list iff the user liked or wishlisted it |
| Matchmaking.CommonBlogs | app/api/buddies/matchmaking/route.ts:92 | the common list is no longer than the caller's, and holds exactly the caller's blogs that the other user also has |
| Matchmaking.CommonBlogsCount | app/api/buddies/matchmaking/route.ts:89-92 | each shared blog counts with its multiplicity in the caller's list; the count is positive iff the two lists share a blog |
| Matchmaking.Candidates | app/api/buddies/matchmaking/route.ts:38-72 | candidates are exactly the CUSTOMER users that are neither the caller nor a counterpart of the caller's accepted requests |
| Matchmaking.Overlap | app/api/buddies/matchmaking/route.ts:79-92 | `commonInterests` never exceeds the length of the caller's list |
| Matchmaking.ToMatched | app/api/buddies/matchmaking/route.ts:96-106 | a match has the user's id and trip count, `isMatch` set, the common count, and the placeholder location |
| Matchmaking.MatchedSpec | app/api/buddies/matchmaking/route.ts:77-108 | the loop never pushes more entries than there are candidates |
| Matchmaking.MatchedComplete | app/api/buddies/matchmaking/route.ts:95-107 | every candidate with a positive overlap is matched, with that overlap and `isMatch` |
| Matchmaking.MatchedSound | app/api/buddies/matchmaking/route.ts:95-107 | every match is a candidate with a positive overlap |
| Matchmaking.MatchedBounds | app/api/buddies/matchmaking/route.ts:92-105 | every match has 0 < `commonInterests` <= the length of the caller's list |
| Matchmaking.MatchedIds | app/api/buddies/matchmaking/route.ts:96-97 | every match carries a candidate's id |
| Matchmaking.MatchedOnce | app/api/buddies/matchmaking/route.ts:77-108 | with distinct user ids, no user is matched twice |
| Matchmaking.Matches | app/api/buddies/matchmaking/route.ts:33-36 | a caller with no likes and no wishlists gets no matches, whatever other users have |
| Matchmaking.MatchesAreCandidates | app/api/buddies/matchmaking/route.ts:38-58 | a match is never the caller or an accepted buddy, and is always a CUSTOMER user |
| Matchmaking.CollectMatches | app/api/buddies/matchmaking/route.ts:75-108 | the `for` loop pushes exactly the matches, in candidate order |
| Matchmaking.Rank | app/api/buddies/matchmaking/route.ts:75-111 | the answer is the matches sorted by non-increasing `commonInterests`, a permutation of them |
| Matchmaking.Get | app/api/buddies/matchmaking/route.ts:5-118 | no Bearer header gives 401 and any failure, a rejected token included, gives 500; otherwise the ranked matches, sorted and a permutation |
| BuddyRequests.Counterpart | app/api/buddies/requests/route.ts:123 | the buddy is the receiver when the caller sent the request, else the requester |
| BuddyRequests.AcceptedCounterparts | app/api/buddies/matchmaking/route.ts:39-54 | one id per accepted request of the caller, duplicates kept |
| BuddyRequests.AcceptedCounterpartsMembers | app/api/buddies/matchmaking/route.ts:39-54 | an id is listed iff it is the other party of an accepted request the caller is in |
| BuddyRequests.PostDecision | app/api/buddies/requests/route.ts:19-61 | a missing receiver, a self-request and an existing ordered pair give 400; otherwise one PENDING request from the caller to the receiver; the reverse pair is not checked |
| BuddyRequests.Post | app/api/buddies/requests/route.ts:7-68 | 401 without a Bearer header, 500 on a rejected token; success appends exactly the new request, and every failure leaves the table unchanged |
| BuddyRequests.PostKeepsPairsUnique | app/api/buddies/requests/route.ts:30-61 | a successful request keeps the ordered pairs unique |
| BuddyRequests.ToBuddyView | app/api/buddies/requests/route.ts:122-133 | the other party's id, name and trip count; a falsy avatar or location gets its default, a truthy one is shown; the interests are the comma pieces each trimmed, empty ones kept, and no piece holds a comma |
| BuddyRequests.OtherSide | app/api/buddies/requests/route.ts:123 | the included user whose id is the request's other party |
| BuddyRequests.AcceptedJoined | app/api/buddies/requests/route.ts:83-89 | every ACCEPTED request the caller sent or received, each as often as stored |
| BuddyRequests.BuddyViews | app/api/buddies/requests/route.ts:122-134 | one view per request, whose id is the request's other party |
| BuddyRequests.MyBuddies | app/api/buddies/requests/route.ts:122-136 | no two listed buddies share an id, and there are at most as many as accepted requests |
| BuddyRequests.MyBuddiesAreCounterparts | app/api/buddies/requests/route.ts:83-136 | the listed ids are exactly the counterparts of the caller's accepted requests |
| BuddyRequests.Get | app/api/buddies/requests/route.ts:70-143 | 401 without a Bearer header; otherwise succeeds iff the token verifies, with the de-duplicated buddies |
| PendingRequests.FormatUser | app/api/buddies/requests/pending/route.ts:133-149 | the defaults "Unknown User", "/placeholder.svg?height=40&width=40", "Location not specified" and "No bio available", rating 4.5, and non-empty interests |
| PendingRequests.IncomingRows | app/api/buddies/requests/pending/route.ts:47-66 | every PENDING request received by the caller, each as often as stored, newest first |
| PendingRequests.OutgoingRows | app/api/buddies/requests/pending/route.ts:69-88 | every PENDING request sent by the caller, each as often as stored, newest first |
| PendingRequests.FormatIncoming | app/api/buddies/requests/pending/route.ts:91-97 | the request's id, time and status, typed incoming, showing the formatted requester |
| PendingRequests.FormatOutgoing | app/api/buddies/requests/pending/route.ts:100-106 | the request's id, time and status, typed outgoing, showing the formatted receiver |
| PendingRequests.Lists | app/api/buddies/requests/pending/route.ts:47-114 | each count is the length of its list, which is the number of the caller's PENDING requests in that direction |
| PendingRequests.IncomingMembers | app/api/buddies/requests/pending/route.ts:47-97 | incoming holds exactly the PENDING requests received by the caller, typed "incoming" and showing the requester |
| PendingRequests.OutgoingMembers | app/api/buddies/requests/pending/route.ts:69-106 | outgoing holds exactly the PENDING requests sent by the caller, typed "outgoing" and showing the receiver |
| PendingRequests.ListsNewestFirst | app/api/buddies/requests/pending/route.ts:65-87 | both lists are ordered by `createdAt`, newest first |
| PendingRequests.Get | app/api/buddies/requests/pending/route.ts:24-130 | no Bearer header gives 401; an unset secret gives 500; a rejected token gives 401 when its error is a JWT error, else 500; a token without an id gives 401 |
| ChatBuddies.OtherIds | app/api/chat-buddies/route.ts:31-33 | the id list has no duplicates |
| ChatBuddies.ToChatBuddy | app/api/chat-buddies/route.ts:35-38 | the selected columns id, name, email and avatar of the user |
| ChatBuddies.OtherIdsMembers | app/api/chat-buddies/route.ts:23-33 | an id is listed iff it is the other party of an ACCEPTED request the caller is in |
| ChatBuddies.Buddies | app/api/chat-buddies/route.ts:35-38 | the answer never has more users than the table |
| ChatBuddies.BuddiesMembers | app/api/chat-buddies/route.ts:35-40 | the returned users are exactly the users whose id is listed |
| ChatBuddies.Get | app/api/chat-buddies/route.ts:19-41 | no token gives 401; succeeds iff the caller resolves, with that caller's buddies |
| BuddyDirectory.ToEntry | app/api/buddies/route.ts:58-66 | an entry has the user's id, the placeholder location and the parsed interests |
| BuddyDirectory.Directory | app/api/buddies/route.ts:28-66 | at most 20 entries |
| BuddyDirectory.DirectoryEntries | app/api/buddies/route.ts:28-56 | every entry is a listed user: never the caller, always a CUSTOMER, and matching a non-empty search by name or interests |
| BuddyDirectory.DirectoryComplete | app/api/buddies/route.ts:28-56 | when at most 20 users match, every one of them is listed |
| BuddyDirectory.Get | app/api/buddies/route.ts:8-73 | never an authentication error; an absent or invalid token only makes the caller anonymous |
| Trips.MaxParticipantsOf | app/api/trips/route.ts:117 | a missing or zero `maxParticipants` means 6, any other value is kept |
| Trips.CreateDecision | app/api/trips/route.ts:111-134 | succeeds iff the four required fields are truthy and the maximum is in 2..20; the trip has the caller as creator and the defaults for description, `isPublic` and the maximum |
| Trips.PublicDefault | app/api/trips/route.ts:117-131 | an explicit `isPublic: false` is kept, a missing one becomes true, and a missing maximum becomes 6 |
| Trips.Create | app/api/trips/route.ts:99-173 | 401 without a Bearer header; success appends the trip and one CREATOR participant row for the caller; every failure writes nothing |
| Trips.PublicTrips | app/api/trips/route.ts:26-63 | exactly the public trips, each as often as stored, newest first |
| Trips.ListTrip | app/api/trips/route.ts:65-90 | anonymous callers get no participants and `isParticipant` false; a signed-in caller gets `isParticipant` iff they have a participant row |
| Trips.List | app/api/trips/route.ts:9-97 | one entry per public trip, in order, shaped for the optional caller |
| Trips.ListShowsPublicTrips | app/api/trips/route.ts:26-92 | only public trips are listed, each of them, newest first |
| MyTrips.Progress | app/api/trips/my/route.ts:92 | 0 with no todos; otherwise 100·completed/total rounded half up, so at most 100 |
| MyTrips.ProgressBounds | app/api/trips/my/route.ts:92 | the quotient lies in 0..100 and satisfies the rounding bounds |
| MyTrips.ProgressEnds | app/api/trips/my/route.ts:92 | all todos done gives 100, none done gives 0 |
| MyTrips.ProgressMonotone | app/api/trips/my/route.ts:92 | completing more todos never lowers the progress |
| MyTrips.UserRole | app/api/trips/my/route.ts:63-90 | the caller's participant role in lower case, else "participant" |
| MyTrips.ToMyTrip | app/api/trips/my/route.ts:62-99 | `isCreator` iff the caller created the trip; `userRole` is `UserRole` of the trip's participant rows; the participant count is their number; completed <= total todos; the progress is computed from them |
| MyTrips.TripParts | app/api/trips/my/route.ts:82-89 | every participant row of the trip, each as often as stored |
| MyTrips.TripTodos | app/api/trips/my/route.ts:64-65 | every to-do of the trip, each as often as stored |
| MyTrips.Mine | app/api/trips/my/route.ts:18-60 | exactly the trips the caller has a participant row in, each as often as stored, newest first |
| MyTrips.Views | app/api/trips/my/route.ts:62-99 | one shaped entry per trip of the caller, in order |
| MyTrips.Body | app/api/trips/my/route.ts:101-127 | the five categories are the filters of the list, and every stat is the length of its list |
| MyTrips.ViewsCreator | app/api/trips/my/route.ts:91 | `isCreator` holds exactly for the trips the caller created |
| MyTrips.CreatedJoinedMembers | app/api/trips/my/route.ts:102-103 | `created` holds the caller's own trips, `joined` the others |
| MyTrips.CreatedJoinedPartition | app/api/trips/my/route.ts:102-123 | `stats.created + stats.joined == stats.total` |
| MyTrips.OneBucket | app/api/trips/my/route.ts:104-109 | a trip that does not end before it starts is in exactly one of upcoming, ongoing and completed |
| MyTrips.BucketsPartition | app/api/trips/my/route.ts:104-126 | under that condition, upcoming + ongoing + completed equals the total |
| MyTrips.ViewsShowOwnTrips | app/api/trips/my/route.ts:18-99 | only the caller's trips are listed, and each of them is |
| MyTrips.Get | app/api/trips/my/route.ts:5-133 | 401 without a Bearer header, 500 on a rejected token; otherwise the body for the caller |
| ProfileTrips.BuddyRatings | app/api/profile/trips/route.ts:186-189 | the fold has a rating exactly for the reviewed buddies |
| ProfileTrips.LastReviewWins | app/api/profile/trips/route.ts:186-189 | a buddy's rating is that of their last review |
| ProfileTrips.EndedTrips | app/api/profile/trips/route.ts:167-182 | exactly the ENDED trips the caller takes part in, each as often as stored, latest end first |
| ProfileTrips.OwnBuddyReviews | app/api/profile/trips/route.ts:179 | every buddy review of the trip written by the caller, each as often as stored |
| ProfileTrips.OtherParticipants | app/api/profile/trips/route.ts:195-202 | one entry per participant row of the trip that is not the caller's, each rated by `RateBuddy` |
| ProfileTrips.OwnTripRating | app/api/profile/trips/route.ts:178-185 | 0 when the caller has not reviewed the trip; otherwise the rating of the caller's first review of the trip in the database's order |
| ProfileTrips.RateBuddy | app/api/profile/trips/route.ts:197-202 | the participant's id and avatar, and the caller's rating of them or 0 |
| ProfileTrips.CallerExcluded | app/api/profile/trips/route.ts:195-202 | the caller never appears among a trip's participants |
| ProfileTrips.ToEndedTrip | app/api/profile/trips/route.ts:184-204 | the trip's id, end date, the caller's own rating, and the other participants each rated by the caller's last review of them on this trip |
| ProfileTrips.Body | app/api/profile/trips/route.ts:184-206 | one entry per ended trip of the caller, in order |
| ProfileTrips.BodyShowsEndedTrips | app/api/profile/trips/route.ts:167-206 | every entry is an ENDED trip the caller takes part in |
| ProfileTrips.BodyLatestEndFirst | app/api/profile/trips/route.ts:181 | the entries are ordered by end date, latest first |
| ProfileTrips.Get | app/api/profile/trips/route.ts:156-210 | 401 without a Bearer header; any later failure, a rejected token included, gives 500 |
| Reviews.Decide | app/api/reviews/route.ts:244-272 | a missing trip id or review type, or a non-number rating, gives 400, as do BUDDY without a reviewed user and any other type; the comment defaults to ""; the rating's range is not checked |
| Reviews.Apply | app/api/reviews/route.ts:251-270 | a write sets exactly its key in its own table and leaves every other key and the other table as they were |
| Reviews.SecondSubmissionWins | app/api/reviews/route.ts:251-269 | two submissions under one key leave only the second review, and repeating a write changes nothing |
| Reviews.Submit | app/api/reviews/route.ts:233-276 | 401 without a Bearer header, 500 on a rejected token; a valid request makes its one upsert and an invalid one writes nothing |
| Chats.MemberList | app/api/chats/route.ts:47 | the caller first, then the requested users, each once |
| Chats.GroupIffTwoOthers | app/api/chats/route.ts:47-48 | with distinct requested users other than the caller, the chat is a group iff at least two are requested |
| Chats.ReuseAsWrittenLeaksForeignChat | app/api/chats/route.ts:50-56 | as written, "alice" asking for a chat with "bob" is answered with a chat holding only "bob"; the intended decision creates a new chat |
| Chats.ReusedChatHasCaller | app/api/chats/route.ts:50-56 | a chat reused under the intended test has exactly the caller and the requested users as members |
| Chats.ChatName | app/api/chats/route.ts:60 | the stored name is trimmed and non-empty, and absent exactly when the given name is absent or blank |
| Chats.PostDecision | app/api/chats/route.ts:42-65 | a missing or empty `memberIds` gives 400; a one-to-one request reuses a non-group chat all of whose members are in the list, if one exists; otherwise the new chat has the member list, `isGroup` and the name |
| Chats.PostDecisionIntended | app/api/chats/route.ts:42-65 | as `PostDecision`, but a reused chat has exactly the caller and the requested users as members |
| Chats.Post | app/api/chats/route.ts:38-68 | no token gives 401; the reuse query runs as written; a created chat is appended, and a reused chat or a failure leaves the table unchanged |
| Chats.LatestMessage | app/api/chats/route.ts:31 | at most one message, and the newest one when there are any |
| Chats.WithLatest | app/api/chats/route.ts:29-32 | the chat with at most its latest message |
| Chats.MemberChats | app/api/chats/route.ts:26-28 | exactly the chats the caller belongs to, most recently updated first |
| Chats.ChatsOf | app/api/chats/route.ts:26-35 | one entry per chat of the caller, in order, with only its latest message |
| Chats.ChatsOfListsMemberChats | app/api/chats/route.ts:26-35 | only the caller's chats are listed, each of them, most recently updated first |
| Chats.Get | app/api/chats/route.ts:22-36 | no token gives 401; succeeds iff the caller resolves, with that caller's chats |
| Blogs.Preview | app/api/blogs/route.ts:113 | the first 200 code points of the trimmed content, plus "..." iff the untrimmed content is longer than 200; at most 203 code points |
| Blogs.PreviewStartsWithContent | app/api/blogs/route.ts:113 | the preview starts with the trimmed content, and a short post's preview is all of it |
| Blogs.StoredLocation | app/api/blogs/route.ts:114 | the stored location is trimmed and non-empty, and null exactly when it is absent or blank |
| Blogs.CreateDecision | app/api/blogs/route.ts:100-120 | a falsy title or content gives 400; otherwise the post with trimmed fields, the preview and location rules, no tags or images, and not premium |
| Blogs.Create | app/api/blogs/route.ts:88-154 | 401 without a Bearer header; success appends the post and answers 201, not liked and not wishlisted; every failure writes nothing |
| Blogs.View | app/api/blogs/route.ts:67-79 | `likes` is the post's like count; `isLiked`/`isWishlisted` iff the signed-in caller has a row for it |
| Blogs.Found | app/api/blogs/route.ts:26-65 | exactly the posts matching the search, each as often as stored, latest `publishDate` first |
| Blogs.List | app/api/blogs/route.ts:7-86 | one view per found post, in order, for the optional caller |
| Blogs.AnonymousSeesNoMarks | app/api/blogs/route.ts:47-78 | an anonymous visitor sees nothing liked or wishlisted |
| Groups.GroupToken | app/api/groups/route.ts:46 | `split(" ")[1]` contains no space |
| Groups.GroupTokenAgrees | app/api/groups/route.ts:46 | a token without spaces is read as the other routes read it |
| Groups.GroupCallerId | app/api/groups/route.ts:53 | the caller is `id`, else `userId`, else `sub` |
| Groups.Caller | app/api/groups/route.ts:41-62 | a missing header, a rejected token and a token without a user id all give 401 |
| Groups.CreateDecision | app/api/groups/route.ts:64-100 | an absent or blank name gives 400, and so does a trimmed name already in use; otherwise a group with the trimmed name and the caller as creator |
| Groups.Create | app/api/groups/route.ts:39-110 | success appends the group and every failure writes nothing; group names stay unique |
| Groups.List | app/api/groups/route.ts:7-37 | every group, newest first |
| Signup.Decide | app/api/auth/signup/route.ts:11-44 | missing fields and a registered email give 400; otherwise a non-premium CUSTOMER with the hashed password |
| Signup.Public | app/api/auth/signup/route.ts:45-57 | the returned record copies every selected column and has no password |
| Signup.SessionFor | app/api/auth/signup/route.ts:61-87 | the token signs the user's id, email, type and premium flag, and the `auth-token` cookie carries it for seven days |
| Signup.Register | app/api/auth/signup/route.ts:9-99 | a refused sign-up leaves the table unchanged; an accepted one appends the user and answers with the session |
| Signup.SecondSignupRefused | app/api/auth/signup/route.ts:22-31 | once an email is registered, every later sign-up with it is refused |
| Signup.SessionDescribesNewUser | app/api/auth/signup/route.ts:61-66 | the token's claims are those of the created user |
| Profile.ViewOf | app/api/profile/route.ts:17-31 | `GET` shows every selected column of the user's row as stored: id, name, email, phone, interests, location, bio, avatar, isPremium and createdAt |
| Profile.UpdatedViewOf | app/api/profile/route.ts:67-77 | `PATCH` shows every selected column of the updated row as stored: id, name, email, phone, interests, location, bio, avatar and isPremium |
| Profile.Get | app/api/profile/route.ts:5-42 | 401 without a Bearer header, 500 on a rejected token, 404 for an unknown id; otherwise the caller's profile |
| Profile.ApplyPatch | app/api/profile/route.ts:56-66 | a field is written exactly when its new value is truthy; id, email, password, avatar, premium flag and type never change |
| Profile.PatchIdempotent | app/api/profile/route.ts:58-66 | sending the same patch twice is sending it once |
| Profile.EmptyPatchChangesNothing | app/api/profile/route.ts:58-66 | a patch without truthy fields changes nothing |
| Profile.Patch | app/api/profile/route.ts:44-85 | 401 without a Bearer header; 500 on a rejected token or unknown id; otherwise only the caller's row is patched |
| AdminUsers.Found | app/api/admin/users/route.ts:27-57 | exactly the listed users, newest first |
| AdminUsers.ToRow | app/api/admin/users/route.ts:59-68 | type "customer", status "active", and the trip count |
| AdminUsers.Get | app/api/admin/users/route.ts:7-75 | 401 without a Bearer header, 500 on a rejected token, 403 unless the token's type is ADMIN; otherwise one row per listed user |
| AdminUsers.OnlyCustomers | app/api/admin/users/route.ts:27-40 | only customers are listed; "premium" lists only premium users and "regular" only the others |
| AdminUsers.PremiumRegularPartition | app/api/admin/users/route.ts:39 | the "premium" and "regular" listings split the "all" listing |
| Middleware.BelowProtectedIsProtected | middleware.ts:12 | every page below a protected path is protected |
| Middleware.PrefixIsNotEnough | middleware.ts:6-12 | "/tripx" and "/blogs" are not protected, and "/trip" and "/trip/42" are |
| Middleware.PageToken | middleware.ts:16-21 | the header with its first "Bearer " removed when that is non-empty, else the `auth-token` cookie; an empty token counts as none |
| Middleware.BearerHeaderToken | middleware.ts:16-21 | a Bearer header with a token carries that token, whatever the cookie |
| Middleware.BareHeaderToken | middleware.ts:16 | a header without "Bearer " is taken whole as the token |
| Middleware.Decide | middleware.ts:8-37 | unprotected pages pass; a protected page passes iff it has a token that verifies, and is otherwise redirected to "/" |
| RandomDestination.Lines | app/api/destinations/random/route.ts:41 | exactly the non-blank lines of the trimmed text |
| RandomDestination.LinesHaveNoBreak | app/api/destinations/random/route.ts:41 | no line holds a line break |
| RandomDestination.CleanTextLines | app/api/destinations/random/route.ts:41 | trimmed text without blank lines splits into its lines unchanged |
| RandomDestination.Parse | app/api/destinations/random/route.ts:41-43 | the destination is the first non-blank line of the trimmed text, absent when there is none; the description is "" with at most one line |
| RandomDestination.FirstLine | app/api/destinations/random/route.ts:40-42 | the first kept line is the first non-blank piece of the trimmed text |
| RandomDestination.DescriptionLines | app/api/destinations/random/route.ts:43 | the description has no blank line, and split on "\n" it gives back the remaining lines |
| RandomDestination.ParseRoundTrip | app/api/destinations/random/route.ts:41-43 | the destination joined to the description by "\n" is the lines joined back, and splits into exactly them |
| RandomDestination.Get | app/api/destinations/random/route.ts:11-57 | a failing model call gives 500; otherwise the parsed suggestion |
| Notifications.Unread | lib/notification-context.tsx:64 | the unread count never exceeds the list length |
| Notifications.NoUnreadIffAllRead | lib/notification-context.tsx:64 | the count is 0 exactly when every entry is read |
| Notifications.AllRead | lib/notification-context.tsx:57 | the same entries in the same order, each marked read |
| Notifications.UnreadAfterAdd | lib/notification-context.tsx:53-64 | a new unread entry raises the count by exactly one |
| Notifications.AllReadClearsUnread | lib/notification-context.tsx:57-64 | after marking all as read nothing is unread, and the messages are unchanged |
| Notifications.AllReadIdempotent | lib/notification-context.tsx:57 | marking all as read twice is marking once |
| Notifications.NotificationCenter.constructor | lib/notification-context.tsx:23 | the provider starts with an empty list |
| Notifications.NotificationCenter.UnreadCount | lib/notification-context.tsx:64 | `unreadCount` never exceeds the list length |
| Notifications.NotificationCenter.AddNotification | lib/notification-context.tsx:46-54 | one unread entry is prepended, the others are unchanged, and the count rises by one |
| Notifications.NotificationCenter.MarkAllAsRead | lib/notification-context.tsx:56-58 | every entry becomes read and the count becomes 0 |
| Notifications.NotificationCenter.ClearNotifications | lib/notification-context.tsx:60-62 | the list is emptied |
| Notifications.UseNotifications | lib/notification-context.tsx:81-87 | outside a provider the hook throws its error; inside, it gives the context |
| CleanupGroups.Cleanup | scripts/cleanup_groups.ts:6-45 | the table ends with exactly the groups whose creator exists, in order; `deletedCount` is the number of orphans, and it plus the groups left is the number fetched |
| CleanupGroups.Visit | scripts/cleanup_groups.ts:24-36 | one iteration deletes the group iff its creator is missing |
| CleanupGroups.Finish | scripts/cleanup_groups.ts:21-38 | after the last iteration the rows and the count are those `Cleanup` promises |
| CleanupGroups.OrphansAndKept | scripts/cleanup_groups.ts:21-38 | every fetched group is either kept or counted as deleted |
| CleanupGroups.FinalKept | scripts/cleanup_groups.ts:24-36 | once every group has been visited, what is left is what has a creator |
| CleanupGroups.DeleteStep | scripts/cleanup_groups.ts:29-34 | deleting an orphan moves the table from "kept after i" to "kept after i + 1" |
| CleanupGroups.KeepStep | scripts/cleanup_groups.ts:29 | visiting a group whose creator exists leaves the table as it was |

## Left out

- **Token verification.** The signature check, expiry and the secret are not modelled: `jwtVerify`
  is a parameter of the handlers.
  - The middleware's fallback secret is covered only by giving the middleware a verifier of its
    own.
  - For the pending-requests route, whether `JWT_SECRET` is set is a boolean parameter.
- **Hashing, signing and dates.** bcrypt hashing, `SignJWT` signing and `new Date(...)` parsing
  are parameters. Dates are integers.
- **Database ids and clock.** The ids and timestamps the database assigns are parameters. The
  case-insensitive `contains` of the database is a parameter.
- **Relation includes.** Relation counts such as `_count.trips` are stored on the row. The
  included author name of a blog post is a `nameOf` parameter. The creator and `_count` includes
  of groups and trips are not shaped.
- **Database order.** The database's order for `orderBy` is modelled as one descending sort of
  the rows as stored. The order of rows with equal keys is not stated, and the database does
  not promise one.
- **Thrown database errors.** The 500 answers that `GET` handlers give when the database itself
  throws are not modelled: reads always succeed. A write that throws is modelled only where the
  handler's own logic leads to it (an unknown id in `PATCH /api/profile`).
- **Random and cosmetic fields.** The random `rating` of the buddy lists, `matchScore`, and the
  random id and clock of a new notification are left out. The notification id and time are
  parameters.
- **Numeric input.** `parseInt` of a non-numeric `maxParticipants` gives NaN in the source. The
  model takes an integer, so this case is not modelled.
- **Email.** The trip-creation email is left out. Its failure is caught and never changes the
  answer.
- **Logging and I/O.** Console logging, `prisma.$disconnect()` and the cleanup script's error
  logging are left out. So are the notification list's local-storage load and save.
- **Framework and transport.** Request parsing, cookies' other attributes, `secure`/`sameSite`
  flags and the middleware's `config.matcher` are left out. The `success: true` flags of the
  group and sign-up bodies are also left out.
- **Concurrency.** Concurrent requests are not modelled. Each handler runs alone against one
  snapshot of the tables.
- **Sorting.** `matchedUsers.sort` is modelled as a value, by `SortByDesc`. The engine's
  in-place sorting algorithm is not modelled; only its result is.
- MyTrips.Progress: rounds the exact quotient, where the source rounds a double. Where
  `completed / total * 100` lands just below a half in floating point, the source answers one
  less. For example, 23 of 40 to-dos give 57.49999999999999 and so 57 in the source, and 58
  here. Floating point is not modelled.
- Text.Prefix: counts Unicode code points, where `substring` counts UTF-16 units. A character
  outside the Basic Multilingual Plane is one code point here and two units in the source. A
  cut through the middle of a surrogate pair cannot be expressed.
- Blogs.Preview: the 200 limit and the length test count code points, not UTF-16 units. A post
  of 150 emoji is longer than 200 in the source, which previews 100 of them plus "...". Here it
  is 150 long and previewed whole.
- Seqs.SortByDesc: states that the result is sorted and a permutation, not that it is stable.
  ECMAScript's `sort` is stable, so matches with equal `commonInterests` keep their order there.
  The model does not promise that order.
- MyTrips.Body: one clock reading `now` stands for all of them. The route calls `new Date()`
  once per trip in each of the three status filters. A trip that starts or ends between two
  readings can fall into two buckets or into none.
- MyTrips.BucketsPartition: holds for a single clock reading only, for the same reason.
- Claims without `id`: a verified token always carries an `id` claim here, and "" stands for a
  missing one. What the source does with a token that has no `id` claim is not modelled.
  It differs from route to route:
  - `GET /api/profile`, `POST /api/trips`, `POST /api/blogs` and `POST /api/reviews` pass
    `undefined` to `findUnique`, `create` or `upsert`, which throws.
  - `GET /api/trips/my` passes it inside a `some` filter. The database ignores an undefined
    filter value there.
  - `GET /api/profile/trips` converts it to the string "undefined".
- Profile.Get: a verified token without `id` gives 500 in the source and 404 here.
- Trips.Create: a verified token without `id` gives 500 in the source. Here it inserts a trip
  whose creator is "".
- Blogs.Create: a verified token without `id` gives 500 in the source. Here it inserts a post
  whose author is "".
- Reviews.Decide: the rating is an integer or absent. A non-integer number passes the route's
  `typeof rating === "number"` test and then fails at the integer column with 500; the model
  cannot express that input.
- Reviews.Decide: an absent comment and a `null` comment both become "". In the source only an
  absent one is defaulted by `comment = ""`, and `null` reaches the database.
- PendingRequests.FormatUser: `tripsCompleted` is always the row's trip count. The `|| 0`
  fallback for a missing count is not modelled, because every row carries its count.
- Profile.Get: the 500 for a failing database read is not modelled. Only the rejected-token 500
  is stated.

## Findings

| source | as written | input that shows it | evidently intended | confidence | as-written member | corrected member |
|---|---|---|---|---|---|---|
| app/api/chats/route.ts:50-56 | a one-to-one chat is reused when it is not a group and all of its members are in the requested list (`every ... in uniqueIds`) | caller "alice" asks for a chat with "bob"; the table holds a non-group chat whose only member is "bob"; it is returned although "alice" is not in it | reuse only a non-group chat whose members are exactly the caller and the requested user | not executed | Chats.ReuseAsWrittenLeaksForeignChat | Chats.PostDecisionIntended |

=== FILE: admin_users.dfy ===
/** `GET /api/admin/users`: the customer list of the admin dashboard. */
module AdminUsers {

  import opened Base
  import opened Seqs
  import opened Http
  import opened Db

  /** A row of the dashboard. */
  datatype AdminRow = AdminRow(
    id: UserId, name: string, email: string, kind: string, isPremium: bool, joinDate: int,
    tripsCompleted: nat, status: string)

  /** `filter === "premium"` keeps premium users, `"regular"` the others, anything else both. */
  predicate PremiumMatch(u: User, filter: string) {
    if filter == "premium" then u.isPremium
    else if filter == "regular" then !u.isPremium
    else true
  }

  /** The `where` clause: a customer, matching the search by name or email, and the premium filter. */
  predicate Listed(u: User, search: string, filter: string, contains: (string, string) -> bool) {
    u.kind == Customer &&
    (search == "" || contains(u.name, search) || contains(u.email, search)) &&
    PremiumMatch(u, filter)
  }

  function CreatedAt(u: User): int {
    u.createdAt
  }

  /** The users the query returns, newest first. */
  function Found(users: seq<User>, search: string, filter: string, contains: (string, string) -> bool)
    : (r: seq<User>)
    ensures forall u :: u in r <==> u in users && Listed(u, search, filter, contains)
    ensures SortedDesc(r, CreatedAt)
    ensures |r| == Count(users, (u: User) => Listed(u, search, filter, contains))
  {
    var hits := Filter(users, (u: User) => Listed(u, search, filter, contains));
    SortByDescMembers(hits, CreatedAt);
    SortByDesc(hits, CreatedAt)
  }

  function ToRow(u: User): (row: AdminRow)
    ensures row.id == u.id && row.isPremium == u.isPremium && row.joinDate == u.createdAt
    ensures row.kind == "customer" && row.status == "active" && row.tripsCompleted == u.tripCount
  {
    AdminRow(u.id, u.name, u.email, "customer", u.isPremium, u.createdAt, u.tripCount, "active")
  }

  /**
   * `GET`: 401 without a `Bearer` header, 500 when verification fails, 403 unless the token's
   * `type` is ADMIN; then one row per listed user, newest first.
   */
  function Get(header: Option<string>, verify: Verifier, search: Option<string>, filter: Option<string>,
               users: seq<User>, contains: (string, string) -> bool)
    : (r: Response<seq<AdminRow>>)
    ensures BearerToken(header).None? ==> r == Fail(401, "Not authenticated")
    ensures BearerToken(header).Some? && verify(BearerToken(header).value).Rejected? ==>
              r == Fail(500, "Failed to fetch users")
    ensures BearerClaims(header, verify, "Not authenticated", "Failed to fetch users").Ok? ==>
              (r.Ok? <==> BearerClaims(header, verify, "Not authenticated", "Failed to fetch users").body.kind == Some("ADMIN"))
    ensures r.Ok? ==> BearerClaims(header, verify, "Not authenticated", "Failed to fetch users").Ok?
    ensures r.Fail? && r.status != 401 && r.status != 500 ==> r == Fail(403, "Not authorized")
    ensures r.Ok? ==>
              var found := Found(users, search.GetOr(""), OrElse(filter, "all"), contains);
              |r.body| == |found| && forall k :: 0 <= k < |r.body| ==> r.body[k] == ToRow(found[k])
  {
    match BearerClaims(header, verify, "Not authenticated", "Failed to fetch users")
    case Fail(s, e) => Fail(s, e)
    case Ok(_, claims) =>
      if claims.kind != Some("ADMIN") then Fail(403, "Not authorized")
      else Ok(200, Map(Found(users, search.GetOr(""), OrElse(filter, "all"), contains), ToRow))
  }

  /** The listing only ever shows customers, and shows them in joining order, newest first. */
  lemma OnlyCustomers(users: seq<User>, search: string, filter: string, contains: (string, string) -> bool)
    ensures forall u :: u in Found(users, search, filter, contains) ==> u.kind == Customer
    ensures forall u :: u in Found(users, search, filter, contains) && filter == "premium" ==> u.isPremium
    ensures forall u :: u in Found(users, search, filter, contains) && filter == "regular" ==> !u.isPremium
  {
  }

  /** The "premium" and the "regular" listings split the "all" listing between them. */
  lemma PremiumRegularPartition(users: seq<User>, search: string, contains: (string, string) -> bool)
    ensures |Found(users, search, "premium", contains)| + |Found(users, search, "regular", contains)| ==
            |Found(users, search, "all", contains)|
  {
    FilterSplit(users, (u: User) => Listed(u, search, "all", contains),
                (u: User) => Listed(u, search, "premium", contains), (u: User) => Listed(u, search, "regular", contains));
  }
}

=== FILE: base.dfy ===
/** Values that may be absent: a JSON field, a nullable column, a header. */
module Base {

  datatype Option<+T> = None | Some(value: T) {

    /** The value, or `default` when absent (the `??` operator). */
    function GetOr(default: T): T {
      match this
      case Some(v) => v
      case None => default
    }
  }

  /** JavaScript truthiness of an optional string: absent and "" are falsy. */
  predicate Truthy(s: Option<string>) {
    s.Some? && s.value != ""
  }

  /** `s || fallback` for an optional string. */
  function OrElse(s: Option<string>, fallback: string): (r: string)
    ensures Truthy(s) ==> r == s.value
    ensures !Truthy(s) ==> r == fallback
  {
    if Truthy(s) then s.value else fallback
  }
}

=== FILE: blogs.dfy ===
/**
 * `POST /api/blogs` (publish a post) and `GET /api/blogs` (all posts, newest first, with the
 * caller's likes and wishlist).
 */
module Blogs {

  import opened Base
  import opened Seqs
  import opened Text
  import opened Http
  import opened Db

  const PreviewLength := 200
  const Ellipsis := "..."

  /**
   * The first 200 code points of the trimmed content, followed by "..." when the content as
   * sent, before trimming, is longer than 200 code points.
   */
  function Preview(content: string): (p: string)
    ensures |p| <= PreviewLength + |Ellipsis|
    ensures |content| > PreviewLength ==> p == Prefix(Trim(content), PreviewLength) + Ellipsis
    ensures |content| <= PreviewLength ==> p == Trim(content)
  {
    Prefix(Trim(content), PreviewLength) + (if |content| > PreviewLength then Ellipsis else "")
  }

  /** The preview starts with the trimmed content, and a short post's preview is all of it. */
  lemma PreviewStartsWithContent(content: string)
    ensures Prefix(Trim(content), PreviewLength) <= Preview(content)
    ensures |Trim(content)| <= PreviewLength && |content| <= PreviewLength ==> Preview(content) == Trim(content)
    ensures Preview(content) <= Trim(content) || |content| > PreviewLength
  {
  }

  /** `location?.trim() || null`. */
  function StoredLocation(location: Option<string>): (r: Option<string>)
    ensures r.Some? ==> location.Some? && r.value != "" && r.value == Trim(location.value)
    ensures r.None? <==> location.None? || AllSpace(location.value)
  {
    if location.None? then None
    else
      TrimEmpty(location.value);
      if Trim(location.value) == "" then None else Some(Trim(location.value))
  }

  /** The JSON body of `POST`; an absent or falsy field is `None`. */
  datatype BlogInput = BlogInput(title: Option<string>, content: Option<string>, location: Option<string>,
                                 publishDate: Option<string>)

  /**
   * The validation of `POST` and the row it creates: a falsy title or content is refused, but
   * one of only white space passes and is stored as "".
   */
  function CreateDecision(author: UserId, input: BlogInput, toDate: string -> int, freshId: BlogId, now: int)
    : (r: Response<Blog>)
    ensures r.Ok? <==> Truthy(input.title) && Truthy(input.content)
    ensures r.Fail? ==> r == Fail(400, "Title and content are required")
    ensures r.Ok? ==>
              r.body.id == freshId && r.body.authorId == author &&
              r.body.title == Trim(input.title.value) && r.body.content == Trim(input.content.value) &&
              r.body.preview == Preview(input.content.value) && r.body.location == StoredLocation(input.location) &&
              r.body.publishDate == (if Truthy(input.publishDate) then toDate(input.publishDate.value) else now) &&
              r.body.tags == [] && r.body.images == [] && !r.body.isPremium
  {
    if !Truthy(input.title) || !Truthy(input.content) then Fail(400, "Title and content are required")
    else
      var date := if Truthy(input.publishDate) then toDate(input.publishDate.value) else now;
      Ok(200, Blog(freshId, Trim(input.title.value), Trim(input.content.value), Preview(input.content.value),
                   StoredLocation(input.location), date, author, [], [], false))
  }

  /** A post as the routes return it. */
  datatype BlogView = BlogView(
    id: BlogId, title: string, preview: string, location: Option<string>, tags: seq<string>, images: seq<string>,
    publishDate: int, author: string, likes: nat, isLiked: bool, isWishlisted: bool)

  /**
   * `POST`: no `Bearer` header gives 401, a rejected token 500; a valid post is inserted and
   * answered with status 201, not liked and not wishlisted. `nameOf` is the author lookup.
   */
  method Create(table: BlogTable, header: Option<string>, verify: Verifier, input: BlogInput,
                toDate: string -> int, nameOf: UserId -> string, freshId: BlogId, now: int)
    returns (r: Response<BlogView>)
    requires table.Valid()
    requires forall i :: 0 <= i < |table.rows| ==> table.rows[i].id != freshId
    modifies table
    ensures table.Valid()
    ensures BearerToken(header).None? ==> r == Fail(401, "Unauthorized")
    ensures r.Fail? && r.status != 401 && r.status != 400 ==> r == Fail(500, "Failed to create blog")
    ensures r.Ok? <==> BearerClaims(header, verify, "Unauthorized", "Failed to create blog").Ok? &&
                       Truthy(input.title) && Truthy(input.content)
    ensures r.Ok? ==>
              var b := CreateDecision(BearerClaims(header, verify, "Unauthorized", "Failed to create blog").body.id,
                                      input, toDate, freshId, now).body;
              table.rows == old(table.rows) + [b] &&
              r == Ok(201, BlogView(b.id, b.title, b.preview, b.location, [], [], b.publishDate, nameOf(b.authorId),
                                    0, false, false))
    ensures r.Fail? ==> table.rows == old(table.rows)
  {
    var auth := BearerClaims(header, verify, "Unauthorized", "Failed to create blog");
    if auth.Fail? {
      return Fail(auth.status, auth.error);
    }
    var d := CreateDecision(auth.body.id, input, toDate, freshId, now);
    if d.Fail? {
      return Fail(d.status, d.error);
    }
    var b := d.body;
    table.Insert(b);
    r := Ok(201, BlogView(b.id, b.title, b.preview, b.location, [], [], b.publishDate, nameOf(b.authorId), 0, false, false));
  }

  /** The search: title, preview or location contains the text (`contains` is the database's test). */
  predicate Matches(b: Blog, search: string, contains: (string, string) -> bool) {
    search == "" || contains(b.title, search) || contains(b.preview, search) ||
    (b.location.Some? && contains(b.location.value, search))
  }

  function PublishDate(b: Blog): int {
    b.publishDate
  }

  /** A post as `GET` shows it to `caller`. */
  function View(b: Blog, caller: Option<UserId>, likes: seq<Mark>, wishlists: seq<Mark>, nameOf: UserId -> string)
    : (v: BlogView)
    ensures v.id == b.id && v.likes == Count(likes, (m: Mark) => m.blogId == b.id)
    ensures v.isLiked <==> caller.Some? && Mark(caller.value, b.id) in likes
    ensures v.isWishlisted <==> caller.Some? && Mark(caller.value, b.id) in wishlists
  {
    var liked := caller.Some? && Mark(caller.value, b.id) in likes;
    var wished := caller.Some? && Mark(caller.value, b.id) in wishlists;
    BlogView(b.id, b.title, b.preview, b.location, b.tags, b.images, b.publishDate, nameOf(b.authorId),
             Count(likes, (m: Mark) => m.blogId == b.id), liked, wished)
  }

  /** The posts matching the search, latest `publishDate` first. */
  function Found(rows: seq<Blog>, search: string, contains: (string, string) -> bool): (r: seq<Blog>)
    ensures forall b :: b in r <==> b in rows && Matches(b, search, contains)
    ensures forall b :: multiset(r)[b] == if Matches(b, search, contains) then multiset(rows)[b] else 0
    ensures SortedDesc(r, PublishDate)
  {
    var hits := Filter(rows, (b: Blog) => Matches(b, search, contains));
    FilterMultiplicities(rows, (b: Blog) => Matches(b, search, contains));
    SortByDescMembers(hits, PublishDate);
    SortByDesc(hits, PublishDate)
  }

  /** `GET`: never an authentication error; an invalid token only makes the caller anonymous. */
  function List(header: Option<string>, verify: Verifier, search: Option<string>, rows: seq<Blog>,
                likes: seq<Mark>, wishlists: seq<Mark>, nameOf: UserId -> string, contains: (string, string) -> bool)
    : (r: seq<BlogView>)
    ensures |r| == |Found(rows, search.GetOr(""), contains)|
    ensures forall k :: 0 <= k < |r| ==>
              r[k] == View(Found(rows, search.GetOr(""), contains)[k], OptionalCaller(header, verify), likes, wishlists, nameOf)
  {
    var caller := OptionalCaller(header, verify);
    Map(Found(rows, search.GetOr(""), contains), (b: Blog) => View(b, caller, likes, wishlists, nameOf))
  }

  /** An anonymous visitor sees nothing liked or wishlisted. */
  lemma AnonymousSeesNoMarks(header: Option<string>, verify: Verifier, search: Option<string>, rows: seq<Blog>,
                             likes: seq<Mark>, wishlists: seq<Mark>, nameOf: UserId -> string, contains: (string, string) -> bool)
    requires OptionalCaller(header, verify).None?
    ensures forall v :: v in List(header, verify, search, rows, likes, wishlists, nameOf, contains) ==>
              !v.isLiked && !v.isWishlisted
  {
    var r := List(header, verify, search, rows, likes, wishlists, nameOf, contains);
    forall v | v in r
      ensures !v.isLiked && !v.isWishlisted
    {
      var k :| 0 <= k < |r| && r[k] == v;
    }
  }
}

=== FILE: buddy_directory.dfy ===
/**
 * `GET /api/buddies`: the traveller directory. Anyone may call it; a valid token only removes
 * the caller from the list.
 */
module BuddyDirectory {

  import opened Base
  import opened Seqs
  import opened Http
  import opened Db
  import opened Interests
  import opened BuddyRequests

  const PageSize := 20

  /**
   * The user query. `contains(field, search)` is the database's case-insensitive substring test;
   * a null `interests` column never contains anything.
   */
  predicate Listed(u: User, caller: Option<UserId>, search: string, contains: (string, string) -> bool) {
    (caller.None? || u.id != caller.value) &&
    u.kind == Customer &&
    (search == "" || contains(u.name, search) || (u.interests.Some? && contains(u.interests.value, search)))
  }

  /** A directory entry; the location is always the placeholder. */
  function ToEntry(u: User): (v: BuddyView)
    ensures v.id == u.id && v.location == "Location not set" && v.interests == ParseInterests(u.interests)
  {
    BuddyView(u.id, u.name, OrElse(u.avatar, "/placeholder.svg"), "Location not set", u.tripCount,
              ParseInterests(u.interests))
  }

  /** The first `PageSize` users the query matches (`take: 20`), formatted. */
  function Directory(users: seq<User>, caller: Option<UserId>, search: string, contains: (string, string) -> bool)
    : (r: seq<BuddyView>)
    ensures |r| <= PageSize
  {
    var hits := Filter(users, (u: User) => Listed(u, caller, search, contains));
    var page := if |hits| <= PageSize then hits else hits[..PageSize];
    Map(page, ToEntry)
  }

  /**
   * Each entry comes from a listed user: never the caller, always a CUSTOMER, and matching a
   * non-empty search by name or interests.
   */
  lemma DirectoryEntries(users: seq<User>, caller: Option<UserId>, search: string,
                         contains: (string, string) -> bool, v: BuddyView)
    requires v in Directory(users, caller, search, contains)
    ensures exists u :: u in users && Listed(u, caller, search, contains) && v == ToEntry(u)
    ensures caller.Some? ==> v.id != caller.value
  {
    var hits := Filter(users, (u: User) => Listed(u, caller, search, contains));
    var page := if |hits| <= PageSize then hits else hits[..PageSize];
    MapIn(page, ToEntry, v);
    var u :| u in page && ToEntry(u) == v;
    assert u in hits;
  }

  /** When fewer than `PageSize` users match, every one of them is listed. */
  lemma DirectoryComplete(users: seq<User>, caller: Option<UserId>, search: string,
                          contains: (string, string) -> bool, u: User)
    requires Count(users, (w: User) => Listed(w, caller, search, contains)) <= PageSize
    requires u in users && Listed(u, caller, search, contains)
    ensures ToEntry(u) in Directory(users, caller, search, contains)
  {
    var hits := Filter(users, (w: User) => Listed(w, caller, search, contains));
    MapIn(hits, ToEntry, ToEntry(u));
  }

  /** `GET`: never an authentication error. */
  function Get(header: Option<string>, verify: Verifier, search: Option<string>, users: seq<User>,
               contains: (string, string) -> bool)
    : (r: Response<seq<BuddyView>>)
    ensures r.Ok? && r.status == 200
    ensures r.body == Directory(users, OptionalCaller(header, verify), search.GetOr(""), contains)
  {
    Ok(200, Directory(users, OptionalCaller(header, verify), search.GetOr(""), contains))
  }
}

=== FILE: buddy_requests.dfy ===
/**
 * `POST /api/buddies/requests` (send a request) and `GET /api/buddies/requests` (my buddies:
 * the other side of every accepted request, once per user).
 */
module BuddyRequests {

  import opened Base
  import opened Seqs
  import opened Http
  import opened Db
  import opened Interests
  import opened Text

  /** An accepted request in which `uid` is the requester or the receiver. */
  predicate AcceptedWith(r: BuddyRequest, uid: UserId) {
    r.status == Accepted && (r.requesterId == uid || r.receiverId == uid)
  }

  /** The party of `r` that is not `uid`. */
  function Counterpart(r: BuddyRequest, uid: UserId): (other: UserId)
    ensures r.requesterId == uid ==> other == r.receiverId
    ensures r.requesterId != uid ==> other == r.requesterId
  {
    if r.requesterId == uid then r.receiverId else r.requesterId
  }

  /** The accepted buddies' ids, one per accepted request, duplicates kept. */
  function AcceptedCounterparts(uid: UserId, requests: seq<BuddyRequest>): (ids: seq<UserId>)
    ensures |ids| == Count(requests, (r: BuddyRequest) => AcceptedWith(r, uid))
  {
    Map(Filter(requests, (r: BuddyRequest) => AcceptedWith(r, uid)), (r: BuddyRequest) => Counterpart(r, uid))
  }

  lemma AcceptedCounterpartsMembers(uid: UserId, requests: seq<BuddyRequest>, id: UserId)
    ensures id in AcceptedCounterparts(uid, requests) <==>
              exists r :: r in requests && AcceptedWith(r, uid) && Counterpart(r, uid) == id
  {
    var acc := Filter(requests, (r: BuddyRequest) => AcceptedWith(r, uid));
    MapIn(acc, (r: BuddyRequest) => Counterpart(r, uid), id);
  }

  /** Whether the ordered pair (requester, receiver) already has a request, in any status. */
  predicate PairExists(rows: seq<BuddyRequest>, requester: UserId, receiver: UserId) {
    exists i :: 0 <= i < |rows| && rows[i].requesterId == requester && rows[i].receiverId == receiver
  }

  /**
   * The checks of `POST` after authentication, and the row it creates. Only the ordered pair
   * (caller, receiver) is looked up; a request in the other direction does not block this one.
   */
  function PostDecision(caller: UserId, receiverId: Option<string>, rows: seq<BuddyRequest>, freshId: string, now: int)
    : (r: Response<BuddyRequest>)
    ensures !Truthy(receiverId) ==> r == Fail(400, "Receiver ID is required")
    ensures Truthy(receiverId) && receiverId.value == caller ==> r == Fail(400, "Cannot send buddy request to yourself")
    ensures r.Ok? <==> Truthy(receiverId) && receiverId.value != caller && !PairExists(rows, caller, receiverId.value)
    ensures r.Fail? ==> r.status == 400
    ensures r.Ok? ==> r.status == 200 && r.body.requesterId == caller && r.body.receiverId == receiverId.value
    ensures r.Ok? ==> r.body.status == Pending && r.body.id == freshId && r.body.createdAt == now
  {
    if !Truthy(receiverId) then Fail(400, "Receiver ID is required")
    else if receiverId.value == caller then Fail(400, "Cannot send buddy request to yourself")
    else if PairExists(rows, caller, receiverId.value) then Fail(400, "Buddy request already sent")
    else Ok(200, BuddyRequest(freshId, caller, receiverId.value, Pending, now))
  }

  /**
   * `POST`: authenticate, check, and insert exactly one PENDING request from the caller.
   * `freshId` and `now` are the id and the timestamp the database assigns to the new row.
   */
  method Post(table: RequestTable, header: Option<string>, verify: Verifier, receiverId: Option<string>,
              freshId: string, now: int)
    returns (r: Response<BuddyRequest>)
    requires table.Valid()
    requires forall i :: 0 <= i < |table.rows| ==> table.rows[i].id != freshId
    modifies table
    ensures table.Valid()
    ensures BearerToken(header).None? ==> r == Fail(401, "Not authenticated")
    ensures BearerToken(header).Some? && verify(BearerToken(header).value).Rejected? ==>
              r == Fail(500, "Failed to send buddy request")
    ensures BearerToken(header).Some? && verify(BearerToken(header).value).Verified? ==>
              r == PostDecision(verify(BearerToken(header).value).claims.id, receiverId, old(table.rows), freshId, now)
    ensures r.Ok? ==> table.rows == old(table.rows) + [r.body]
    ensures r.Fail? ==> table.rows == old(table.rows)
  {
    var auth := BearerClaims(header, verify, "Not authenticated", "Failed to send buddy request");
    if auth.Fail? {
      return Fail(auth.status, auth.error);
    }
    r := PostDecision(auth.body.id, receiverId, table.rows, freshId, now);
    if r.Ok? {
      table.Insert(r.body);
    }
  }

  /** A successful request never creates a second request for the same ordered pair. */
  lemma PostKeepsPairsUnique(caller: UserId, receiverId: Option<string>, rows: seq<BuddyRequest>, freshId: string, now: int)
    requires DistinctKeys(rows, (q: BuddyRequest) => (q.requesterId, q.receiverId))
    requires PostDecision(caller, receiverId, rows, freshId, now).Ok?
    ensures DistinctKeys(rows + [PostDecision(caller, receiverId, rows, freshId, now).body],
                         (q: BuddyRequest) => (q.requesterId, q.receiverId))
  {
    var r := PostDecision(caller, receiverId, rows, freshId, now).body;
    var all := rows + [r];
    forall i, j | 0 <= i < j < |all|
      ensures (all[i].requesterId, all[i].receiverId) != (all[j].requesterId, all[j].receiverId)
    {
      if j == |rows| {
        assert all[i] == rows[i];
      } else {
        assert all[i] == rows[i] && all[j] == rows[j];
      }
    }
  }

  /** A buddy as `GET` shows it (the random rating and match score are not modelled). */
  datatype BuddyView = BuddyView(
    id: UserId, name: string, avatar: string, location: string, tripsCompleted: nat, interests: seq<string>)

  /** A request row with its `requester` and `receiver` users included. */
  datatype JoinedRequest = JoinedRequest(request: BuddyRequest, requester: User, receiver: User)

  predicate WellJoined(j: JoinedRequest) {
    j.requester.id == j.request.requesterId && j.receiver.id == j.request.receiverId
  }

  /**
   * The other side of an accepted request as `GET` shows it: falsy location and avatar get
   * their defaults, and the interests are the comma pieces, each trimmed, empty ones kept.
   */
  function ToBuddyView(u: User): (v: BuddyView)
    ensures v.id == u.id && v.name == u.name && v.tripsCompleted == u.tripCount
    ensures Truthy(u.avatar) ==> v.avatar == u.avatar.value
    ensures !Truthy(u.avatar) ==> v.avatar == "/placeholder.svg"
    ensures Truthy(u.location) ==> v.location == u.location.value
    ensures !Truthy(u.location) ==> v.location == "Location not set"
    ensures v.interests == ParseInterests(u.interests)
    ensures forall k :: 0 <= k < |v.interests| ==> ',' !in v.interests[k] && Trim(v.interests[k]) == v.interests[k]
  {
    ParsedPieces(u.interests);
    BuddyView(u.id, u.name, OrElse(u.avatar, "/placeholder.svg"), OrElse(u.location, "Location not set"),
              u.tripCount, ParseInterests(u.interests))
  }

  /** The included user that is not the caller. */
  function OtherSide(j: JoinedRequest, uid: UserId): (u: User)
    ensures WellJoined(j) ==> u.id == Counterpart(j.request, uid)
  {
    if j.request.requesterId == uid then j.receiver else j.requester
  }

  /** The accepted requests the caller is in, each as often as stored. */
  function AcceptedJoined(uid: UserId, joined: seq<JoinedRequest>): (r: seq<JoinedRequest>)
    ensures forall j :: multiset(r)[j] == if AcceptedWith(j.request, uid) then multiset(joined)[j] else 0
  {
    FilterMultiplicities(joined, (j: JoinedRequest) => AcceptedWith(j.request, uid));
    Filter(joined, (j: JoinedRequest) => AcceptedWith(j.request, uid))
  }

  /** One view per request, showing its other side. */
  function BuddyViews(uid: UserId, js: seq<JoinedRequest>): (r: seq<BuddyView>)
    ensures |r| == |js|
    ensures forall k :: 0 <= k < |js| && WellJoined(js[k]) ==> r[k].id == Counterpart(js[k].request, uid)
  {
    Map(js, (j: JoinedRequest) => ToBuddyView(OtherSide(j, uid)))
  }

  /** `GET`'s list: map every accepted request to its other side, then keep the first entry per id. */
  function MyBuddies(uid: UserId, joined: seq<JoinedRequest>): (r: seq<BuddyView>)
    ensures DistinctKeys(r, (v: BuddyView) => v.id)
    ensures |r| <= Count(joined, (j: JoinedRequest) => AcceptedWith(j.request, uid))
  {
    DedupBy(BuddyViews(uid, AcceptedJoined(uid, joined)), (v: BuddyView) => v.id)
  }

  /**
   * The ids `GET` lists are exactly the counterparts of the caller's accepted requests:
   * each such counterpart is listed, and nothing else is.
   */
  lemma MyBuddiesAreCounterparts(uid: UserId, joined: seq<JoinedRequest>, id: UserId)
    requires forall j :: j in joined ==> WellJoined(j)
    ensures id in Keys(MyBuddies(uid, joined), (v: BuddyView) => v.id) <==>
              exists j :: j in joined && AcceptedWith(j.request, uid) && Counterpart(j.request, uid) == id
  {
    var acc := AcceptedJoined(uid, joined);
    AcceptedJoinedMembers(uid, joined);
    if id in Keys(BuddyViews(uid, acc), (v: BuddyView) => v.id) {
      ListedIsCounterpart(uid, acc, id);
    }
    if exists j :: j in acc && Counterpart(j.request, uid) == id {
      CounterpartIsListed(uid, acc, id);
    }
  }

  lemma AcceptedJoinedMembers(uid: UserId, joined: seq<JoinedRequest>)
    requires forall j :: j in joined ==> WellJoined(j)
    ensures forall j :: j in AcceptedJoined(uid, joined) <==> j in joined && AcceptedWith(j.request, uid)
    ensures forall j :: j in AcceptedJoined(uid, joined) ==> WellJoined(j)
  {
  }

  lemma CounterpartIsListed(uid: UserId, acc: seq<JoinedRequest>, id: UserId)
    requires forall j :: j in acc ==> WellJoined(j)
    requires exists j :: j in acc && Counterpart(j.request, uid) == id
    ensures id in Keys(BuddyViews(uid, acc), (v: BuddyView) => v.id)
  {
    var views := BuddyViews(uid, acc);
    var j :| j in acc && Counterpart(j.request, uid) == id;
    var k :| 0 <= k < |acc| && acc[k] == j;
    assert views[k].id == id;
    assert views[k] in views;
  }

  lemma ListedIsCounterpart(uid: UserId, acc: seq<JoinedRequest>, id: UserId)
    requires forall j :: j in acc ==> WellJoined(j) && AcceptedWith(j.request, uid)
    requires id in Keys(BuddyViews(uid, acc), (v: BuddyView) => v.id)
    ensures exists j :: j in acc && AcceptedWith(j.request, uid) && Counterpart(j.request, uid) == id
  {
    var views := BuddyViews(uid, acc);
    var v :| v in views && v.id == id;
    var k :| 0 <= k < |views| && views[k] == v;
    assert acc[k] in acc;
    assert Counterpart(acc[k].request, uid) == id;
  }

  /** `GET`: authenticate (401, or 500 when verification throws), then list the buddies. */
  function Get(header: Option<string>, verify: Verifier, joined: seq<JoinedRequest>): (r: Response<seq<BuddyView>>)
    ensures BearerToken(header).None? ==> r == Fail(401, "Not authenticated")
    ensures r.Ok? <==> BearerClaims(header, verify, "Not authenticated", "Failed to fetch buddies").Ok?
    ensures r.Ok? ==> DistinctKeys(r.body, (v: BuddyView) => v.id)
    ensures r.Ok? ==>
              r.body == MyBuddies(BearerClaims(header, verify, "Not authenticated", "Failed to fetch buddies").body.id, joined)
  {
    match BearerClaims(header, verify, "Not authenticated", "Failed to fetch buddies")
    case Fail(s, e) => Fail(s, e)
    case Ok(_, claims) => Ok(200, MyBuddies(claims.id, joined))
  }
}

=== FILE: chat_buddies.dfy ===
/**
 * `GET /api/chat-buddies`: the users the caller can chat with, namely the other party of each
 * ACCEPTED request the caller is in, each user once.
 */
module ChatBuddies {

  import opened Base
  import opened Seqs
  import opened Http
  import opened Db
  import opened BuddyRequests

  /** The selected user fields `id`, `name`, `email`, `avatar`. */
  datatype ChatBuddy = ChatBuddy(id: UserId, name: string, email: string, avatar: Option<string>)

  function Identity(id: UserId): UserId {
    id
  }

  /** `Array.from(new Set(accepted.map(counterpart)))`. */
  function OtherIds(me: UserId, requests: seq<BuddyRequest>): (ids: seq<UserId>)
    ensures DistinctKeys(ids, Identity)
  {
    DedupBy(AcceptedCounterparts(me, requests), Identity)
  }

  /** An id is listed iff it is the other party of an ACCEPTED request the caller is in. */
  lemma OtherIdsMembers(me: UserId, requests: seq<BuddyRequest>, id: UserId)
    ensures id in OtherIds(me, requests) <==>
              exists r :: r in requests && AcceptedWith(r, me) && Counterpart(r, me) == id
  {
    var all := AcceptedCounterparts(me, requests);
    AcceptedCounterpartsMembers(me, requests, id);
    assert Keys(OtherIds(me, requests), Identity) == Keys(all, Identity);
    if id in all {
      assert Identity(id) in Keys(all, Identity);
      var x :| x in OtherIds(me, requests) && Identity(x) == id;
    }
    if id in OtherIds(me, requests) {
      assert Identity(id) in Keys(OtherIds(me, requests), Identity);
      var x :| x in all && Identity(x) == id;
    }
  }

  /** The selected columns `id`, `name`, `email` and `avatar` of the user. */
  function ToChatBuddy(u: User): (b: ChatBuddy)
    ensures b.id == u.id && b.name == u.name && b.email == u.email && b.avatar == u.avatar
  {
    ChatBuddy(u.id, u.name, u.email, u.avatar)
  }

  /** `prisma.user.findMany({ where: { id: { in: otherIds } } })`. */
  function Buddies(me: UserId, requests: seq<BuddyRequest>, users: seq<User>): (r: seq<ChatBuddy>)
    ensures |r| <= |users|
  {
    var ids := OtherIds(me, requests);
    Map(Filter(users, (u: User) => u.id in ids), ToChatBuddy)
  }

  /** The returned users are exactly the users whose id is listed. */
  lemma BuddiesMembers(me: UserId, requests: seq<BuddyRequest>, users: seq<User>, u: User)
    ensures u in users && u.id in OtherIds(me, requests) ==> ToChatBuddy(u) in Buddies(me, requests, users)
    ensures forall b :: b in Buddies(me, requests, users) ==>
              exists v :: v in users && v.id in OtherIds(me, requests) && b == ToChatBuddy(v)
  {
    var ids := OtherIds(me, requests);
    var kept := Filter(users, (v: User) => v.id in ids);
    MapIn(kept, ToChatBuddy, ToChatBuddy(u));
    forall b | b in Buddies(me, requests, users)
      ensures exists v :: v in users && v.id in ids && b == ToChatBuddy(v)
    {
      MapIn(kept, ToChatBuddy, b);
    }
  }

  /** `GET`: the chat routes' caller resolution, then the buddies. */
  function Get(header: Option<string>, cookie: Option<string>, verify: Verifier,
               requests: seq<BuddyRequest>, users: seq<User>)
    : (r: Response<seq<ChatBuddy>>)
    ensures HeaderOrCookieToken(header, cookie) == "" ==> r == Fail(401, "Unauthorized")
    ensures r.Ok? <==> ChatCaller(header, cookie, verify).Ok?
    ensures r.Ok? ==> r.body == Buddies(ChatCaller(header, cookie, verify).body, requests, users)
  {
    match ChatCaller(header, cookie, verify)
    case Fail(s, e) => Fail(s, e)
    case Ok(_, me) => Ok(200, Buddies(me, requests, users))
  }
}

=== FILE: chats.dfy ===
/**
 * `GET /api/chats` (the caller's chats, most recently updated first) and `POST /api/chats`
 * (open a chat with some users, reusing an existing one-to-one chat).
 */
module Chats {

  import opened Base
  import opened Seqs
  import opened Text
  import opened Http
  import opened Db

  function Identity(id: UserId): UserId {
    id
  }

  /** `Array.from(new Set([me, ...memberIds]))`: the caller first, then the others, each once. */
  function MemberList(me: UserId, memberIds: seq<UserId>): (ids: seq<UserId>)
    ensures ids != [] && ids[0] == me
    ensures DistinctKeys(ids, Identity)
    ensures forall id :: id in ids <==> id == me || id in memberIds
    ensures |ids| <= |memberIds| + 1
  {
    var all := [me] + memberIds;
    var ids := DedupBy(all, Identity);
    DedupByHead(all, Identity);
    forall id
      ensures id in ids <==> id in all
    {
      if id in all {
        assert Identity(id) in Keys(all, Identity);
        assert Identity(id) in Keys(ids, Identity);
      }
    }
    ids
  }

  /** A chat with more than two members is a group chat. */
  function IsGroup(ids: seq<UserId>): bool {
    |ids| > 2
  }

  /** With distinct requested members other than the caller, the chat is a group iff there are at least two of them. */
  lemma GroupIffTwoOthers(me: UserId, memberIds: seq<UserId>)
    requires DistinctKeys(memberIds, Identity) && me !in memberIds
    ensures IsGroup(MemberList(me, memberIds)) <==> |memberIds| >= 2
  {
    var ids := MemberList(me, memberIds);
    var all := [me] + memberIds;
    assert DistinctKeys(all, Identity) by {
      forall p, q | 0 <= p < q < |all|
        ensures all[p] != all[q]
      {
        if p == 0 {
          assert all[q] == memberIds[q - 1];
        } else {
          assert all[p] == memberIds[p - 1] && all[q] == memberIds[q - 1];
        }
      }
    }
    DistinctDedupIsIdentity(all);
  }

  /** De-duplicating a list without repeats changes nothing. */
  lemma {:induction false} DistinctDedupIsIdentity(xs: seq<UserId>)
    requires DistinctKeys(xs, Identity)
    ensures DedupBy(xs, Identity) == xs
    decreases |xs|
  {
    if xs != [] {
      var init := xs[..|xs| - 1];
      assert DistinctKeys(init, Identity) by {
        forall p, q | 0 <= p < q < |init|
          ensures init[p] != init[q]
        {
          assert init[p] == xs[p] && init[q] == xs[q];
        }
      }
      DistinctDedupIsIdentity(init);
      forall j | 0 <= j < |xs| - 1
        ensures Identity(xs[j]) != Identity(xs[|xs| - 1])
      {
      }
    }
  }

  /**
   * The reuse test as the query states it: a non-group chat all of whose members are in the
   * list (`members: { every: { userId: { in: uniqueIds } } }`).
   */
  predicate ReusableAsWritten(c: Chat, ids: seq<UserId>) {
    !c.isGroup && forall m :: m in c.members ==> m in ids
  }

  /** The reuse test the route is for: a non-group chat with exactly these members. */
  predicate Reusable(c: Chat, ids: seq<UserId>) {
    !c.isGroup && (forall m :: m in c.members ==> m in ids) && (forall m :: m in ids ==> m in c.members)
  }

  /** A chat reused under the intended test always has the caller and the requested users as members. */
  lemma ReusedChatHasCaller(c: Chat, me: UserId, memberIds: seq<UserId>)
    requires Reusable(c, MemberList(me, memberIds))
    ensures me in c.members
    ensures forall id :: id in memberIds ==> id in c.members
    ensures forall m :: m in c.members ==> m == me || m in memberIds
  {
  }

  /** The stored name: trimmed, or null when absent or blank. */
  function ChatName(name: Option<string>): (r: Option<string>)
    ensures r.Some? ==> r.value != "" && Trim(r.value) == r.value
    ensures r.Some? <==> name.Some? && !AllSpace(name.value)
  {
    if name.None? then None
    else
      var t := Trim(name.value);
      TrimEmpty(name.value);
      TrimIdempotent(name.value);
      if t == "" then None else Some(t)
  }

  /** What a valid `POST` does: answer with an existing chat, or create this one. */
  datatype Outcome = Reused(chatId: string) | Created(chat: Chat)

  /**
   * `POST` after authentication, as the route is written: `memberIds` must be a non-empty array;
   * a one-to-one request returns the first non-group chat all of whose members are in the list
   * (`every`, so a chat without the caller, or without any member, qualifies); otherwise the new
   * chat is the one to create.
   */
  function PostDecision(me: UserId, memberIds: Option<seq<UserId>>, name: Option<string>, rows: seq<Chat>,
                        freshId: string, now: int)
    : (r: Response<Outcome>)
    ensures memberIds.None? || memberIds.value == [] ==> r == Fail(400, "memberIds required")
    ensures r.Fail? ==> r == Fail(400, "memberIds required")
    ensures r.Ok? && r.body.Reused? ==>
              !IsGroup(MemberList(me, memberIds.value)) &&
              exists c :: c in rows && c.id == r.body.chatId && ReusableAsWritten(c, MemberList(me, memberIds.value))
    ensures r.Ok? && r.body.Created? ==>
              var ids := MemberList(me, memberIds.value);
              r.body.chat == Chat(freshId, ChatName(name), IsGroup(ids), ids, now, []) &&
              (!IsGroup(ids) ==> forall c :: c in rows ==> !ReusableAsWritten(c, ids))
  {
    if memberIds.None? || memberIds.value == [] then Fail(400, "memberIds required")
    else
      var ids := MemberList(me, memberIds.value);
      var existing := if IsGroup(ids) then None else Find(rows, (c: Chat) => ReusableAsWritten(c, ids));
      if existing.Some? then Ok(200, Reused(existing.value.id))
      else Ok(200, Created(Chat(freshId, ChatName(name), IsGroup(ids), ids, now, [])))
  }

  /**
   * The decision the route is for: reuse only a non-group chat whose members are exactly the
   * caller and the requested users, so a reused chat always includes the caller.
   */
  function PostDecisionIntended(me: UserId, memberIds: Option<seq<UserId>>, name: Option<string>, rows: seq<Chat>,
                                freshId: string, now: int)
    : (r: Response<Outcome>)
    ensures memberIds.None? || memberIds.value == [] ==> r == Fail(400, "memberIds required")
    ensures r.Fail? ==> r == Fail(400, "memberIds required")
    ensures r.Ok? && r.body.Reused? ==>
              !IsGroup(MemberList(me, memberIds.value)) &&
              exists c :: c in rows && c.id == r.body.chatId && me in c.members &&
                          (forall id :: id in memberIds.value ==> id in c.members) &&
                          (forall m :: m in c.members ==> m == me || m in memberIds.value)
    ensures r.Ok? && r.body.Created? ==>
              var ids := MemberList(me, memberIds.value);
              r.body.chat == Chat(freshId, ChatName(name), IsGroup(ids), ids, now, []) &&
              (!IsGroup(ids) ==> forall c :: c in rows ==> !Reusable(c, ids))
  {
    if memberIds.None? || memberIds.value == [] then Fail(400, "memberIds required")
    else
      var ids := MemberList(me, memberIds.value);
      var existing := if IsGroup(ids) then None else Find(rows, (c: Chat) => Reusable(c, ids));
      if existing.Some? then
        ReusedChatHasCaller(existing.value, me, memberIds.value);
        Ok(200, Reused(existing.value.id))
      else Ok(200, Created(Chat(freshId, ChatName(name), IsGroup(ids), ids, now, [])))
  }

  /**
   * As written, a one-to-one request can be answered with a chat the caller is not in: another
   * user's chat with themself, holding only the requested user, passes the `every` test, while
   * the intended decision creates a new chat.
   */
  lemma ReuseAsWrittenLeaksForeignChat()
    ensures var solo := Chat("c1", None, false, ["bob"], 0, []);
            PostDecision("alice", Some(["bob"]), None, [solo], "c2", 0) == Ok(200, Reused("c1")) &&
            "alice" !in solo.members &&
            PostDecisionIntended("alice", Some(["bob"]), None, [solo], "c2", 0).body.Created?
  {
    var solo := Chat("c1", None, false, ["bob"], 0, []);
    var ids := MemberList("alice", ["bob"]);
    assert "bob" in ids && "alice" in ids;
    assert forall id :: id in ids ==> id == "alice" || id == "bob";
    assert |ids| == 2;
    assert ReusableAsWritten(solo, ids);
    assert !Reusable(solo, ids);
  }

  /**
   * `POST`: the chat routes' caller resolution (401, or 500 when verification throws), then
   * `PostDecision`; a new chat is inserted, a reused one leaves the table as it was.
   */
  method Post(table: ChatTable, header: Option<string>, cookie: Option<string>, verify: Verifier,
              memberIds: Option<seq<UserId>>, name: Option<string>, freshId: string, now: int)
    returns (r: Response<string>)
    requires table.Valid()
    requires forall i :: 0 <= i < |table.rows| ==> table.rows[i].id != freshId
    modifies table
    ensures table.Valid()
    ensures HeaderOrCookieToken(header, cookie) == "" ==> r == Fail(401, "Unauthorized")
    ensures ChatCaller(header, cookie, verify).Fail? ==> r == Fail(ChatCaller(header, cookie, verify).status,
                                                                  ChatCaller(header, cookie, verify).error)
    ensures ChatCaller(header, cookie, verify).Ok? ==>
              var d := PostDecision(ChatCaller(header, cookie, verify).body, memberIds, name, old(table.rows), freshId, now);
              (d.Fail? ==> r == Fail(d.status, d.error) && table.rows == old(table.rows)) &&
              (d.Ok? && d.body.Reused? ==> r == Ok(200, d.body.chatId) && table.rows == old(table.rows)) &&
              (d.Ok? && d.body.Created? ==> r == Ok(200, freshId) && table.rows == old(table.rows) + [d.body.chat])
    ensures r.Fail? ==> table.rows == old(table.rows)
  {
    var caller := ChatCaller(header, cookie, verify);
    if caller.Fail? {
      return Fail(caller.status, caller.error);
    }
    var d := PostDecision(caller.body, memberIds, name, table.rows, freshId, now);
    if d.Fail? {
      return Fail(d.status, d.error);
    }
    match d.body {
      case Reused(id) => r := Ok(200, id);
      case Created(c) =>
        table.Insert(c);
        r := Ok(200, c.id);
    }
  }

  function UpdatedAt(c: Chat): int {
    c.updatedAt
  }

  function MessageTime(m: Message): int {
    m.createdAt
  }

  /** `messages: { orderBy: { createdAt: "desc" }, take: 1 }`. */
  function LatestMessage(messages: seq<Message>): (r: seq<Message>)
    ensures |r| <= 1
    ensures |r| == 1 <==> messages != []
    ensures r != [] ==> r[0] in messages && forall m :: m in messages ==> m.createdAt <= r[0].createdAt
  {
    var sorted := SortByDesc(messages, MessageTime);
    SortByDescMembers(messages, MessageTime);
    if sorted == [] then []
    else
      assert forall m :: m in sorted ==> exists k :: 0 <= k < |sorted| && sorted[k] == m;
      [sorted[0]]
  }

  /** A chat as `GET` shows it: its latest message only. */
  function WithLatest(c: Chat): (d: Chat)
    ensures d.id == c.id && d.members == c.members && d.updatedAt == c.updatedAt && |d.messages| <= 1
  {
    c.(messages := LatestMessage(c.messages))
  }

  /** The chats the caller is a member of, most recently updated first. */
  function MemberChats(me: UserId, rows: seq<Chat>): (r: seq<Chat>)
    ensures forall c :: c in r <==> c in rows && me in c.members
    ensures SortedDesc(r, UpdatedAt)
    ensures |r| == Count(rows, (c: Chat) => me in c.members)
  {
    SortByDescMembers(Filter(rows, (c: Chat) => me in c.members), UpdatedAt);
    SortByDesc(Filter(rows, (c: Chat) => me in c.members), UpdatedAt)
  }

  /** The caller's chats, most recently updated first, each with only its latest message. */
  function ChatsOf(me: UserId, rows: seq<Chat>): (r: seq<Chat>)
    ensures |r| == |MemberChats(me, rows)|
    ensures forall k :: 0 <= k < |r| ==> r[k] == WithLatest(MemberChats(me, rows)[k])
  {
    Map(MemberChats(me, rows), WithLatest)
  }

  /**
   * Only the caller's chats are listed, each of them, most recently updated first, and each
   * with at most one message.
   */
  lemma ChatsOfListsMemberChats(me: UserId, rows: seq<Chat>)
    ensures forall k :: 0 <= k < |ChatsOf(me, rows)| ==>
              me in ChatsOf(me, rows)[k].members && |ChatsOf(me, rows)[k].messages| <= 1
    ensures forall c :: c in rows && me in c.members ==> WithLatest(c) in ChatsOf(me, rows)
    ensures SortedDesc(ChatsOf(me, rows), UpdatedAt)
  {
    var mine := MemberChats(me, rows);
    var r := ChatsOf(me, rows);
    forall k | 0 <= k < |r|
      ensures me in r[k].members
    {
      assert mine[k] in mine;
    }
    forall c | c in rows && me in c.members
      ensures WithLatest(c) in r
    {
      var k :| 0 <= k < |mine| && mine[k] == c;
      assert r[k] == WithLatest(c);
    }
    forall p, q | 0 <= p < q < |r|
      ensures UpdatedAt(r[p]) >= UpdatedAt(r[q])
    {
      assert UpdatedAt(mine[p]) >= UpdatedAt(mine[q]);
    }
  }

  /** `GET`: the chat routes' caller resolution, then the caller's chats. */
  function Get(header: Option<string>, cookie: Option<string>, verify: Verifier, rows: seq<Chat>)
    : (r: Response<seq<Chat>>)
    ensures HeaderOrCookieToken(header, cookie) == "" ==> r == Fail(401, "Unauthorized")
    ensures r.Ok? <==> ChatCaller(header, cookie, verify).Ok?
    ensures r.Ok? ==> r.body == ChatsOf(ChatCaller(header, cookie, verify).body, rows)
  {
    match ChatCaller(header, cookie, verify)
    case Fail(s, e) => Fail(s, e)
    case Ok(_, me) => Ok(200, ChatsOf(me, rows))
  }
}

=== FILE: cleanup_groups.dfy ===
/** The maintenance script that deletes every group whose creator no longer exists. */
module CleanupGroups {

  import opened Seqs
  import opened Db

  /** A group whose `creatorId` names no user. */
  predicate Orphan(users: seq<User>, g: Group) {
    !HasUserId(users, g.creatorId)
  }

  /** `Orphan` and its negation as row filters. */
  function Orphans(users: seq<User>): Group -> bool {
    (g: Group) => Orphan(users, g)
  }

  function HasCreator(users: seq<User>): Group -> bool {
    (g: Group) => !Orphan(users, g)
  }

  /** Whether the loop has already visited the group with `g`'s id among the first `i` of `snapshot`. */
  predicate Visited(snapshot: seq<Group>, i: nat, g: Group) {
    exists j :: 0 <= j < i && j < |snapshot| && snapshot[j].id == g.id
  }

  /** What is left after visiting the first `i` groups: every group, except the orphans already visited. */
  predicate KeptAfter(users: seq<User>, snapshot: seq<Group>, i: nat, g: Group) {
    !Orphan(users, g) || !Visited(snapshot, i, g)
  }

  /** `KeptAfter` as a row filter. */
  function Kept(users: seq<User>, snapshot: seq<Group>, i: nat): Group -> bool {
    (g: Group) => KeptAfter(users, snapshot, i, g)
  }

  /**
   * `main`: fetch all groups once, then for each one look its creator up and delete the group
   * when there is none. The table ends with exactly the groups whose creator exists, in their
   * order, and `deletedCount` is the number of orphans fetched.
   */
  method Cleanup(table: GroupTable, users: seq<User>) returns (deletedCount: nat)
    requires table.Valid()
    modifies table
    ensures table.Valid()
    ensures table.rows == Filter(old(table.rows), HasCreator(users))
    ensures deletedCount == Count(old(table.rows), Orphans(users))
    ensures deletedCount + |table.rows| == |old(table.rows)|
  {
    var groups := table.rows;
    deletedCount := 0;
    FilterAll(groups, Kept(users, groups, 0));
    for i := 0 to |groups|
      invariant table.Valid() && DistinctKeys(groups, (g: Group) => g.id)
      invariant table.rows == Filter(groups, Kept(users, groups, i))
      invariant deletedCount == Count(groups[..i], Orphans(users))
    {
      FilterPush(groups, i, Orphans(users));
      var deleted := Visit(table, users, groups, i);
      if deleted {
        deletedCount := deletedCount + 1;
      }
    }
    Finish(users, groups, table.rows, deletedCount);
  }

  /** After the loop: the rows and the count are those the method promises. */
  lemma Finish(users: seq<User>, groups: seq<Group>, rows: seq<Group>, deletedCount: nat)
    requires DistinctKeys(groups, (g: Group) => g.id)
    requires rows == Filter(groups, Kept(users, groups, |groups|))
    requires deletedCount == Count(groups[..|groups|], Orphans(users))
    ensures rows == Filter(groups, HasCreator(users))
    ensures deletedCount == Count(groups, Orphans(users))
    ensures deletedCount + |rows| == |groups|
  {
    assert groups[..|groups|] == groups;
    FinalKept(users, groups);
    OrphansAndKept(users, groups);
  }

  /** Every fetched group is either kept or counted as deleted. */
  lemma OrphansAndKept(users: seq<User>, groups: seq<Group>)
    ensures |Filter(groups, HasCreator(users))| + Count(groups, Orphans(users)) == |groups|
  {
    FilterSplit(groups, (g: Group) => true, HasCreator(users), Orphans(users));
    FilterAll(groups, (g: Group) => true);
  }

  /**
   * One iteration: look up the creator of the `i`-th fetched group and delete the group when
   * there is none.
   */
  method Visit(table: GroupTable, users: seq<User>, groups: seq<Group>, i: nat) returns (deleted: bool)
    requires i < |groups| && DistinctKeys(groups, (g: Group) => g.id)
    requires table.Valid() && table.rows == Filter(groups, Kept(users, groups, i))
    modifies table
    ensures deleted == Orphan(users, groups[i])
    ensures table.Valid() && table.rows == Filter(groups, Kept(users, groups, i + 1))
  {
    deleted := !HasUserId(users, groups[i].creatorId);
    if deleted {
      table.Delete(groups[i].id);
      DeleteStep(users, groups, i);
    } else {
      KeepStep(users, groups, i);
    }
  }

  /** Once every group has been visited, what is left is what has a creator. */
  lemma FinalKept(users: seq<User>, groups: seq<Group>)
    requires DistinctKeys(groups, (g: Group) => g.id)
    ensures Filter(groups, Kept(users, groups, |groups|)) == Filter(groups, HasCreator(users))
  {
    forall k | 0 <= k < |groups|
      ensures Kept(users, groups, |groups|)(groups[k]) == !Orphan(users, groups[k])
    {
      VisitedIsPosition(groups, |groups|, k);
    }
    FilterSameOn(groups, Kept(users, groups, |groups|), HasCreator(users));
  }

  /** The rows after deleting the `i`-th group, an orphan, are those kept after visiting it. */
  lemma DeleteStep(users: seq<User>, groups: seq<Group>, i: nat)
    requires i < |groups| && DistinctKeys(groups, (g: Group) => g.id)
    requires Orphan(users, groups[i])
    ensures Filter(Filter(groups, Kept(users, groups, i)), IdIsNot(groups[i].id)) == Filter(groups, Kept(users, groups, i + 1))
  {
    StepDeletes(users, groups, i);
    FilterFilterOn(groups, Kept(users, groups, i), IdIsNot(groups[i].id), Kept(users, groups, i + 1));
  }

  /** Visiting a group whose creator exists keeps the rows as they were. */
  lemma KeepStep(users: seq<User>, groups: seq<Group>, i: nat)
    requires i < |groups| && DistinctKeys(groups, (g: Group) => g.id)
    requires !Orphan(users, groups[i])
    ensures Filter(groups, Kept(users, groups, i)) == Filter(groups, Kept(users, groups, i + 1))
  {
    StepKeeps(users, groups, i);
    FilterSameOn(groups, Kept(users, groups, i), Kept(users, groups, i + 1));
  }

  /** Visiting an orphan and deleting its id moves every group from "kept after i" to "kept after i + 1". */
  lemma StepDeletes(users: seq<User>, groups: seq<Group>, i: nat)
    requires i < |groups| && DistinctKeys(groups, (g: Group) => g.id)
    requires Orphan(users, groups[i])
    ensures forall k :: 0 <= k < |groups| ==>
              (KeptAfter(users, groups, i, groups[k]) && groups[k].id != groups[i].id) ==
              KeptAfter(users, groups, i + 1, groups[k])
  {
    forall k | 0 <= k < |groups|
      ensures (KeptAfter(users, groups, i, groups[k]) && groups[k].id != groups[i].id) ==
              KeptAfter(users, groups, i + 1, groups[k])
    {
      VisitedIsPosition(groups, i, k);
      VisitedIsPosition(groups, i + 1, k);
      if k != i {
        assert groups[k].id != groups[i].id;
      }
    }
  }

  /** Visiting a group whose creator exists changes nothing. */
  lemma StepKeeps(users: seq<User>, groups: seq<Group>, i: nat)
    requires i < |groups| && DistinctKeys(groups, (g: Group) => g.id)
    requires !Orphan(users, groups[i])
    ensures forall k :: 0 <= k < |groups| ==>
              KeptAfter(users, groups, i, groups[k]) == KeptAfter(users, groups, i + 1, groups[k])
  {
    forall k | 0 <= k < |groups|
      ensures KeptAfter(users, groups, i, groups[k]) == KeptAfter(users, groups, i + 1, groups[k])
    {
      VisitedIsPosition(groups, i, k);
      VisitedIsPosition(groups, i + 1, k);
    }
  }

  /** With distinct ids, the group at position `k` has been visited exactly when `k < i`. */
  lemma VisitedIsPosition(groups: seq<Group>, i: nat, k: nat)
    requires k < |groups| && DistinctKeys(groups, (g: Group) => g.id)
    ensures Visited(groups, i, groups[k]) <==> k < i
  {
    if Visited(groups, i, groups[k]) {
      var j :| 0 <= j < i && j < |groups| && groups[j].id == groups[k].id;
      assert j == k;
    }
  }
}

=== FILE: db.dfy ===
/**
 * The database rows the handlers read and write, and one class per table that some handler
 * writes. A table's `rows` are in the order the database lists them when no `orderBy` is given;
 * `Valid()` is the table's primary key and unique constraints.
 */
module Db {

  import opened Base
  import opened Seqs

  type UserId = string
  type TripId = string
  type BlogId = string

  datatype UserType = Customer | Admin

  /** A user row; `tripCount` is the `_count.trips` relation count the database reports. */
  datatype User = User(
    id: UserId, name: string, email: string, password: string, kind: UserType, isPremium: bool,
    phone: Option<string>, interests: Option<string>, location: Option<string>, bio: Option<string>,
    avatar: Option<string>, createdAt: int, tripCount: nat)

  datatype RequestStatus = Pending | Accepted | Rejected

  /** A directed buddy request from `requesterId` to `receiverId`. */
  datatype BuddyRequest = BuddyRequest(
    id: string, requesterId: UserId, receiverId: UserId, status: RequestStatus, createdAt: int)

  /** A row of the `like` or of the `wishlist` table: a user marking a blog. */
  datatype Mark = Mark(userId: UserId, blogId: BlogId)

  datatype TripStatus = Open | Ongoing | Ended

  datatype Trip = Trip(
    id: TripId, destination: string, startDate: int, endDate: int, budget: string,
    description: string, isPublic: bool, maxParticipants: int, creatorId: UserId,
    status: TripStatus, createdAt: int)

  datatype Role = Creator | Participant

  datatype TripParticipant = TripParticipant(userId: UserId, tripId: TripId, role: Role, joinedAt: int)

  /** `role.toLowerCase()`. */
  function RoleName(r: Role): (name: string)
    ensures r == Creator <==> name == "creator"
    ensures r == Participant <==> name == "participant"
  {
    match r
    case Creator => "creator"
    case Participant => "participant"
  }

  /** A participant row with its `user` included. */
  datatype ParticipantWithUser = ParticipantWithUser(row: TripParticipant, user: User)

  datatype TodoItem = TodoItem(tripId: TripId, completed: bool)

  /** The upsertable part of a trip or buddy review. */
  datatype Review = Review(rating: int, comment: string)

  /** The unique keys `tripId_reviewerId` and `tripId_reviewerId_buddyId`. */
  datatype TripReviewKey = TripReviewKey(tripId: TripId, reviewerId: UserId)
  datatype BuddyReviewKey = BuddyReviewKey(tripId: TripId, reviewerId: UserId, buddyId: UserId)

  /** Review rows as a query returns them, in the database's order. */
  datatype TripReviewRow = TripReviewRow(tripId: TripId, reviewerId: UserId, rating: int)
  datatype BuddyReviewRow = BuddyReviewRow(tripId: TripId, reviewerId: UserId, buddyId: UserId, rating: int)

  datatype Message = Message(id: string, senderId: UserId, content: string, createdAt: int)

  datatype Chat = Chat(
    id: string, name: Option<string>, isGroup: bool, members: seq<UserId>, updatedAt: int,
    messages: seq<Message>)

  datatype Blog = Blog(
    id: BlogId, title: string, content: string, preview: string, location: Option<string>,
    publishDate: int, authorId: UserId, tags: seq<string>, images: seq<string>, isPremium: bool)

  datatype Group = Group(id: string, name: string, creatorId: UserId, createdAt: int)

  predicate HasUserId(rows: seq<User>, id: UserId) {
    exists i :: 0 <= i < |rows| && rows[i].id == id
  }

  /** The position of the user with id `id` (`findUnique({ where: { id } })`). */
  function UserIndex(rows: seq<User>, id: UserId): (r: Option<nat>)
    ensures r.Some? ==> r.value < |rows| && rows[r.value].id == id
    ensures r.None? <==> !HasUserId(rows, id)
  {
    if rows == [] then None
    else if rows[0].id == id then Some(0)
    else
      match UserIndex(rows[1..], id)
      case None => None
      case Some(i) => Some(i + 1)
  }

  class UserTable {
    var rows: seq<User>

    ghost predicate Valid()
      reads this
    {
      DistinctKeys(rows, (u: User) => u.id) && DistinctKeys(rows, (u: User) => u.email)
    }

    constructor ()
      ensures rows == [] && Valid()
    {
      rows := [];
    }

    method Insert(u: User)
      requires Valid()
      requires forall i :: 0 <= i < |rows| ==> rows[i].id != u.id && rows[i].email != u.email
      modifies this
      ensures rows == old(rows) + [u] && Valid()
    {
      rows := rows + [u];
    }

    /** Overwrite row `i` with `u`, which keeps the row's id and email. */
    method Put(i: nat, u: User)
      requires Valid() && i < |rows|
      requires u.id == rows[i].id && u.email == rows[i].email
      modifies this
      ensures rows == old(rows)[i := u] && Valid()
    {
      rows := rows[i := u];
    }
  }

  class RequestTable {
    var rows: seq<BuddyRequest>

    /** Primary key `id` and the unique ordered pair `requesterId_receiverId`. */
    ghost predicate Valid()
      reads this
    {
      DistinctKeys(rows, (r: BuddyRequest) => r.id) &&
      DistinctKeys(rows, (r: BuddyRequest) => (r.requesterId, r.receiverId))
    }

    constructor ()
      ensures rows == [] && Valid()
    {
      rows := [];
    }

    method Insert(r: BuddyRequest)
      requires Valid()
      requires forall i :: 0 <= i < |rows| ==> rows[i].id != r.id
      requires forall i :: 0 <= i < |rows| ==>
                 (rows[i].requesterId, rows[i].receiverId) != (r.requesterId, r.receiverId)
      modifies this
      ensures rows == old(rows) + [r] && Valid()
    {
      rows := rows + [r];
    }
  }

  class TripTable {
    var rows: seq<Trip>

    ghost predicate Valid()
      reads this
    {
      DistinctKeys(rows, (t: Trip) => t.id)
    }

    constructor ()
      ensures rows == [] && Valid()
    {
      rows := [];
    }

    method Insert(t: Trip)
      requires Valid()
      requires forall i :: 0 <= i < |rows| ==> rows[i].id != t.id
      modifies this
      ensures rows == old(rows) + [t] && Valid()
    {
      rows := rows + [t];
    }
  }

  class ParticipantTable {
    var rows: seq<TripParticipant>

    /** One participant row per (user, trip). */
    ghost predicate Valid()
      reads this
    {
      DistinctKeys(rows, (p: TripParticipant) => (p.userId, p.tripId))
    }

    constructor ()
      ensures rows == [] && Valid()
    {
      rows := [];
    }

    method Insert(p: TripParticipant)
      requires Valid()
      requires forall i :: 0 <= i < |rows| ==> (rows[i].userId, rows[i].tripId) != (p.userId, p.tripId)
      modifies this
      ensures rows == old(rows) + [p] && Valid()
    {
      rows := rows + [p];
    }
  }

  /** The two review tables, each keyed by its composite unique key. */
  class ReviewStore {
    var tripReviews: map<TripReviewKey, Review>
    var buddyReviews: map<BuddyReviewKey, Review>

    constructor ()
      ensures tripReviews == map[] && buddyReviews == map[]
    {
      tripReviews, buddyReviews := map[], map[];
    }

    /** `prisma.tripReview.upsert`: create the row or overwrite its rating and comment. */
    method UpsertTripReview(k: TripReviewKey, v: Review)
      modifies this
      ensures tripReviews == old(tripReviews)[k := v]
      ensures buddyReviews == old(buddyReviews)
    {
      tripReviews := tripReviews[k := v];
    }

    /** `prisma.buddyReview.upsert`. */
    method UpsertBuddyReview(k: BuddyReviewKey, v: Review)
      modifies this
      ensures buddyReviews == old(buddyReviews)[k := v]
      ensures tripReviews == old(tripReviews)
    {
      buddyReviews := buddyReviews[k := v];
    }
  }

  class ChatTable {
    var rows: seq<Chat>

    ghost predicate Valid()
      reads this
    {
      DistinctKeys(rows, (c: Chat) => c.id)
    }

    constructor ()
      ensures rows == [] && Valid()
    {
      rows := [];
    }

    method Insert(c: Chat)
      requires Valid()
      requires forall i :: 0 <= i < |rows| ==> rows[i].id != c.id
      modifies this
      ensures rows == old(rows) + [c] && Valid()
    {
      rows := rows + [c];
    }
  }

  class BlogTable {
    var rows: seq<Blog>

    ghost predicate Valid()
      reads this
    {
      DistinctKeys(rows, (b: Blog) => b.id)
    }

    constructor ()
      ensures rows == [] && Valid()
    {
      rows := [];
    }

    method Insert(b: Blog)
      requires Valid()
      requires forall i :: 0 <= i < |rows| ==> rows[i].id != b.id
      modifies this
      ensures rows == old(rows) + [b] && Valid()
    {
      rows := rows + [b];
    }
  }

  /** The row filter of a delete by primary key. */
  function IdIsNot(id: string): Group -> bool {
    (g: Group) => g.id != id
  }

  class GroupTable {
    var rows: seq<Group>

    /** Primary key `id` and the unique `name`. */
    ghost predicate Valid()
      reads this
    {
      DistinctKeys(rows, (g: Group) => g.id) && DistinctKeys(rows, (g: Group) => g.name)
    }

    constructor ()
      ensures rows == [] && Valid()
    {
      rows := [];
    }

    method Insert(g: Group)
      requires Valid()
      requires forall i :: 0 <= i < |rows| ==> rows[i].id != g.id && rows[i].name != g.name
      modifies this
      ensures rows == old(rows) + [g] && Valid()
    {
      rows := rows + [g];
    }

    /** `prisma.group.delete({ where: { id } })`: the row with that id goes, nothing else. */
    method Delete(id: string)
      requires Valid()
      modifies this
      ensures rows == Filter(old(rows), IdIsNot(id)) && Valid()
    {
      rows := Filter(rows, IdIsNot(id));
      FilterKeepsDistinct(old(rows), IdIsNot(id), (g: Group) => g.id);
      FilterKeepsDistinct(old(rows), IdIsNot(id), (g: Group) => g.name);
    }
  }
}

=== FILE: groups.dfy ===
/**
 * `POST /api/groups` (create a group under a unique name) and `GET /api/groups` (all groups,
 * newest first).
 */
module Groups {

  import opened Base
  import opened Seqs
  import opened Text
  import opened Http
  import opened Db

  /** `authHeader.split(" ")[1]`: the text between the first and the second space. */
  function GroupToken(header: string): (token: string)
    requires BearerPrefix <= header
    ensures ' ' !in token
  {
    assert header[6] == ' ';
    SplitCount(header, ' ');
    assert multiset(header)[' '] >= 1 by {
      assert ' ' in header;
    }
    Split(header, ' ')[1]
  }

  /** A token containing no space is read the same way as by the other routes. */
  lemma GroupTokenAgrees(token: string)
    requires ' ' !in token
    ensures GroupToken(BearerPrefix + token) == token
  {
    var h := BearerPrefix + token;
    SplitJoin(["Bearer", token], ' ');
    assert Join(["Bearer", token], ' ') == h;
  }

  /** `payload.id || payload.userId || payload.sub`, "" when none is set. */
  function GroupCallerId(c: Claims): (id: string)
    ensures c.id != "" ==> id == c.id
    ensures c.id == "" ==> id == OrElse(c.userId, OrElse(c.sub, ""))
  {
    if c.id != "" then c.id else OrElse(c.userId, OrElse(c.sub, ""))
  }

  /**
   * The opening of `POST`: no `Bearer` header, a rejected token and a token with no user id all
   * give 401; this route catches verification errors itself.
   */
  function Caller(header: Option<string>, verify: Verifier): (r: Response<UserId>)
    ensures BearerToken(header).None? ==> r == Fail(401, "Authorization header required")
    ensures r.Fail? ==> r.status == 401
    ensures r.Ok? ==> r.body != "" && header.Some? && BearerPrefix <= header.value &&
                      verify(GroupToken(header.value)).Verified? &&
                      r.body == GroupCallerId(verify(GroupToken(header.value)).claims)
  {
    if header.None? || !(BearerPrefix <= header.value) then Fail(401, "Authorization header required")
    else
      match verify(GroupToken(header.value))
      case Rejected(_) => Fail(401, "Invalid token")
      case Verified(c) =>
        var id := GroupCallerId(c);
        if id == "" then Fail(401, "Invalid token: no user ID") else Ok(200, id)
  }

  predicate NameTaken(rows: seq<Group>, name: string) {
    exists i :: 0 <= i < |rows| && rows[i].name == name
  }

  /** The checks of `POST` after authentication, and the group it creates. */
  function CreateDecision(caller: UserId, name: Option<string>, rows: seq<Group>, freshId: string, now: int)
    : (r: Response<Group>)
    ensures r.Fail? ==> r.status == 400
    ensures name.None? || AllSpace(name.value) ==> r == Fail(400, "Group name is required")
    ensures r.Ok? <==> name.Some? && !AllSpace(name.value) && !NameTaken(rows, Trim(name.value))
    ensures r.Ok? ==> r.body == Group(freshId, Trim(name.value), caller, now) && r.body.name != ""
  {
    if name.None? then Fail(400, "Group name is required")
    else
      TrimEmpty(name.value);
      if Trim(name.value) == "" then Fail(400, "Group name is required")
      else if NameTaken(rows, Trim(name.value)) then Fail(400, "Group name already exists")
      else Ok(200, Group(freshId, Trim(name.value), caller, now))
  }

  /**
   * `POST`: authenticate, check the name, and insert the group; the unique-name invariant of
   * the table is kept. The database assigns `freshId` and `now`.
   */
  method Create(table: GroupTable, header: Option<string>, verify: Verifier, name: Option<string>,
                freshId: string, now: int)
    returns (r: Response<Group>)
    requires table.Valid()
    requires forall i :: 0 <= i < |table.rows| ==> table.rows[i].id != freshId
    modifies table
    ensures table.Valid()
    ensures BearerToken(header).None? ==> r == Fail(401, "Authorization header required")
    ensures Caller(header, verify).Fail? ==> r == Fail(401, Caller(header, verify).error)
    ensures Caller(header, verify).Ok? ==> r == CreateDecision(Caller(header, verify).body, name, old(table.rows), freshId, now)
    ensures r.Ok? ==> table.rows == old(table.rows) + [r.body]
    ensures r.Fail? ==> table.rows == old(table.rows)
  {
    var caller := Caller(header, verify);
    if caller.Fail? {
      return Fail(401, caller.error);
    }
    r := CreateDecision(caller.body, name, table.rows, freshId, now);
    if r.Ok? {
      table.Insert(r.body);
    }
  }

  function GroupCreatedAt(g: Group): int {
    g.createdAt
  }

  /** `GET`: every group, newest first. */
  function List(rows: seq<Group>): (r: seq<Group>)
    ensures forall g :: g in r <==> g in rows
    ensures SortedDesc(r, GroupCreatedAt)
    ensures |r| == |rows|
  {
    SortByDescMembers(rows, GroupCreatedAt);
    SortByDesc(rows, GroupCreatedAt)
  }
}

=== FILE: http.dfy ===
/**
 * Responses and the two ways a handler finds its caller: a `Bearer` authorization header,
 * or (chat routes) that header with the `token` cookie as a fallback.
 * Token verification (jose's `jwtVerify`) is a parameter: the model never checks signatures.
 */
module Http {

  import opened Base

  type UserId = string

  /** A JSON response: a success status with a body, or an error status with its message. */
  datatype Response<T> = Ok(status: nat, body: T) | Fail(status: nat, error: string)

  /**
   * The claims of a verified token. Tokens issued at sign-up and sign-in always carry `id`;
   * the other claims are read only by the handlers that fall back on them.
   */
  datatype Claims = Claims(id: string, userId: Option<string>, sub: Option<string>, kind: Option<string>)

  /** The outcome of `jwtVerify`: the claims, or the thrown error's `name`. */
  datatype Verification = Verified(claims: Claims) | Rejected(errorName: string)

  type Verifier = string -> Verification

  const BearerPrefix := "Bearer "

  /** `authHeader.startsWith("Bearer ")` followed by `authHeader.substring(7)`. */
  function BearerToken(header: Option<string>): (t: Option<string>)
    ensures t.Some? <==> header.Some? && BearerPrefix <= header.value
    ensures t.Some? ==> header.value == BearerPrefix + t.value
  {
    if header.Some? && BearerPrefix <= header.value then Some(header.value[|BearerPrefix|..])
    else None
  }

  /**
   * The opening of most handlers: no `Bearer` header gives 401 with `unauthorized`;
   * a token that fails verification throws into the handler's catch, which answers
   * 500 with `failure`; otherwise the handler goes on with the claims (status 200 here
   * only marks "continue").
   */
  function BearerClaims(header: Option<string>, verify: Verifier, unauthorized: string, failure: string)
    : (r: Response<Claims>)
    ensures BearerToken(header).None? <==> r == Fail(401, unauthorized)
    ensures r.Ok? <==> BearerToken(header).Some? && verify(BearerToken(header).value).Verified?
    ensures r.Ok? ==> r.body == verify(BearerToken(header).value).claims
    ensures r.Fail? && r.status != 401 ==> r == Fail(500, failure)
  {
    match BearerToken(header)
    case None => Fail(401, unauthorized)
    case Some(token) =>
      match verify(token)
      case Rejected(_) => Fail(500, failure)
      case Verified(claims) => Ok(200, claims)
  }

  /**
   * The caller of a route that also serves anonymous visitors: an absent header, a rejected
   * token and a token without an id all leave the caller unknown.
   */
  function OptionalCaller(header: Option<string>, verify: Verifier): (c: Option<UserId>)
    ensures c.Some? <==> BearerClaims(header, verify, "", "").Ok? && BearerClaims(header, verify, "", "").body.id != ""
    ensures c.Some? ==> c.value == BearerClaims(header, verify, "", "").body.id
  {
    match BearerToken(header)
    case None => None
    case Some(token) =>
      match verify(token)
      case Rejected(_) => None
      case Verified(claims) => if claims.id == "" then None else Some(claims.id)
  }

  /**
   * The token of the chat routes' `auth`: the header's token after "Bearer " when there is
   * one and it is non-empty, otherwise the `token` cookie, otherwise "".
   */
  function HeaderOrCookieToken(header: Option<string>, cookie: Option<string>): (token: string)
    ensures BearerToken(header).Some? && BearerToken(header).value != "" ==> token == BearerToken(header).value
    ensures (BearerToken(header).None? || BearerToken(header).value == "") ==> token == cookie.GetOr("")
  {
    var headerToken := if BearerToken(header).Some? then BearerToken(header).value else "";
    var cookieToken := cookie.GetOr("");
    if headerToken != "" then headerToken else cookieToken
  }

  /**
   * The chat routes' `auth` followed by the handler's null check: no token gives 401; a
   * verification failure is not caught by these handlers, so the framework answers 500;
   * the caller is `sub`, else `id`, and a token with neither gives 401.
   */
  function ChatCaller(header: Option<string>, cookie: Option<string>, verify: Verifier): (r: Response<UserId>)
    ensures HeaderOrCookieToken(header, cookie) == "" ==> r == Fail(401, "Unauthorized")
    ensures r.Ok? ==> r.body != ""
    ensures r.Ok? ==> verify(HeaderOrCookieToken(header, cookie)).Verified?
    ensures r.Ok? ==> var c := verify(HeaderOrCookieToken(header, cookie)).claims;
                      r.body == (if Truthy(c.sub) then c.sub.value else c.id)
  {
    var token := HeaderOrCookieToken(header, cookie);
    if token == "" then Fail(401, "Unauthorized")
    else
      match verify(token)
      case Rejected(_) => Fail(500, "Internal Server Error")
      case Verified(c) =>
        var id := OrElse(c.sub, c.id);
        if id == "" then Fail(401, "Unauthorized") else Ok(200, id)
  }

  /** A `Bearer` header with a non-empty token wins over any cookie. */
  lemma HeaderBeatsCookie(token: string, cookie: Option<string>)
    requires token != ""
    ensures HeaderOrCookieToken(Some(BearerPrefix + token), cookie) == token
  {
    assert BearerPrefix <= BearerPrefix + token;
    assert (BearerPrefix + token)[|BearerPrefix|..] == token;
  }
}

=== FILE: interests.dfy ===
/**
 * A user's `interests` column is one comma-separated string. The buddy routes turn it into
 * a list in two slightly different ways: `split(",").map(trim)`, and the pending-requests route's
 * `split(",").map(trim).filter(Boolean)`, which also drops empty pieces.
 */
module Interests {

  import opened Base
  import opened Text
  import opened Seqs

  /** `interests ? interests.split(",").map(i => i.trim()) : []`. */
  function ParseInterests(raw: Option<string>): (r: seq<string>)
    ensures !Truthy(raw) ==> r == []
    ensures Truthy(raw) ==> |r| == |Split(raw.value, ',')|
    ensures Truthy(raw) ==> forall k :: 0 <= k < |r| ==> r[k] == Trim(Split(raw.value, ',')[k])
  {
    if Truthy(raw) then Map(Split(raw.value, ','), Trim) else []
  }

  /** The pending-requests form: as `ParseInterests`, without the empty pieces. */
  function ParseInterestsNonEmpty(raw: Option<string>): (r: seq<string>)
    ensures forall k :: 0 <= k < |r| ==> r[k] != ""
  {
    Filter(ParseInterests(raw), (s: string) => s != "")
  }

  /**
   * Every piece is already trimmed and holds no comma, and for a non-empty column there is
   * one piece per comma plus one.
   */
  lemma ParsedPieces(raw: Option<string>)
    ensures forall k :: 0 <= k < |ParseInterests(raw)| ==>
              Trim(ParseInterests(raw)[k]) == ParseInterests(raw)[k] && ',' !in ParseInterests(raw)[k]
    ensures Truthy(raw) ==> |ParseInterests(raw)| == multiset(raw.value)[','] + 1
  {
    var r := ParseInterests(raw);
    if Truthy(raw) {
      var parts := Split(raw.value, ',');
      forall k | 0 <= k < |r|
        ensures Trim(r[k]) == r[k] && ',' !in r[k]
      {
        TrimIdempotent(parts[k]);
        TrimSubstring(parts[k], ',');
      }
      SplitCount(raw.value, ',');
    }
  }

  /**
   * The two forms agree on everything but the empty pieces: the second keeps exactly the
   * non-empty entries of the first, in order, and a column without empty pieces parses the same.
   */
  lemma NonEmptyFormAgrees(raw: Option<string>)
    ensures forall s :: s in ParseInterestsNonEmpty(raw) <==> s in ParseInterests(raw) && s != ""
    ensures (forall k :: 0 <= k < |ParseInterests(raw)| ==> ParseInterests(raw)[k] != "") ==>
              ParseInterestsNonEmpty(raw) == ParseInterests(raw)
  {
    var xs := ParseInterests(raw);
    if forall k :: 0 <= k < |xs| ==> xs[k] != "" {
      FilterAll(xs, (s: string) => s != "");
    }
  }
}

=== FILE: matchmaking.dfy ===
/**
 * `GET /api/buddies/matchmaking`: users who liked or wishlisted some of the blogs the caller
 * liked or wishlisted, most overlap first.
 */
module Matchmaking {

  import opened Base
  import opened Seqs
  import opened Http
  import opened Db
  import opened Interests
  import BuddyRequests

  /** The blogs a user liked, then those they wishlisted; a blog in both tables is listed twice. */
  function BlogIdsOf(uid: UserId, likes: seq<Mark>, wishlists: seq<Mark>): (ids: seq<BlogId>)
    ensures |ids| == Count(likes, (m: Mark) => m.userId == uid) + Count(wishlists, (m: Mark) => m.userId == uid)
  {
    Map(Filter(likes, (m: Mark) => m.userId == uid), (m: Mark) => m.blogId) +
    Map(Filter(wishlists, (m: Mark) => m.userId == uid), (m: Mark) => m.blogId)
  }

  /** A blog is listed iff the user has a like or a wishlist row for it. */
  lemma BlogIdsOfMembers(uid: UserId, likes: seq<Mark>, wishlists: seq<Mark>, b: BlogId)
    ensures b in BlogIdsOf(uid, likes, wishlists) <==> Mark(uid, b) in likes || Mark(uid, b) in wishlists
  {
    var ls := Filter(likes, (m: Mark) => m.userId == uid);
    var ws := Filter(wishlists, (m: Mark) => m.userId == uid);
    MapIn(ls, (m: Mark) => m.blogId, b);
    MapIn(ws, (m: Mark) => m.blogId, b);
    if Mark(uid, b) in likes {
      assert Mark(uid, b) in ls;
    }
    if Mark(uid, b) in wishlists {
      assert Mark(uid, b) in ws;
    }
  }

  /** `currentUserBlogIds.filter(id => userBlogIds.includes(id))`. */
  function CommonBlogs(mine: seq<BlogId>, theirs: seq<BlogId>): (common: seq<BlogId>)
    ensures |common| <= |mine|
    ensures forall b :: b in common <==> b in mine && b in theirs
  {
    Filter(mine, (b: BlogId) => b in theirs)
  }

  /**
   * The overlap counts the caller's entries with their multiplicity: a shared blog counts as
   * often as the caller lists it, a blog the other user lacks not at all; and the overlap is
   * positive exactly when the two lists share a blog.
   */
  lemma CommonBlogsCount(mine: seq<BlogId>, theirs: seq<BlogId>, b: BlogId)
    ensures multiset(CommonBlogs(mine, theirs))[b] == if b in theirs then multiset(mine)[b] else 0
    ensures |CommonBlogs(mine, theirs)| > 0 <==> exists c :: c in mine && c in theirs
  {
    FilterMultiplicity(mine, (c: BlogId) => c in theirs, b);
    var common := CommonBlogs(mine, theirs);
    if exists c :: c in mine && c in theirs {
      var c :| c in mine && c in theirs;
      assert c in common;
    }
  }

  /** The user query: not the caller, not an accepted buddy of the caller, a CUSTOMER. */
  predicate IsCandidate(u: User, uid: UserId, buddyIds: seq<UserId>) {
    u.id != uid && u.id !in buddyIds && u.kind == Customer
  }

  function Candidates(uid: UserId, requests: seq<BuddyRequest>, users: seq<User>): (cs: seq<User>)
    ensures forall u :: u in cs <==> u in users && IsCandidate(u, uid, BuddyRequests.AcceptedCounterparts(uid, requests))
  {
    var buddyIds := BuddyRequests.AcceptedCounterparts(uid, requests);
    Filter(users, (u: User) => IsCandidate(u, uid, buddyIds))
  }

  /** A match as the route returns it (the random rating is not modelled). */
  datatype MatchedUser = MatchedUser(
    id: UserId, name: string, avatar: string, location: string, tripsCompleted: nat,
    interests: seq<string>, isMatch: bool, commonInterests: nat)

  function CommonKey(m: MatchedUser): int {
    m.commonInterests
  }

  /** The overlap between the caller's list and user `u`'s list. */
  function Overlap(u: User, mine: seq<BlogId>, likes: seq<Mark>, wishlists: seq<Mark>): (n: nat)
    ensures n <= |mine|
  {
    |CommonBlogs(mine, BlogIdsOf(u.id, likes, wishlists))|
  }

  function ToMatched(u: User, common: nat): (m: MatchedUser)
    ensures m.id == u.id && m.isMatch && m.commonInterests == common
    ensures m.location == "Location not set" && m.tripsCompleted == u.tripCount
  {
    MatchedUser(u.id, u.name, OrElse(u.avatar, "/placeholder.svg"), "Location not set", u.tripCount,
                ParseInterests(u.interests), true, common)
  }

  /** What the loop over `candidates` pushes, in order: every candidate with a positive overlap. */
  function MatchedSpec(candidates: seq<User>, mine: seq<BlogId>, likes: seq<Mark>, wishlists: seq<Mark>)
    : (matched: seq<MatchedUser>)
    ensures |matched| <= |candidates|
  {
    if candidates == [] then []
    else
      var init := candidates[..|candidates| - 1];
      var u := candidates[|candidates| - 1];
      var n := Overlap(u, mine, likes, wishlists);
      MatchedSpec(init, mine, likes, wishlists) + (if n > 0 then [ToMatched(u, n)] else [])
  }

  /** Every candidate with a positive overlap is matched, carrying that overlap and `isMatch`. */
  lemma {:induction false} MatchedComplete(candidates: seq<User>, mine: seq<BlogId>, likes: seq<Mark>, wishlists: seq<Mark>)
    ensures forall u :: u in candidates && Overlap(u, mine, likes, wishlists) > 0 ==>
              ToMatched(u, Overlap(u, mine, likes, wishlists)) in MatchedSpec(candidates, mine, likes, wishlists)
    decreases |candidates|
  {
    if candidates != [] {
      var init := candidates[..|candidates| - 1];
      assert candidates == init + [candidates[|candidates| - 1]];
      MatchedComplete(init, mine, likes, wishlists);
    }
  }

  /** Nothing else is matched: every match is a candidate with a positive overlap. */
  lemma {:induction false} MatchedSound(candidates: seq<User>, mine: seq<BlogId>, likes: seq<Mark>, wishlists: seq<Mark>)
    ensures forall m :: m in MatchedSpec(candidates, mine, likes, wishlists) ==>
              exists u :: u in candidates && Overlap(u, mine, likes, wishlists) > 0 &&
                          m == ToMatched(u, Overlap(u, mine, likes, wishlists))
    decreases |candidates|
  {
    if candidates != [] {
      var init := candidates[..|candidates| - 1];
      assert candidates == init + [candidates[|candidates| - 1]];
      MatchedSound(init, mine, likes, wishlists);
    }
  }

  /** Every match has 0 < `commonInterests` <= the length of the caller's list. */
  lemma {:induction false} MatchedBounds(candidates: seq<User>, mine: seq<BlogId>, likes: seq<Mark>, wishlists: seq<Mark>)
    ensures forall m :: m in MatchedSpec(candidates, mine, likes, wishlists) ==>
              m.isMatch && 0 < m.commonInterests <= |mine|
  {
    MatchedSound(candidates, mine, likes, wishlists);
  }

  /** Every match has the id of some candidate. */
  lemma {:induction false} MatchedIds(candidates: seq<User>, mine: seq<BlogId>, likes: seq<Mark>, wishlists: seq<Mark>)
    ensures forall m :: m in MatchedSpec(candidates, mine, likes, wishlists) ==>
              exists k :: 0 <= k < |candidates| && candidates[k].id == m.id
    decreases |candidates|
  {
    if candidates != [] {
      var init := candidates[..|candidates| - 1];
      MatchedIds(init, mine, likes, wishlists);
      forall m | m in MatchedSpec(init, mine, likes, wishlists)
        ensures exists k :: 0 <= k < |candidates| && candidates[k].id == m.id
      {
        var k :| 0 <= k < |init| && init[k].id == m.id;
        assert candidates[k] == init[k];
      }
    }
  }

  /** A user with distinct ids is matched at most once. */
  lemma {:induction false} MatchedOnce(candidates: seq<User>, mine: seq<BlogId>, likes: seq<Mark>, wishlists: seq<Mark>)
    requires DistinctKeys(candidates, (u: User) => u.id)
    ensures DistinctKeys(MatchedSpec(candidates, mine, likes, wishlists), (m: MatchedUser) => m.id)
    decreases |candidates|
  {
    if candidates != [] {
      DistinctPrefix(candidates, |candidates| - 1, (u: User) => u.id);
      MatchedOnce(candidates[..|candidates| - 1], mine, likes, wishlists);
      LastIdIsNew(candidates, mine, likes, wishlists);
      MatchedSnocDistinct(candidates, MatchedSpec(candidates[..|candidates| - 1], mine, likes, wishlists),
                          mine, likes, wishlists);
    }
  }

  /** The step of `MatchedOnce`: a new id appended to distinct matches keeps them distinct. */
  lemma {:induction false} MatchedSnocDistinct(candidates: seq<User>, r: seq<MatchedUser>, mine: seq<BlogId>,
                                               likes: seq<Mark>, wishlists: seq<Mark>)
    requires candidates != [] && r == MatchedSpec(candidates[..|candidates| - 1], mine, likes, wishlists)
    requires DistinctKeys(r, (m: MatchedUser) => m.id)
    requires forall i :: 0 <= i < |r| ==> r[i].id != candidates[|candidates| - 1].id
    ensures DistinctKeys(MatchedSpec(candidates, mine, likes, wishlists), (m: MatchedUser) => m.id)
  {
    var last := candidates[|candidates| - 1];
    var n := Overlap(last, mine, likes, wishlists);
    var x := ToMatched(last, n);
    assert x.id == last.id;
    assert MatchedSpec(candidates, mine, likes, wishlists) == r + (if n > 0 then [x] else []);
    DistinctSnocIf(r, n > 0, x, (m: MatchedUser) => m.id);
  }

  /** The last candidate's id is not among the matches of the ones before it. */
  lemma {:induction false} LastIdIsNew(candidates: seq<User>, mine: seq<BlogId>, likes: seq<Mark>, wishlists: seq<Mark>)
    requires candidates != [] && DistinctKeys(candidates, (u: User) => u.id)
    ensures var r := MatchedSpec(candidates[..|candidates| - 1], mine, likes, wishlists);
            forall i :: 0 <= i < |r| ==> r[i].id != candidates[|candidates| - 1].id
  {
    var init := candidates[..|candidates| - 1];
    var r := MatchedSpec(init, mine, likes, wishlists);
    MatchedIds(init, mine, likes, wishlists);
    forall i | 0 <= i < |r|
      ensures r[i].id != candidates[|candidates| - 1].id
    {
      assert r[i] in r;
      var k :| 0 <= k < |init| && init[k].id == r[i].id;
      assert candidates[k] == init[k];
    }
  }

  /** The route's list before sorting: nothing when the caller has no blogs, else the matches. */
  function Matches(uid: UserId, likes: seq<Mark>, wishlists: seq<Mark>, requests: seq<BuddyRequest>, users: seq<User>)
    : (matched: seq<MatchedUser>)
    ensures BlogIdsOf(uid, likes, wishlists) == [] ==> matched == []
  {
    var mine := BlogIdsOf(uid, likes, wishlists);
    if mine == [] then [] else MatchedSpec(Candidates(uid, requests, users), mine, likes, wishlists)
  }

  /** The caller never matches themself, an accepted buddy, or an admin. */
  lemma MatchesAreCandidates(uid: UserId, likes: seq<Mark>, wishlists: seq<Mark>, requests: seq<BuddyRequest>,
                             users: seq<User>, m: MatchedUser)
    requires m in Matches(uid, likes, wishlists, requests, users)
    ensures m.id != uid && m.id !in BuddyRequests.AcceptedCounterparts(uid, requests)
    ensures exists u :: u in users && u.id == m.id && u.kind == Customer
  {
    var mine := BlogIdsOf(uid, likes, wishlists);
    MatchedSound(Candidates(uid, requests, users), mine, likes, wishlists);
  }

  /** The `for` loop: examine each candidate once, in order, pushing the matches. */
  method CollectMatches(candidates: seq<User>, mine: seq<BlogId>, likes: seq<Mark>, wishlists: seq<Mark>)
    returns (matched: seq<MatchedUser>)
    ensures matched == MatchedSpec(candidates, mine, likes, wishlists)
  {
    matched := [];
    for i := 0 to |candidates|
      invariant matched == MatchedSpec(candidates[..i], mine, likes, wishlists)
    {
      var u := candidates[i];
      var common := CommonBlogs(mine, BlogIdsOf(u.id, likes, wishlists));
      assert candidates[..i + 1][..i] == candidates[..i] && candidates[..i + 1][i] == u;
      assert MatchedSpec(candidates[..i + 1], mine, likes, wishlists) ==
             matched + (if |common| > 0 then [ToMatched(u, |common|)] else []);
      if |common| > 0 {
        matched := matched + [ToMatched(u, |common|)];
      }
    }
    assert candidates[..|candidates|] == candidates;
  }

  /**
   * `GET`: no `Bearer` header gives 401; a rejected token falls into the catch and gives 500;
   * otherwise the matches, sorted by non-increasing overlap.
   */
  method Get(header: Option<string>, verify: Verifier, likes: seq<Mark>, wishlists: seq<Mark>,
             requests: seq<BuddyRequest>, users: seq<User>)
    returns (r: Response<seq<MatchedUser>>)
    ensures BearerToken(header).None? ==> r == Fail(401, "Unauthorized")
    ensures BearerToken(header).Some? && verify(BearerToken(header).value).Rejected? ==>
              r == Fail(500, "Failed to fetch matches")
    ensures r.Fail? && r.status != 401 ==> r == Fail(500, "Failed to fetch matches")
    ensures r.Ok? <==> BearerClaims(header, verify, "Unauthorized", "Failed to fetch matches").Ok?
    ensures r.Ok? ==>
              var uid := BearerClaims(header, verify, "Unauthorized", "Failed to fetch matches").body.id;
              r.body == SortByDesc(Matches(uid, likes, wishlists, requests, users), CommonKey) &&
              SortedDesc(r.body, CommonKey) &&
              multiset(r.body) == multiset(Matches(uid, likes, wishlists, requests, users))
  {
    var auth := BearerClaims(header, verify, "Unauthorized", "Failed to fetch matches");
    if auth.Fail? {
      return Fail(auth.status, auth.error);
    }
    var ranked := Rank(auth.body.id, likes, wishlists, requests, users);
    r := Ok(200, ranked);
  }

  /**
   * The caller's matches after `matchedUsers.sort((a, b) => b.commonInterests - a.commonInterests)`,
   * a sort by non-increasing overlap.
   */
  method Rank(uid: UserId, likes: seq<Mark>, wishlists: seq<Mark>, requests: seq<BuddyRequest>, users: seq<User>)
    returns (ranked: seq<MatchedUser>)
    ensures ranked == SortByDesc(Matches(uid, likes, wishlists, requests, users), CommonKey)
    ensures SortedDesc(ranked, CommonKey)
    ensures multiset(ranked) == multiset(Matches(uid, likes, wishlists, requests, users))
  {
    var mine := BlogIdsOf(uid, likes, wishlists);
    if |mine| == 0 {
      return [];
    }
    var matched := CollectMatches(Candidates(uid, requests, users), mine, likes, wishlists);
    assert matched == Matches(uid, likes, wishlists, requests, users);
    ranked := SortByDesc(matched, CommonKey);
  }
}

=== FILE: middleware.dfy ===
/**
 * The page middleware: protected pages need a token that verifies; everything else passes.
 * The middleware verifies with its own secret fallback, so its verifier is a parameter of its
 * own and need not be the routes' one.
 */
module Middleware {

  import opened Base
  import opened Text
  import opened Http

  const ProtectedPaths: seq<string> := ["/discovery", "/trip", "/community", "/wishlist", "/buddies", "/profile", "/blog"]

  /** `pathname === path || pathname.startsWith(path + "/")` for some protected path. */
  predicate IsProtected(pathname: string) {
    exists k :: 0 <= k < |ProtectedPaths| && (pathname == ProtectedPaths[k] || ProtectedPaths[k] + "/" <= pathname)
  }

  /** Every page below a protected path is protected, at any depth. */
  lemma BelowProtectedIsProtected(k: nat, rest: string)
    requires k < |ProtectedPaths|
    ensures IsProtected(ProtectedPaths[k] + "/" + rest)
  {
    assert ProtectedPaths[k] + "/" <= ProtectedPaths[k] + "/" + rest;
  }

  /** Sharing a prefix is not enough: "/tripx" and "/blogs" are not protected. */
  lemma PrefixIsNotEnough()
    ensures !IsProtected("/tripx") && !IsProtected("/blogs")
    ensures IsProtected("/trip") && IsProtected("/trip/42")
  {
    assert ProtectedPaths[1] == "/trip";
    assert "/trip/" <= "/trip/42";
    forall k | 0 <= k < |ProtectedPaths|
      ensures "/tripx" != ProtectedPaths[k] && !(ProtectedPaths[k] + "/" <= "/tripx")
      ensures "/blogs" != ProtectedPaths[k] && !(ProtectedPaths[k] + "/" <= "/blogs")
    {
      if k == 1 {
        assert ("/trip" + "/")[5] == '/' && "/tripx"[5] == 'x';
      }
      if k == 6 {
        assert ("/blog" + "/")[5] == '/' && "/blogs"[5] == 's';
      }
    }
  }

  /**
   * The token: the authorization header with its first "Bearer " removed, or, when that is
   * absent or empty, the `auth-token` cookie. An empty token counts as none.
   */
  function PageToken(header: Option<string>, cookie: Option<string>): (token: Option<string>)
    ensures token.Some? ==> token.value != ""
    ensures header.Some? && ReplaceFirst(header.value, BearerPrefix, "") != "" ==>
              token == Some(ReplaceFirst(header.value, BearerPrefix, ""))
    ensures (header.None? || ReplaceFirst(header.value, BearerPrefix, "") == "") ==>
              token == (if Truthy(cookie) then cookie else None)
  {
    var fromHeader := if header.Some? then ReplaceFirst(header.value, BearerPrefix, "") else "";
    if fromHeader != "" then Some(fromHeader)
    else if Truthy(cookie) then cookie
    else None
  }

  /** A `Bearer` header carries its token, and wins over the cookie when it is not empty. */
  lemma BearerHeaderToken(token: string, cookie: Option<string>)
    requires token != ""
    ensures PageToken(Some(BearerPrefix + token), cookie) == Some(token)
  {
    var h := BearerPrefix + token;
    assert h[0..|BearerPrefix|] == BearerPrefix;
    assert FindFrom(h, BearerPrefix, 0) == Some(0);
    assert h[|BearerPrefix|..] == token;
    assert ReplaceFirst(h, BearerPrefix, "") == token;
  }

  /** A header without "Bearer " is taken whole, as the token. */
  lemma BareHeaderToken(header: string, cookie: Option<string>)
    requires header != "" && !Includes(header, BearerPrefix)
    ensures PageToken(Some(header), cookie) == Some(header)
  {
  }

  datatype Action = Next | Redirect(location: string)

  /**
   * `middleware`: an unprotected page passes; a protected one passes only with a token that
   * verifies, and is otherwise redirected to the home page.
   */
  function Decide(pathname: string, header: Option<string>, cookie: Option<string>, verify: Verifier)
    : (a: Action)
    ensures !IsProtected(pathname) ==> a == Next
    ensures IsProtected(pathname) ==>
              (a == Next <==> PageToken(header, cookie).Some? && verify(PageToken(header, cookie).value).Verified?)
    ensures a != Next ==> a == Redirect("/")
  {
    if !IsProtected(pathname) then Next
    else
      match PageToken(header, cookie)
      case None => Redirect("/")
      case Some(token) =>
        match verify(token)
        case Rejected(_) => Redirect("/")
        case Verified(_) => Next
  }
}

=== FILE: my_trips.dfy ===
/**
 * `GET /api/trips/my`: every trip the caller takes part in, with their role, the trip's todo
 * progress, and the trips grouped by who created them and by date.
 */
module MyTrips {

  import opened Base
  import opened Seqs
  import opened Http
  import opened Db
  import opened Trips

  /**
   * `Math.round(completed / total * 100)` for a trip with todos, else 0: the exact percentage
   * rounded to the nearest integer, halves up.
   */
  function Progress(completed: nat, total: nat): (p: nat)
    requires completed <= total
    ensures p <= 100
    ensures total == 0 ==> p == 0
    ensures total > 0 ==> 2 * total * p <= 200 * completed + total < 2 * total * (p + 1)
  {
    if total == 0 then 0
    else
      var p := (200 * completed + total) / (2 * total);
      ProgressBounds(completed, total, p);
      p
  }

  /** The rounding bounds of the quotient, and its ceiling of 100. */
  lemma ProgressBounds(completed: nat, total: nat, p: int)
    requires completed <= total && total > 0
    requires p == (200 * completed + total) / (2 * total)
    ensures 0 <= p <= 100
    ensures 2 * total * p <= 200 * completed + total < 2 * total * (p + 1)
  {
    var n, d := 200 * completed + total, 2 * total;
    assert n == d * p + n % d && 0 <= n % d < d;
    assert d * (p + 1) == d * p + d;
    assert n <= 201 * total;
    if p > 100 {
      MulMono(d, 101, p);
    }
    if p < 0 {
      MulMono(d, p + 1, 0);
    }
  }

  lemma MulMono(d: int, a: int, b: int)
    requires d >= 0 && a <= b
    ensures d * a <= d * b
  {
  }

  /** Quotients of ordered numerators are ordered. */
  lemma QuotientMono(d: int, x: int, y: int, a: int, b: int)
    requires d > 0 && x <= y
    requires d * a <= x && y < d * (b + 1)
    ensures a <= b
  {
    if a > b {
      MulMono(d, b + 1, a);
    }
  }

  /** A trip with todos, all of them done, is at 100%; one with none done is at 0%. */
  lemma ProgressEnds(total: nat)
    ensures total > 0 ==> Progress(total, total) == 100
    ensures Progress(0, total) == 0
  {
    if total > 0 {
      var d := 2 * total;
      var p := Progress(total, total);
      assert d * (100 + 1) == 202 * total && d * 100 == 200 * total && d * (0 + 1) == d;
      QuotientMono(d, 200 * total + total, 200 * total + total, p, 100);
      QuotientMono(d, 200 * total + total, 200 * total + total, 100, p);
      var z := Progress(0, total);
      QuotientMono(d, total, total, z, 0);
    }
  }

  /** More todos done never lowers the progress. */
  lemma ProgressMonotone(c1: nat, c2: nat, total: nat)
    requires c1 <= c2 <= total
    ensures Progress(c1, total) <= Progress(c2, total)
  {
    if total > 0 {
      QuotientMono(2 * total, 200 * c1 + total, 200 * c2 + total, Progress(c1, total), Progress(c2, total));
    }
  }

  /** A trip as the route shows it to the caller. */
  datatype MyTrip = MyTrip(
    trip: Trip, participants: seq<ParticipantView>, participantCount: nat, userRole: string,
    isCreator: bool, progress: nat, completedTodos: nat, totalTodos: nat)

  datatype Categories = Categories(
    created: seq<MyTrip>, joined: seq<MyTrip>, upcoming: seq<MyTrip>, ongoing: seq<MyTrip>, completed: seq<MyTrip>)

  datatype Stats = Stats(total: nat, created: nat, joined: nat, upcoming: nat, ongoing: nat, completed: nat)

  datatype MyTripsBody = MyTripsBody(trips: seq<MyTrip>, categories: Categories, stats: Stats)

  /** The trip's `participants` include: every participant row of `t`, each as often as stored. */
  function TripParts(t: Trip, parts: seq<ParticipantWithUser>): (r: seq<ParticipantWithUser>)
    ensures forall p :: multiset(r)[p] == if p.row.tripId == t.id then multiset(parts)[p] else 0
  {
    FilterMultiplicities(parts, (p: ParticipantWithUser) => p.row.tripId == t.id);
    Filter(parts, (p: ParticipantWithUser) => p.row.tripId == t.id)
  }

  /** The trip's `todos` include: every to-do of `t`, each as often as stored. */
  function TripTodos(t: Trip, todos: seq<TodoItem>): (r: seq<TodoItem>)
    ensures forall d :: multiset(r)[d] == if d.tripId == t.id then multiset(todos)[d] else 0
  {
    FilterMultiplicities(todos, (d: TodoItem) => d.tripId == t.id);
    Filter(todos, (d: TodoItem) => d.tripId == t.id)
  }

  /** `userParticipant?.role.toLowerCase() || "participant"`. */
  function UserRole(own: seq<ParticipantWithUser>, uid: UserId): (role: string)
    ensures (exists p :: p in own && p.row.userId == uid) ==> role == RoleName(Find(own, (p: ParticipantWithUser) => p.row.userId == uid).value.row.role)
    ensures !(exists p :: p in own && p.row.userId == uid) ==> role == "participant"
  {
    match Find(own, (p: ParticipantWithUser) => p.row.userId == uid)
    case None => "participant"
    case Some(p) => RoleName(p.row.role)
  }

  function ToMyTrip(t: Trip, uid: UserId, parts: seq<ParticipantWithUser>, todos: seq<TodoItem>): (v: MyTrip)
    ensures v.trip == t
    ensures v.isCreator <==> t.creatorId == uid
    ensures v.userRole == UserRole(TripParts(t, parts), uid)
    ensures v.participantCount == |TripParts(t, parts)| == |v.participants|
    ensures v.completedTodos <= v.totalTodos && v.progress <= 100
    ensures v.totalTodos == |TripTodos(t, todos)|
    ensures v.completedTodos == Count(TripTodos(t, todos), (d: TodoItem) => d.completed)
    ensures v.progress == Progress(v.completedTodos, v.totalTodos)
  {
    var own := TripParts(t, parts);
    var ts := TripTodos(t, todos);
    var done := Count(ts, (d: TodoItem) => d.completed);
    MyTrip(t, Map(own, ToParticipantView), |own|, UserRole(own, uid), t.creatorId == uid,
           Progress(done, |ts|), done, |ts|)
  }

  predicate TakesPart(t: Trip, uid: UserId, parts: seq<ParticipantWithUser>) {
    exists p :: p in parts && p.row.tripId == t.id && p.row.userId == uid
  }

  /** The trips the caller has a participant row in, newest first. */
  function Mine(uid: UserId, trips: seq<Trip>, parts: seq<ParticipantWithUser>): (r: seq<Trip>)
    ensures forall t :: t in r <==> t in trips && TakesPart(t, uid, parts)
    ensures forall t :: multiset(r)[t] == if TakesPart(t, uid, parts) then multiset(trips)[t] else 0
    ensures SortedDesc(r, CreatedAt)
  {
    var mine := Filter(trips, (t: Trip) => TakesPart(t, uid, parts));
    FilterMultiplicities(trips, (t: Trip) => TakesPart(t, uid, parts));
    SortByDescMembers(mine, CreatedAt);
    SortByDesc(mine, CreatedAt)
  }

  predicate Upcoming(v: MyTrip, now: int) {
    v.trip.startDate > now
  }

  predicate Ongoing(v: MyTrip, now: int) {
    v.trip.startDate <= now <= v.trip.endDate
  }

  predicate Completed(v: MyTrip, now: int) {
    v.trip.endDate < now
  }

  predicate IsCreatorView(v: MyTrip) {
    v.isCreator
  }

  predicate IsJoinedView(v: MyTrip) {
    !v.isCreator
  }

  /** The caller's trips, each as the route shows it. */
  function Views(uid: UserId, trips: seq<Trip>, parts: seq<ParticipantWithUser>, todos: seq<TodoItem>)
    : (r: seq<MyTrip>)
    ensures |r| == |Mine(uid, trips, parts)|
    ensures forall k :: 0 <= k < |r| ==> r[k] == ToMyTrip(Mine(uid, trips, parts)[k], uid, parts, todos)
  {
    Map(Mine(uid, trips, parts), (t: Trip) => ToMyTrip(t, uid, parts, todos))
  }

  /** The body for caller `uid` at time `now`. */
  function Body(uid: UserId, trips: seq<Trip>, parts: seq<ParticipantWithUser>, todos: seq<TodoItem>, now: int)
    : (b: MyTripsBody)
    ensures b.trips == Views(uid, trips, parts, todos)
    ensures b.categories.created == Filter(b.trips, IsCreatorView)
    ensures b.categories.joined == Filter(b.trips, IsJoinedView)
    ensures b.categories.upcoming == Filter(b.trips, (v: MyTrip) => Upcoming(v, now))
    ensures b.categories.ongoing == Filter(b.trips, (v: MyTrip) => Ongoing(v, now))
    ensures b.categories.completed == Filter(b.trips, (v: MyTrip) => Completed(v, now))
    ensures b.stats.total == |b.trips| && b.stats.created == |b.categories.created| &&
            b.stats.joined == |b.categories.joined| && b.stats.upcoming == |b.categories.upcoming| &&
            b.stats.ongoing == |b.categories.ongoing| && b.stats.completed == |b.categories.completed|
  {
    var views := Views(uid, trips, parts, todos);
    var cats := Categories(
      Filter(views, IsCreatorView), Filter(views, IsJoinedView),
      Filter(views, (v: MyTrip) => Upcoming(v, now)), Filter(views, (v: MyTrip) => Ongoing(v, now)),
      Filter(views, (v: MyTrip) => Completed(v, now)));
    MyTripsBody(views, cats, Stats(|views|, |cats.created|, |cats.joined|, |cats.upcoming|, |cats.ongoing|, |cats.completed|))
  }

  /** `isCreator` holds exactly for the trips the caller created. */
  lemma ViewsCreator(uid: UserId, trips: seq<Trip>, parts: seq<ParticipantWithUser>, todos: seq<TodoItem>)
    ensures forall v :: v in Views(uid, trips, parts, todos) ==> (v.isCreator <==> v.trip.creatorId == uid)
  {
    var views := Views(uid, trips, parts, todos);
    forall v | v in views
      ensures v.isCreator <==> v.trip.creatorId == uid
    {
      var k :| 0 <= k < |views| && views[k] == v;
    }
  }

  /** A trip is in the `created` category iff the caller created it, in `joined` otherwise. */
  lemma CreatedJoinedMembers(uid: UserId, trips: seq<Trip>, parts: seq<ParticipantWithUser>, todos: seq<TodoItem>)
    ensures forall v :: v in Filter(Views(uid, trips, parts, todos), IsCreatorView) <==>
              v in Views(uid, trips, parts, todos) && v.trip.creatorId == uid
    ensures forall v :: v in Filter(Views(uid, trips, parts, todos), IsJoinedView) <==>
              v in Views(uid, trips, parts, todos) && v.trip.creatorId != uid
  {
    ViewsCreator(uid, trips, parts, todos);
  }

  /** The two categories split the trips: `stats.created + stats.joined == stats.total`. */
  lemma CreatedJoinedPartition(views: seq<MyTrip>)
    ensures |Filter(views, IsCreatorView)| + |Filter(views, IsJoinedView)| == |views|
  {
    FilterComplement(views, IsCreatorView, IsJoinedView);
  }

  /** A trip that does not end before it starts is in exactly one of the three date buckets. */
  lemma OneBucket(v: MyTrip, now: int)
    requires v.trip.startDate <= v.trip.endDate
    ensures Upcoming(v, now) || Ongoing(v, now) || Completed(v, now)
    ensures !(Upcoming(v, now) && Ongoing(v, now)) && !(Upcoming(v, now) && Completed(v, now)) &&
            !(Ongoing(v, now) && Completed(v, now))
  {
  }

  /** When no listed trip ends before it starts, the three date buckets add up to the total. */
  lemma BucketsPartition(uid: UserId, trips: seq<Trip>, parts: seq<ParticipantWithUser>, todos: seq<TodoItem>, now: int)
    requires forall t :: t in trips ==> t.startDate <= t.endDate
    ensures var s := Body(uid, trips, parts, todos, now).stats;
            s.upcoming + s.ongoing + s.completed == s.total
  {
    var views := Views(uid, trips, parts, todos);
    var mine := Mine(uid, trips, parts);
    forall i | 0 <= i < |views|
      ensures views[i].trip.startDate <= views[i].trip.endDate
    {
      assert views[i].trip == mine[i];
      assert mine[i] in mine;
    }
    FilterPartition3(views, (v: MyTrip) => Upcoming(v, now), (v: MyTrip) => Ongoing(v, now),
                     (v: MyTrip) => Completed(v, now));
  }

  /** Every listed trip is one the caller takes part in, and each of those is listed. */
  lemma ViewsShowOwnTrips(uid: UserId, trips: seq<Trip>, parts: seq<ParticipantWithUser>, todos: seq<TodoItem>)
    ensures forall v :: v in Views(uid, trips, parts, todos) ==> v.trip in trips && TakesPart(v.trip, uid, parts)
    ensures forall t :: t in trips && TakesPart(t, uid, parts) ==> ToMyTrip(t, uid, parts, todos) in Views(uid, trips, parts, todos)
  {
    var mine := Mine(uid, trips, parts);
    var views := Views(uid, trips, parts, todos);
    forall v | v in views
      ensures v.trip in trips && TakesPart(v.trip, uid, parts)
    {
      var k :| 0 <= k < |views| && views[k] == v;
      assert mine[k] in mine;
    }
    forall t | t in trips && TakesPart(t, uid, parts)
      ensures ToMyTrip(t, uid, parts, todos) in views
    {
      var k :| 0 <= k < |mine| && mine[k] == t;
      assert views[k] == ToMyTrip(t, uid, parts, todos);
    }
  }

  /** `GET`: no `Bearer` header gives 401, a rejected token 500, else the body. */
  function Get(header: Option<string>, verify: Verifier, trips: seq<Trip>, parts: seq<ParticipantWithUser>,
               todos: seq<TodoItem>, now: int)
    : (r: Response<MyTripsBody>)
    ensures BearerToken(header).None? ==> r == Fail(401, "Not authenticated")
    ensures BearerToken(header).Some? && verify(BearerToken(header).value).Rejected? ==>
              r == Fail(500, "Failed to fetch your trips")
    ensures r.Ok? <==> BearerClaims(header, verify, "Not authenticated", "Failed to fetch your trips").Ok?
    ensures r.Fail? && r.status != 401 ==> r == Fail(500, "Failed to fetch your trips")
    ensures r.Ok? ==> r.body == Body(BearerClaims(header, verify, "Not authenticated", "Failed to fetch your trips").body.id,
                                     trips, parts, todos, now)
  {
    match BearerClaims(header, verify, "Not authenticated", "Failed to fetch your trips")
    case Fail(s, e) => Fail(s, e)
    case Ok(_, claims) => Ok(200, Body(claims.id, trips, parts, todos, now))
  }
}

=== FILE: notifications.dfy ===
/**
 * The client-side notification list: newest first, each entry read or unread. The provider's
 * state is a class whose methods are the context's callbacks.
 */
module Notifications {

  import opened Base
  import opened Seqs

  /** A notification; `id` and `timestamp` come from the caller (random and clock in the app). */
  datatype Notification = Notification(id: string, message: string, timestamp: int, read: bool)

  predicate IsUnread(n: Notification) {
    !n.read
  }

  /** `notifications.filter(n => !n.read).length`. */
  function Unread(ns: seq<Notification>): (count: nat)
    ensures count <= |ns|
  {
    Count(ns, IsUnread)
  }

  /** The unread count is 0 exactly when every entry is read. */
  lemma NoUnreadIffAllRead(ns: seq<Notification>)
    ensures Unread(ns) == 0 <==> forall i :: 0 <= i < |ns| ==> ns[i].read
  {
    if Unread(ns) == 0 {
      forall i | 0 <= i < |ns|
        ensures ns[i].read
      {
        assert ns[i] in ns;
      }
    } else {
      var n := Filter(ns, IsUnread)[0];
      assert n in ns;
    }
  }

  /** `prev.map(n => ({ ...n, read: true }))`. */
  function AllRead(ns: seq<Notification>): (r: seq<Notification>)
    ensures |r| == |ns|
    ensures forall i :: 0 <= i < |r| ==> r[i] == ns[i].(read := true)
  {
    Map(ns, (n: Notification) => n.(read := true))
  }

  /** A new unread entry at the front raises the unread count by exactly one. */
  lemma UnreadAfterAdd(n: Notification, ns: seq<Notification>)
    requires !n.read
    ensures Unread([n] + ns) == Unread(ns) + 1
  {
    FilterAppend([n], ns, IsUnread);
    assert Filter([n], IsUnread) == [n] by {
      assert [n][..0] == [];
    }
  }

  /** After marking all as read nothing is unread, and the messages are as before. */
  lemma AllReadClearsUnread(ns: seq<Notification>)
    ensures Unread(AllRead(ns)) == 0
    ensures forall i :: 0 <= i < |ns| ==> AllRead(ns)[i].message == ns[i].message
  {
    NoUnreadIffAllRead(AllRead(ns));
  }

  /** Marking all as read twice is marking once. */
  lemma AllReadIdempotent(ns: seq<Notification>)
    ensures AllRead(AllRead(ns)) == AllRead(ns)
  {
  }

  class NotificationCenter {
    var notifications: seq<Notification>

    /** The provider starts with an empty list (the local-storage load is not modelled). */
    constructor ()
      ensures notifications == []
    {
      notifications := [];
    }

    function UnreadCount(): (count: nat)
      reads this
      ensures count <= |notifications|
    {
      Unread(notifications)
    }

    /** `addNotification`: prepend one unread entry, leaving the others as they were. */
    method AddNotification(message: string, id: string, now: int)
      modifies this
      ensures notifications == [Notification(id, message, now, false)] + old(notifications)
      ensures UnreadCount() == old(UnreadCount()) + 1
    {
      UnreadAfterAdd(Notification(id, message, now, false), notifications);
      notifications := [Notification(id, message, now, false)] + notifications;
    }

    /** `markAllAsRead`. */
    method MarkAllAsRead()
      modifies this
      ensures notifications == AllRead(old(notifications))
      ensures UnreadCount() == 0
    {
      AllReadClearsUnread(notifications);
      notifications := AllRead(notifications);
    }

    /** `clearNotifications`. */
    method ClearNotifications()
      modifies this
      ensures notifications == [] && UnreadCount() == 0
    {
      notifications := [];
    }
  }

  /** What a hook call gives: the context, or the error it throws. */
  datatype HookResult = Context(center: NotificationCenter) | Thrown(message: string)

  /** `useNotifications`: outside a provider (no context) it throws. */
  function UseNotifications(provider: Option<NotificationCenter>): (r: HookResult)
    ensures provider.None? <==> r == Thrown("useNotifications must be used within a NotificationProvider")
    ensures provider.Some? ==> r == Context(provider.value)
  {
    match provider
    case None => Thrown("useNotifications must be used within a NotificationProvider")
    case Some(c) => Context(c)
  }
}

=== FILE: pending_requests.dfy ===
/**
 * `GET /api/buddies/requests/pending`: the caller's PENDING requests, split into those sent to
 * them (incoming, showing the requester) and those they sent (outgoing, showing the receiver).
 */
module PendingRequests {

  import opened Base
  import opened Seqs
  import opened Text
  import opened Http
  import opened Db
  import opened Interests
  import opened BuddyRequests

  /** The other party as the list shows them. */
  datatype PendingUser = PendingUser(
    id: UserId, name: string, avatar: string, location: string, bio: string, rating: real,
    tripsCompleted: nat, interests: seq<string>)

  datatype Direction = Incoming | Outgoing

  datatype FormattedRequest = FormattedRequest(
    id: string, direction: Direction, user: PendingUser, createdAt: int, status: RequestStatus)

  datatype PendingLists = PendingLists(
    incoming: seq<FormattedRequest>, outgoing: seq<FormattedRequest>, incomingCount: nat, outgoingCount: nat)

  /** `formatUser`: every missing or empty text field gets its placeholder, the rating is fixed. */
  function FormatUser(u: User): (p: PendingUser)
    ensures p.id == u.id && p.rating == 4.5 && p.tripsCompleted == u.tripCount
    ensures p.name == (if u.name == "" then "Unknown User" else u.name)
    ensures p.avatar == OrElse(u.avatar, "/placeholder.svg?height=40&width=40")
    ensures p.location == OrElse(u.location, "Location not specified")
    ensures p.bio == OrElse(u.bio, "No bio available")
    ensures p.interests == ParseInterestsNonEmpty(u.interests)
    ensures forall k :: 0 <= k < |p.interests| ==> p.interests[k] != ""
  {
    PendingUser(u.id, if u.name == "" then "Unknown User" else u.name,
                OrElse(u.avatar, "/placeholder.svg?height=40&width=40"),
                OrElse(u.location, "Location not specified"), OrElse(u.bio, "No bio available"),
                4.5, u.tripCount, ParseInterestsNonEmpty(u.interests))
  }

  function CreatedKey(j: JoinedRequest): int {
    j.request.createdAt
  }

  predicate IsIncoming(j: JoinedRequest, uid: UserId) {
    j.request.receiverId == uid && j.request.status == Pending
  }

  predicate IsOutgoing(j: JoinedRequest, uid: UserId) {
    j.request.requesterId == uid && j.request.status == Pending
  }

  /** The incoming query: PENDING requests received by `uid`, newest first. */
  function IncomingRows(uid: UserId, joined: seq<JoinedRequest>): (r: seq<JoinedRequest>)
    ensures forall j :: multiset(r)[j] == if IsIncoming(j, uid) then multiset(joined)[j] else 0
    ensures SortedDesc(r, CreatedKey)
  {
    FilterMultiplicities(joined, (j: JoinedRequest) => IsIncoming(j, uid));
    SortByDesc(Filter(joined, (j: JoinedRequest) => IsIncoming(j, uid)), CreatedKey)
  }

  /** The outgoing query: PENDING requests sent by `uid`, newest first. */
  function OutgoingRows(uid: UserId, joined: seq<JoinedRequest>): (r: seq<JoinedRequest>)
    ensures forall j :: multiset(r)[j] == if IsOutgoing(j, uid) then multiset(joined)[j] else 0
    ensures SortedDesc(r, CreatedKey)
  {
    FilterMultiplicities(joined, (j: JoinedRequest) => IsOutgoing(j, uid));
    SortByDesc(Filter(joined, (j: JoinedRequest) => IsOutgoing(j, uid)), CreatedKey)
  }

  /** An incoming request shows its requester. */
  function FormatIncoming(j: JoinedRequest): (f: FormattedRequest)
    ensures f.id == j.request.id && f.direction == Incoming && f.user == FormatUser(j.requester)
    ensures f.createdAt == j.request.createdAt && f.status == j.request.status
  {
    FormattedRequest(j.request.id, Incoming, FormatUser(j.requester), j.request.createdAt, j.request.status)
  }

  /** An outgoing request shows its receiver. */
  function FormatOutgoing(j: JoinedRequest): (f: FormattedRequest)
    ensures f.id == j.request.id && f.direction == Outgoing && f.user == FormatUser(j.receiver)
    ensures f.createdAt == j.request.createdAt && f.status == j.request.status
  {
    FormattedRequest(j.request.id, Outgoing, FormatUser(j.receiver), j.request.createdAt, j.request.status)
  }

  /** The response body for caller `uid`. */
  function Lists(uid: UserId, joined: seq<JoinedRequest>): (r: PendingLists)
    ensures r.incomingCount == |r.incoming| && r.outgoingCount == |r.outgoing|
    ensures r.incomingCount == Count(joined, (j: JoinedRequest) => IsIncoming(j, uid))
    ensures r.outgoingCount == Count(joined, (j: JoinedRequest) => IsOutgoing(j, uid))
  {
    var incoming := Map(IncomingRows(uid, joined), FormatIncoming);
    var outgoing := Map(OutgoingRows(uid, joined), FormatOutgoing);
    PendingLists(incoming, outgoing, |incoming|, |outgoing|)
  }

  /** Each incoming entry is a PENDING request received by the caller and shows its requester; each such request is listed. */
  lemma IncomingMembers(uid: UserId, joined: seq<JoinedRequest>, j: JoinedRequest)
    ensures j in joined && IsIncoming(j, uid) ==> FormatIncoming(j) in Lists(uid, joined).incoming
    ensures forall f :: f in Lists(uid, joined).incoming ==>
              f.direction == Incoming && f.status == Pending &&
              exists i :: i in joined && IsIncoming(i, uid) && f.user == FormatUser(i.requester)
  {
    var ins := IncomingRows(uid, joined);
    SortByDescMembers(Filter(joined, (i: JoinedRequest) => IsIncoming(i, uid)), CreatedKey);
    MapIn(ins, FormatIncoming, FormatIncoming(j));
    forall f | f in Lists(uid, joined).incoming
      ensures f.direction == Incoming && f.status == Pending &&
              exists i :: i in joined && IsIncoming(i, uid) && f.user == FormatUser(i.requester)
    {
      MapIn(ins, FormatIncoming, f);
    }
  }

  /** Each outgoing entry is a PENDING request sent by the caller and shows its receiver; each such request is listed. */
  lemma OutgoingMembers(uid: UserId, joined: seq<JoinedRequest>, j: JoinedRequest)
    ensures j in joined && IsOutgoing(j, uid) ==> FormatOutgoing(j) in Lists(uid, joined).outgoing
    ensures forall f :: f in Lists(uid, joined).outgoing ==>
              f.direction == Outgoing && f.status == Pending &&
              exists i :: i in joined && IsOutgoing(i, uid) && f.user == FormatUser(i.receiver)
  {
    var outs := OutgoingRows(uid, joined);
    SortByDescMembers(Filter(joined, (i: JoinedRequest) => IsOutgoing(i, uid)), CreatedKey);
    MapIn(outs, FormatOutgoing, FormatOutgoing(j));
    forall f | f in Lists(uid, joined).outgoing
      ensures f.direction == Outgoing && f.status == Pending &&
              exists i :: i in joined && IsOutgoing(i, uid) && f.user == FormatUser(i.receiver)
    {
      MapIn(outs, FormatOutgoing, f);
    }
  }

  /** Both lists are ordered by `createdAt`, newest first. */
  lemma ListsNewestFirst(uid: UserId, joined: seq<JoinedRequest>)
    ensures forall p, q :: 0 <= p < q < |Lists(uid, joined).incoming| ==>
              Lists(uid, joined).incoming[p].createdAt >= Lists(uid, joined).incoming[q].createdAt
    ensures forall p, q :: 0 <= p < q < |Lists(uid, joined).outgoing| ==>
              Lists(uid, joined).outgoing[p].createdAt >= Lists(uid, joined).outgoing[q].createdAt
  {
    var ins := IncomingRows(uid, joined);
    var outs := OutgoingRows(uid, joined);
    var r := Lists(uid, joined);
    forall p, q | 0 <= p < q < |r.incoming|
      ensures r.incoming[p].createdAt >= r.incoming[q].createdAt
    {
      assert r.incoming[p] == FormatIncoming(ins[p]) && r.incoming[q] == FormatIncoming(ins[q]);
      assert CreatedKey(ins[p]) >= CreatedKey(ins[q]);
    }
    forall p, q | 0 <= p < q < |r.outgoing|
      ensures r.outgoing[p].createdAt >= r.outgoing[q].createdAt
    {
      assert r.outgoing[p] == FormatOutgoing(outs[p]) && r.outgoing[q] == FormatOutgoing(outs[q]);
      assert CreatedKey(outs[p]) >= CreatedKey(outs[q]);
    }
  }

  /**
   * `GET`: no `Bearer` header gives 401; an unset secret gives 500; a rejected token gives 401
   * when its error name mentions "JWT" and 500 otherwise; a token without an id gives 401.
   */
  function Get(header: Option<string>, secretSet: bool, verify: Verifier, joined: seq<JoinedRequest>)
    : (r: Response<PendingLists>)
    ensures BearerToken(header).None? ==> r == Fail(401, "Authorization required")
    ensures BearerToken(header).Some? && !secretSet ==> r == Fail(500, "Server configuration error")
    ensures BearerToken(header).Some? && secretSet && verify(BearerToken(header).value).Rejected? ==>
              r == if Includes(verify(BearerToken(header).value).errorName, "JWT")
                   then Fail(401, "Invalid or expired token")
                   else Fail(500, "Failed to fetch pending requests")
    ensures r.Ok? <==> BearerToken(header).Some? && secretSet && verify(BearerToken(header).value).Verified? &&
                       verify(BearerToken(header).value).claims.id != ""
    ensures r.Ok? ==> r.body == Lists(verify(BearerToken(header).value).claims.id, joined)
  {
    match BearerToken(header)
    case None => Fail(401, "Authorization required")
    case Some(token) =>
      if !secretSet then Fail(500, "Server configuration error")
      else
        match verify(token)
        case Rejected(name) =>
          if Includes(name, "JWT") then Fail(401, "Invalid or expired token")
          else Fail(500, "Failed to fetch pending requests")
        case Verified(claims) =>
          if claims.id == "" then Fail(401, "Invalid token")
          else Ok(200, Lists(claims.id, joined))
  }
}

=== FILE: profile.dfy ===
/** `GET /api/profile` (the caller's profile) and `PATCH /api/profile` (a partial update). */
module Profile {

  import opened Base
  import opened Http
  import opened Db

  /** The columns `GET` selects; the password is not among them. */
  datatype ProfileView = ProfileView(
    id: UserId, name: string, email: string, phone: Option<string>, interests: Option<string>,
    location: Option<string>, bio: Option<string>, avatar: Option<string>, isPremium: bool, createdAt: int)

  /** The columns `PATCH` returns: those of `GET` without `createdAt`. */
  datatype UpdatedView = UpdatedView(
    id: UserId, name: string, email: string, phone: Option<string>, interests: Option<string>,
    location: Option<string>, bio: Option<string>, avatar: Option<string>, isPremium: bool)

  /** Every selected column of the row, as stored; the password is not selected. */
  function ViewOf(u: User): (v: ProfileView)
    ensures v.id == u.id && v.email == u.email && v.name == u.name && v.isPremium == u.isPremium
    ensures v.phone == u.phone && v.interests == u.interests && v.location == u.location
    ensures v.bio == u.bio && v.avatar == u.avatar && v.createdAt == u.createdAt
  {
    ProfileView(u.id, u.name, u.email, u.phone, u.interests, u.location, u.bio, u.avatar, u.isPremium, u.createdAt)
  }

  /** Every column `PATCH` selects from the updated row, as stored. */
  function UpdatedViewOf(u: User): (v: UpdatedView)
    ensures v.id == u.id && v.email == u.email && v.name == u.name && v.isPremium == u.isPremium
    ensures v.phone == u.phone && v.interests == u.interests && v.location == u.location
    ensures v.bio == u.bio && v.avatar == u.avatar
  {
    UpdatedView(u.id, u.name, u.email, u.phone, u.interests, u.location, u.bio, u.avatar, u.isPremium)
  }

  /** `GET`: 401 without a `Bearer` header, 500 when verification fails, 404 for an unknown id. */
  function Get(header: Option<string>, verify: Verifier, rows: seq<User>): (r: Response<ProfileView>)
    ensures BearerToken(header).None? ==> r == Fail(401, "Not authenticated")
    ensures BearerClaims(header, verify, "Not authenticated", "Failed to fetch profile").Fail? ==>
              r.Fail? && r.status != 404 && r.status != 200
    ensures BearerToken(header).Some? && verify(BearerToken(header).value).Rejected? ==>
              r == Fail(500, "Failed to fetch profile")
    ensures BearerClaims(header, verify, "Not authenticated", "Failed to fetch profile").Ok? ==>
              var id := BearerClaims(header, verify, "Not authenticated", "Failed to fetch profile").body.id;
              (!HasUserId(rows, id) <==> r == Fail(404, "User not found")) &&
              (HasUserId(rows, id) ==> r.Ok? && r.body.id == id && exists i :: 0 <= i < |rows| && r.body == ViewOf(rows[i]))
  {
    match BearerClaims(header, verify, "Not authenticated", "Failed to fetch profile")
    case Fail(s, e) => Fail(s, e)
    case Ok(_, claims) =>
      match UserIndex(rows, claims.id)
      case None => Fail(404, "User not found")
      case Some(i) => Ok(200, ViewOf(rows[i]))
  }

  /** The editable fields of the `PATCH` body; an absent field is `None`. */
  datatype ProfilePatch = ProfilePatch(name: Option<string>, phone: Option<string>, interests: Option<string>,
                                       location: Option<string>, bio: Option<string>)

  /** `{ ...(name && { name }), ... }`: a field is written exactly when its new value is truthy. */
  function ApplyPatch(u: User, p: ProfilePatch): (v: User)
    ensures Truthy(p.name) ==> v.name == p.name.value
    ensures !Truthy(p.name) ==> v.name == u.name
    ensures Truthy(p.phone) ==> v.phone == p.phone
    ensures !Truthy(p.phone) ==> v.phone == u.phone
    ensures Truthy(p.interests) ==> v.interests == p.interests
    ensures !Truthy(p.interests) ==> v.interests == u.interests
    ensures Truthy(p.location) ==> v.location == p.location
    ensures !Truthy(p.location) ==> v.location == u.location
    ensures Truthy(p.bio) ==> v.bio == p.bio
    ensures !Truthy(p.bio) ==> v.bio == u.bio
    ensures v.id == u.id && v.email == u.email && v.password == u.password && v.avatar == u.avatar
    ensures v.isPremium == u.isPremium && v.kind == u.kind && v.createdAt == u.createdAt && v.tripCount == u.tripCount
  {
    u.(name := OrElse(p.name, u.name),
       phone := if Truthy(p.phone) then p.phone else u.phone,
       interests := if Truthy(p.interests) then p.interests else u.interests,
       location := if Truthy(p.location) then p.location else u.location,
       bio := if Truthy(p.bio) then p.bio else u.bio)
  }

  /** Sending the same patch twice has the effect of sending it once. */
  lemma PatchIdempotent(u: User, p: ProfilePatch)
    ensures ApplyPatch(ApplyPatch(u, p), p) == ApplyPatch(u, p)
  {
  }

  /** A patch whose fields are all absent or empty changes nothing. */
  lemma EmptyPatchChangesNothing(u: User, p: ProfilePatch)
    requires !Truthy(p.name) && !Truthy(p.phone) && !Truthy(p.interests) && !Truthy(p.location) && !Truthy(p.bio)
    ensures ApplyPatch(u, p) == u
  {
  }

  /**
   * `PATCH`: 401 without a `Bearer` header; a failed verification and an unknown id (the
   * update throws) give 500; otherwise the caller's row is patched and nothing else changes.
   */
  method Patch(table: UserTable, header: Option<string>, verify: Verifier, p: ProfilePatch)
    returns (r: Response<UpdatedView>)
    requires table.Valid()
    modifies table
    ensures table.Valid()
    ensures BearerToken(header).None? ==> r == Fail(401, "Not authenticated")
    ensures BearerToken(header).Some? && verify(BearerToken(header).value).Rejected? ==>
              r == Fail(500, "Failed to update profile")
    ensures r.Fail? ==> table.rows == old(table.rows)
    ensures r.Fail? && r.status != 401 ==> r == Fail(500, "Failed to update profile")
    ensures r.Ok? <==> BearerClaims(header, verify, "Not authenticated", "Failed to update profile").Ok? &&
                       HasUserId(old(table.rows), BearerClaims(header, verify, "Not authenticated", "Failed to update profile").body.id)
    ensures r.Ok? ==>
              exists i :: 0 <= i < |old(table.rows)| &&
                old(table.rows)[i].id == BearerClaims(header, verify, "Not authenticated", "Failed to update profile").body.id &&
                table.rows == old(table.rows)[i := ApplyPatch(old(table.rows)[i], p)] &&
                r == Ok(200, UpdatedViewOf(table.rows[i]))
  {
    var auth := BearerClaims(header, verify, "Not authenticated", "Failed to update profile");
    if auth.Fail? {
      return Fail(auth.status, auth.error);
    }
    match UserIndex(table.rows, auth.body.id) {
      case None =>
        r := Fail(500, "Failed to update profile");
      case Some(i) =>
        var u := ApplyPatch(table.rows[i], p);
        table.Put(i, u);
        r := Ok(200, UpdatedViewOf(u));
    }
  }
}

=== FILE: profile_trips.dfy ===
/**
 * `GET /api/profile/trips`: the caller's ENDED trips, latest end first, each with the caller's
 * own trip rating and the rating they gave every other participant (0 when none).
 */
module ProfileTrips {

  import opened Base
  import opened Seqs
  import opened Http
  import opened Db

  datatype RatedBuddy = RatedBuddy(id: UserId, name: string, avatar: Option<string>, rating: int)

  datatype EndedTrip = EndedTrip(id: TripId, destination: string, date: int, rating: int, participants: seq<RatedBuddy>)

  /**
   * `reviews.reduce((m, br) => { m[br.buddyId] = br.rating; return m }, {})`: a fold from the
   * first review to the last, so a later review of the same buddy overwrites an earlier one.
   */
  function BuddyRatings(reviews: seq<BuddyReviewRow>): (m: map<UserId, int>)
    ensures forall b :: b in m <==> exists i :: 0 <= i < |reviews| && reviews[i].buddyId == b
  {
    if reviews == [] then map[]
    else
      var init := reviews[..|reviews| - 1];
      var last := reviews[|reviews| - 1];
      var m := BuddyRatings(init);
      assert forall i :: 0 <= i < |init| ==> reviews[i] == init[i];
      m[last.buddyId := last.rating]
  }

  /** The rating kept for a buddy is the one of their last review. */
  lemma {:induction false} LastReviewWins(reviews: seq<BuddyReviewRow>, i: nat)
    requires i < |reviews|
    requires forall j :: i < j < |reviews| ==> reviews[j].buddyId != reviews[i].buddyId
    ensures BuddyRatings(reviews)[reviews[i].buddyId] == reviews[i].rating
    decreases |reviews|
  {
    if i < |reviews| - 1 {
      var init := reviews[..|reviews| - 1];
      assert init[i] == reviews[i];
      LastReviewWins(init, i);
    }
  }

  predicate TakesPart(t: Trip, uid: UserId, parts: seq<ParticipantWithUser>) {
    exists p :: p in parts && p.row.tripId == t.id && p.row.userId == uid
  }

  function EndDate(t: Trip): int {
    t.endDate
  }

  /** The trip query: ENDED trips the caller takes part in, latest `endDate` first. */
  function EndedTrips(uid: UserId, trips: seq<Trip>, parts: seq<ParticipantWithUser>): (r: seq<Trip>)
    ensures forall t :: t in r <==> t in trips && t.status == Ended && TakesPart(t, uid, parts)
    ensures forall t :: multiset(r)[t] == if t.status == Ended && TakesPart(t, uid, parts) then multiset(trips)[t] else 0
    ensures SortedDesc(r, EndDate)
  {
    var ended := Filter(trips, (t: Trip) => t.status == Ended && TakesPart(t, uid, parts));
    FilterMultiplicities(trips, (t: Trip) => t.status == Ended && TakesPart(t, uid, parts));
    SortByDescMembers(ended, EndDate);
    SortByDesc(ended, EndDate)
  }

  /** `t.tripReviews[0]?.rating ?? 0` over the caller's reviews of `t`. */
  function OwnTripRating(t: Trip, uid: UserId, tripReviews: seq<TripReviewRow>): (rating: int)
    ensures !(exists r :: r in tripReviews && r.tripId == t.id && r.reviewerId == uid) ==> rating == 0
    ensures (exists r :: r in tripReviews && r.tripId == t.id && r.reviewerId == uid) ==>
              exists i :: 0 <= i < |tripReviews| && tripReviews[i].tripId == t.id && tripReviews[i].reviewerId == uid &&
                          rating == tripReviews[i].rating &&
                          forall j :: 0 <= j < i ==> !(tripReviews[j].tripId == t.id && tripReviews[j].reviewerId == uid)
  {
    var mine := Filter(tripReviews, (r: TripReviewRow) => r.tripId == t.id && r.reviewerId == uid);
    if mine == [] then 0
    else
      FilterFirst(tripReviews, (r: TripReviewRow) => r.tripId == t.id && r.reviewerId == uid);
      mine[0].rating
  }

  /** The caller's buddy reviews on trip `t`, in the database's order. */
  function OwnBuddyReviews(t: Trip, uid: UserId, buddyReviews: seq<BuddyReviewRow>): (r: seq<BuddyReviewRow>)
    ensures forall b :: multiset(r)[b] == if b.tripId == t.id && b.reviewerId == uid then multiset(buddyReviews)[b] else 0
  {
    FilterMultiplicities(buddyReviews, (r: BuddyReviewRow) => r.tripId == t.id && r.reviewerId == uid);
    Filter(buddyReviews, (r: BuddyReviewRow) => r.tripId == t.id && r.reviewerId == uid)
  }

  function RateBuddy(p: ParticipantWithUser, ratings: map<UserId, int>): (b: RatedBuddy)
    ensures b.id == p.user.id && b.avatar == p.user.avatar
    ensures b.rating == if p.user.id in ratings then ratings[p.user.id] else 0
  {
    RatedBuddy(p.user.id, p.user.name, p.user.avatar, if p.user.id in ratings then ratings[p.user.id] else 0)
  }

  /** Trip `t`'s other participants, each with the caller's rating of them. */
  function OtherParticipants(t: Trip, uid: UserId, parts: seq<ParticipantWithUser>, ratings: map<UserId, int>)
    : (r: seq<RatedBuddy>)
    ensures |r| == Count(parts, (p: ParticipantWithUser) => p.row.tripId == t.id && p.row.userId != uid)
    ensures forall b :: b in r <==>
              exists p :: p in parts && p.row.tripId == t.id && p.row.userId != uid && b == RateBuddy(p, ratings)
  {
    var others := Filter(parts, (p: ParticipantWithUser) => p.row.tripId == t.id && p.row.userId != uid);
    var r := Map(others, (p: ParticipantWithUser) => RateBuddy(p, ratings));
    forall b
      ensures b in r <==> exists p :: p in others && b == RateBuddy(p, ratings)
    {
      MapIn(others, (p: ParticipantWithUser) => RateBuddy(p, ratings), b);
    }
    r
  }

  /** The caller never appears among the participants of a trip (for rows whose user is the row's user). */
  lemma CallerExcluded(t: Trip, uid: UserId, parts: seq<ParticipantWithUser>, ratings: map<UserId, int>)
    requires forall p :: p in parts ==> p.user.id == p.row.userId
    ensures forall b :: b in OtherParticipants(t, uid, parts, ratings) ==> b.id != uid
  {
    var others := Filter(parts, (p: ParticipantWithUser) => p.row.tripId == t.id && p.row.userId != uid);
    forall b | b in OtherParticipants(t, uid, parts, ratings)
      ensures b.id != uid
    {
      MapIn(others, (p: ParticipantWithUser) => RateBuddy(p, ratings), b);
    }
  }

  function ToEndedTrip(t: Trip, uid: UserId, parts: seq<ParticipantWithUser>, tripReviews: seq<TripReviewRow>,
                       buddyReviews: seq<BuddyReviewRow>)
    : (e: EndedTrip)
    ensures e.id == t.id && e.date == t.endDate
    ensures e.rating == OwnTripRating(t, uid, tripReviews)
    ensures e.participants == OtherParticipants(t, uid, parts, BuddyRatings(OwnBuddyReviews(t, uid, buddyReviews)))
  {
    EndedTrip(t.id, t.destination, t.endDate, OwnTripRating(t, uid, tripReviews),
              OtherParticipants(t, uid, parts, BuddyRatings(OwnBuddyReviews(t, uid, buddyReviews))))
  }

  function Body(uid: UserId, trips: seq<Trip>, parts: seq<ParticipantWithUser>, tripReviews: seq<TripReviewRow>,
                buddyReviews: seq<BuddyReviewRow>)
    : (r: seq<EndedTrip>)
    ensures |r| == |EndedTrips(uid, trips, parts)|
    ensures forall k :: 0 <= k < |r| ==>
              r[k] == ToEndedTrip(EndedTrips(uid, trips, parts)[k], uid, parts, tripReviews, buddyReviews)
  {
    Map(EndedTrips(uid, trips, parts), (t: Trip) => ToEndedTrip(t, uid, parts, tripReviews, buddyReviews))
  }

  /** Only ENDED trips the caller takes part in are listed. */
  lemma BodyShowsEndedTrips(uid: UserId, trips: seq<Trip>, parts: seq<ParticipantWithUser>,
                            tripReviews: seq<TripReviewRow>, buddyReviews: seq<BuddyReviewRow>)
    ensures forall k :: 0 <= k < |Body(uid, trips, parts, tripReviews, buddyReviews)| ==>
              exists t :: t in trips && t.status == Ended && TakesPart(t, uid, parts) &&
                          Body(uid, trips, parts, tripReviews, buddyReviews)[k].id == t.id
  {
    var ended := EndedTrips(uid, trips, parts);
    var body := Body(uid, trips, parts, tripReviews, buddyReviews);
    forall k | 0 <= k < |body|
      ensures exists t :: t in trips && t.status == Ended && TakesPart(t, uid, parts) && body[k].id == t.id
    {
      assert ended[k] in ended;
      assert body[k].id == ended[k].id;
    }
  }

  /** The list is ordered by end date, latest first. */
  lemma BodyLatestEndFirst(uid: UserId, trips: seq<Trip>, parts: seq<ParticipantWithUser>,
                           tripReviews: seq<TripReviewRow>, buddyReviews: seq<BuddyReviewRow>)
    ensures forall p, q :: 0 <= p < q < |Body(uid, trips, parts, tripReviews, buddyReviews)| ==>
              Body(uid, trips, parts, tripReviews, buddyReviews)[p].date >=
              Body(uid, trips, parts, tripReviews, buddyReviews)[q].date
  {
    var ended := EndedTrips(uid, trips, parts);
    var body := Body(uid, trips, parts, tripReviews, buddyReviews);
    forall p, q | 0 <= p < q < |body|
      ensures body[p].date >= body[q].date
    {
      assert body[p].date == EndDate(ended[p]) && body[q].date == EndDate(ended[q]);
    }
  }

  /** `GET`: no `Bearer` header gives 401; any later failure, a rejected token included, 500. */
  function Get(header: Option<string>, verify: Verifier, trips: seq<Trip>, parts: seq<ParticipantWithUser>,
               tripReviews: seq<TripReviewRow>, buddyReviews: seq<BuddyReviewRow>)
    : (r: Response<seq<EndedTrip>>)
    ensures BearerToken(header).None? ==> r == Fail(401, "Not authenticated")
    ensures BearerToken(header).Some? && verify(BearerToken(header).value).Rejected? ==>
              r == Fail(500, "Failed to load trips")
    ensures r.Fail? && r.status != 401 ==> r == Fail(500, "Failed to load trips")
    ensures r.Ok? <==> BearerClaims(header, verify, "Not authenticated", "Failed to load trips").Ok?
    ensures r.Ok? ==> r.body == Body(BearerClaims(header, verify, "Not authenticated", "Failed to load trips").body.id,
                                     trips, parts, tripReviews, buddyReviews)
  {
    match BearerClaims(header, verify, "Not authenticated", "Failed to load trips")
    case Fail(s, e) => Fail(s, e)
    case Ok(_, claims) => Ok(200, Body(claims.id, trips, parts, tripReviews, buddyReviews))
  }
}

=== FILE: random_destination.dfy ===
/**
 * `GET /api/destinations/random`: the language model's free text becomes a destination and a
 * description. The model call itself is a parameter: its text, or `None` when it fails.
 */
module RandomDestination {

  import opened Base
  import opened Seqs
  import opened Text
  import opened Http

  /** `line => line.trim()` as a filter: the line is not blank. */
  predicate NotBlank(line: string) {
    Trim(line) != ""
  }

  /** `text.trim().split('\n').filter(line => line.trim())`; the kept lines are not trimmed. */
  function Lines(text: string): (lines: seq<string>)
    ensures forall k :: 0 <= k < |lines| ==> NotBlank(lines[k])
    ensures forall l :: l in lines <==> l in Split(Trim(text), '\n') && NotBlank(l)
  {
    Filter(Split(Trim(text), '\n'), NotBlank)
  }

  /** No line holds a line break. */
  lemma LinesHaveNoBreak(text: string)
    ensures forall k :: 0 <= k < |Lines(text)| ==> '\n' !in Lines(text)[k]
  {
    FilterKeeps(Split(Trim(text), '\n'), NotBlank, (l: string) => '\n' !in l);
  }

  /** Text that is already trimmed and has no blank line is split into its lines unchanged. */
  lemma CleanTextLines(text: string)
    requires Trim(text) == text
    requires forall k :: 0 <= k < |Split(text, '\n')| ==> NotBlank(Split(text, '\n')[k])
    ensures Lines(text) == Split(text, '\n')
  {
    FilterAll(Split(text, '\n'), NotBlank);
  }

  /** The response body: `destination` is left out of the JSON when there is no line at all. */
  datatype Suggestion = Suggestion(destination: Option<string>, description: string)

  /**
   * `lines[0]` and `lines.slice(1).join('\n')`: the destination is the first non-blank line of
   * the trimmed text.
   */
  function Parse(text: string): (s: Suggestion)
    ensures |Lines(text)| == 0 ==> s == Suggestion(None, "")
    ensures |Lines(text)| > 0 ==> s.destination == Some(Lines(text)[0])
    ensures |Lines(text)| > 0 ==>
              exists i :: IsFirst(Split(Trim(text), '\n'), NotBlank, i) && s.destination == Some(Split(Trim(text), '\n')[i])
    ensures |Lines(text)| <= 1 ==> s.description == ""
  {
    var lines := Lines(text);
    if |lines| == 0 then Suggestion(None, "")
    else
      FirstLine(text);
      Suggestion(Some(lines[0]), Join(lines[1..], '\n'))
  }

  /** The first kept line is the first non-blank piece of the trimmed text. */
  lemma FirstLine(text: string)
    requires |Lines(text)| > 0
    ensures exists i :: IsFirst(Split(Trim(text), '\n'), NotBlank, i) && Lines(text)[0] == Split(Trim(text), '\n')[i]
  {
    FilterFirst(Split(Trim(text), '\n'), NotBlank);
  }

  /** The description has no blank line: split on "\n" it gives back the remaining lines. */
  lemma DescriptionLines(text: string)
    requires |Lines(text)| >= 2
    ensures Split(Parse(text).description, '\n') == Lines(text)[1..]
    ensures forall k :: 0 <= k < |Split(Parse(text).description, '\n')| ==> NotBlank(Split(Parse(text).description, '\n')[k])
  {
    LinesHaveNoBreak(text);
    TailLines(Lines(text));
  }

  /** Non-blank lines without breaks, after the first, survive a join and a split. */
  lemma TailLines(lines: seq<string>)
    requires |lines| >= 2
    requires forall k :: 0 <= k < |lines| ==> NotBlank(lines[k]) && '\n' !in lines[k]
    ensures Split(Join(lines[1..], '\n'), '\n') == lines[1..]
    ensures forall k :: 0 <= k < |lines| - 1 ==> NotBlank(lines[1..][k])
  {
    var tail := lines[1..];
    forall k | 0 <= k < |tail|
      ensures '\n' !in tail[k] && NotBlank(tail[k])
    {
      assert tail[k] == lines[k + 1];
    }
    SplitJoin(tail, '\n');
  }

  /**
   * The destination joined to the description by "\n" is the non-blank lines joined back, and
   * splitting it again gives exactly those lines.
   */
  lemma ParseRoundTrip(text: string)
    requires |Lines(text)| >= 2
    ensures Parse(text).destination.value + "\n" + Parse(text).description == Join(Lines(text), '\n')
    ensures Split(Parse(text).destination.value + "\n" + Parse(text).description, '\n') == Lines(text)
  {
    var lines := Lines(text);
    var s := Parse(text);
    assert s.destination.value == lines[0] && s.description == Join(lines[1..], '\n');
    assert Join(lines, '\n') == lines[0] + ['\n'] + Join(lines[1..], '\n');
    LinesHaveNoBreak(text);
    SplitJoin(lines, '\n');
  }

  /** The route: a failing model call gives 500; otherwise the parsed suggestion. */
  function Get(generated: Option<string>): (r: Response<Suggestion>)
    ensures generated.None? <==> r == Fail(500, "Failed to get destination suggestion")
    ensures generated.Some? ==> r == Ok(200, Parse(generated.value))
  {
    match generated
    case None => Fail(500, "Failed to get destination suggestion")
    case Some(text) => Ok(200, Parse(text))
  }
}

=== FILE: reviews.dfy ===
/**
 * `POST /api/reviews`: a trip review keyed by (trip, reviewer) or a buddy review keyed by
 * (trip, reviewer, buddy), each created or overwritten. The route checks neither that the
 * caller took part in the trip nor the rating's range.
 */
module Reviews {

  import opened Base
  import opened Http
  import opened Db

  /**
   * The JSON body. `rating` is `None` when it is not a number; `comment` is `None` when absent
   * (the destructuring default then gives "").
   */
  datatype ReviewInput = ReviewInput(
    tripId: Option<string>, rating: Option<int>, reviewType: Option<string>, comment: Option<string>,
    reviewedUserId: Option<string>)

  /** The one write a valid request makes. */
  datatype Upsert = TripUpsert(tripKey: TripReviewKey, review: Review) | BuddyUpsert(buddyKey: BuddyReviewKey, review: Review)

  /** The validation of `POST` for caller `uid`, and the write it asks for. */
  function Decide(uid: UserId, input: ReviewInput): (r: Response<Upsert>)
    ensures !Truthy(input.tripId) || input.rating.None? || !Truthy(input.reviewType) ==> r == Fail(400, "Missing fields")
    ensures r.Fail? ==> r.status == 400
    ensures r.Ok? <==> Truthy(input.tripId) && input.rating.Some? &&
                       (input.reviewType == Some("TRIP") || (input.reviewType == Some("BUDDY") && Truthy(input.reviewedUserId)))
    ensures r.Ok? ==> r.body.review == Review(input.rating.value, input.comment.GetOr(""))
    ensures r.Ok? && input.reviewType == Some("TRIP") ==> r.body == TripUpsert(TripReviewKey(input.tripId.value, uid), r.body.review)
    ensures r.Ok? && input.reviewType == Some("BUDDY") ==>
              r.body == BuddyUpsert(BuddyReviewKey(input.tripId.value, uid, input.reviewedUserId.value), r.body.review)
  {
    if !Truthy(input.tripId) || input.rating.None? || !Truthy(input.reviewType) then Fail(400, "Missing fields")
    else
      var review := Review(input.rating.value, input.comment.GetOr(""));
      if input.reviewType.value == "TRIP" then Ok(200, TripUpsert(TripReviewKey(input.tripId.value, uid), review))
      else if input.reviewType.value == "BUDDY" then
        if !Truthy(input.reviewedUserId) then Fail(400, "Missing reviewedUserId")
        else Ok(200, BuddyUpsert(BuddyReviewKey(input.tripId.value, uid, input.reviewedUserId.value), review))
      else Fail(400, "Invalid reviewType")
  }

  /** The two review tables after one write. */
  function Apply(trips: map<TripReviewKey, Review>, buddies: map<BuddyReviewKey, Review>, u: Upsert)
    : (r: (map<TripReviewKey, Review>, map<BuddyReviewKey, Review>))
    ensures u.TripUpsert? ==> r.1 == buddies && r.0.Keys == trips.Keys + {u.tripKey} && r.0[u.tripKey] == u.review
    ensures u.TripUpsert? ==> forall k :: k in trips && k != u.tripKey ==> r.0[k] == trips[k]
    ensures u.BuddyUpsert? ==> r.0 == trips && r.1.Keys == buddies.Keys + {u.buddyKey} && r.1[u.buddyKey] == u.review
    ensures u.BuddyUpsert? ==> forall k :: k in buddies && k != u.buddyKey ==> r.1[k] == buddies[k]
  {
    match u
    case TripUpsert(k, v) => (trips[k := v], buddies)
    case BuddyUpsert(k, v) => (trips, buddies[k := v])
  }

  /**
   * Submitting twice under the same key leaves only the second review: the first write is
   * overwritten, and repeating a write changes nothing.
   */
  lemma SecondSubmissionWins(trips: map<TripReviewKey, Review>, buddies: map<BuddyReviewKey, Review>, u1: Upsert, u2: Upsert)
    requires (u1.TripUpsert? && u2.TripUpsert? && u1.tripKey == u2.tripKey) ||
             (u1.BuddyUpsert? && u2.BuddyUpsert? && u1.buddyKey == u2.buddyKey)
    ensures var s := Apply(trips, buddies, u1);
            Apply(s.0, s.1, u2) == Apply(trips, buddies, u2)
    ensures var s := Apply(trips, buddies, u2);
            Apply(s.0, s.1, u2) == s
  {
    var s := Apply(trips, buddies, u1);
    if u1.TripUpsert? {
      assert s.0[u2.tripKey := u2.review] == trips[u2.tripKey := u2.review];
    } else {
      assert s.1[u2.buddyKey := u2.review] == buddies[u2.buddyKey := u2.review];
    }
    var t := Apply(trips, buddies, u2);
    if u2.TripUpsert? {
      assert t.0[u2.tripKey := u2.review] == t.0;
    } else {
      assert t.1[u2.buddyKey := u2.review] == t.1;
    }
  }

  /**
   * `POST`: no `Bearer` header gives 401, a rejected token 500; a valid request performs its
   * one upsert, an invalid one writes nothing.
   */
  method Submit(store: ReviewStore, header: Option<string>, verify: Verifier, input: ReviewInput)
    returns (r: Response<Review>)
    modifies store
    ensures BearerToken(header).None? ==> r == Fail(401, "Not authenticated")
    ensures BearerToken(header).Some? && verify(BearerToken(header).value).Rejected? ==>
              r == Fail(500, "Failed to create or update review")
    ensures r.Fail? && r.status != 401 && r.status != 400 ==> r == Fail(500, "Failed to create or update review")
    ensures r.Ok? <==> BearerClaims(header, verify, "Not authenticated", "Failed to create or update review").Ok? &&
                       Decide(BearerClaims(header, verify, "Not authenticated", "Failed to create or update review").body.id, input).Ok?
    ensures r.Ok? ==>
              var u := Decide(BearerClaims(header, verify, "Not authenticated", "Failed to create or update review").body.id, input).body;
              r.body == u.review &&
              (store.tripReviews, store.buddyReviews) == Apply(old(store.tripReviews), old(store.buddyReviews), u)
    ensures r.Fail? ==> store.tripReviews == old(store.tripReviews) && store.buddyReviews == old(store.buddyReviews)
  {
    var auth := BearerClaims(header, verify, "Not authenticated", "Failed to create or update review");
    if auth.Fail? {
      return Fail(auth.status, auth.error);
    }
    var decision := Decide(auth.body.id, input);
    if decision.Fail? {
      return Fail(decision.status, decision.error);
    }
    match decision.body {
      case TripUpsert(k, v) => store.UpsertTripReview(k, v);
      case BuddyUpsert(k, v) => store.UpsertBuddyReview(k, v);
    }
    r := Ok(200, decision.body.review);
  }
}

=== FILE: seqs.dfy ===
/** The list operations the handlers use: `filter`, `map`, keep-first de-duplication and ordering. */
module Seqs {

  import opened Base

  /** `xs.filter(p)`, defined on the last element so that a loop pushing in order builds it. */
  function Filter<T(!new)>(xs: seq<T>, p: T -> bool): (r: seq<T>)
    ensures |r| <= |xs|
    ensures forall x :: x in r <==> x in xs && p(x)
    ensures forall i :: 0 <= i < |r| ==> p(r[i])
    ensures multiset(r) <= multiset(xs)
  {
    if xs == [] then []
    else
      var init := xs[..|xs| - 1];
      assert xs == init + [xs[|xs| - 1]];
      var r := Filter(init, p);
      if p(xs[|xs| - 1]) then r + [xs[|xs| - 1]] else r
  }

  lemma {:induction false} FilterAppend<T(!new)>(a: seq<T>, b: seq<T>, p: T -> bool)
    ensures Filter(a + b, p) == Filter(a, p) + Filter(b, p)
    decreases |b|
  {
    if b == [] {
      assert a + b == a;
    } else {
      var b' := b[..|b| - 1];
      assert (a + b)[..|a + b| - 1] == a + b';
      FilterAppend(a, b', p);
    }
  }

  /** `i` is the first index of `xs` at which `p` holds. */
  predicate IsFirst<T>(xs: seq<T>, p: T -> bool, i: int) {
    0 <= i < |xs| && p(xs[i]) && forall j :: 0 <= j < i ==> !p(xs[j])
  }

  /** The first kept element is the first element of `xs` that satisfies `p`. */
  lemma {:induction false} FilterFirst<T(!new)>(xs: seq<T>, p: T -> bool)
    requires Filter(xs, p) != []
    ensures exists i :: IsFirst(xs, p, i) && Filter(xs, p)[0] == xs[i]
    decreases |xs|
  {
    var init := xs[..|xs| - 1];
    if Filter(init, p) != [] {
      FilterFirst(init, p);
      var i :| IsFirst(init, p, i) && Filter(init, p)[0] == init[i];
      assert xs[i] == init[i];
      assert forall j :: 0 <= j < i ==> xs[j] == init[j];
      assert IsFirst(xs, p, i) && Filter(xs, p)[0] == xs[i];
    } else {
      var i := |xs| - 1;
      forall j | 0 <= j < i
        ensures !p(xs[j])
      {
        assert xs[j] == init[j] && init[j] in init;
      }
      assert IsFirst(xs, p, i) && Filter(xs, p)[0] == xs[i];
    }
  }

  lemma FilterPush<T(!new)>(xs: seq<T>, i: nat, p: T -> bool)
    requires i < |xs|
    ensures Filter(xs[..i + 1], p) == Filter(xs[..i], p) + (if p(xs[i]) then [xs[i]] else [])
  {
    assert xs[..i + 1][..i] == xs[..i];
  }

  /** Filtering by a predicate that every element satisfies changes nothing. */
  lemma {:induction false} FilterAll<T(!new)>(xs: seq<T>, p: T -> bool)
    requires forall i :: 0 <= i < |xs| ==> p(xs[i])
    ensures Filter(xs, p) == xs
    decreases |xs|
  {
    if xs != [] {
      var init := xs[..|xs| - 1];
      forall i | 0 <= i < |init|
        ensures p(init[i])
      {
        assert init[i] == xs[i];
      }
      FilterAll(init, p);
      assert xs == init + [xs[|xs| - 1]];
    }
  }

  /** What holds of every element holds of every kept element. */
  lemma FilterKeeps<T(!new)>(xs: seq<T>, p: T -> bool, q: T -> bool)
    requires forall i :: 0 <= i < |xs| ==> q(xs[i])
    ensures forall i :: 0 <= i < |Filter(xs, p)| ==> q(Filter(xs, p)[i])
  {
    var r := Filter(xs, p);
    forall i | 0 <= i < |r|
      ensures q(r[i])
    {
      assert r[i] in xs;
    }
  }

  /** Filters by predicates that agree on the elements of `xs` are equal. */
  lemma {:induction false} FilterSameOn<T(!new)>(xs: seq<T>, p: T -> bool, q: T -> bool)
    requires forall i :: 0 <= i < |xs| ==> p(xs[i]) == q(xs[i])
    ensures Filter(xs, p) == Filter(xs, q)
    decreases |xs|
  {
    if xs != [] {
      FilterSameOn(xs[..|xs| - 1], p, q);
    }
  }

  /** Two filters in a row are one filter by the conjunction. */
  lemma {:induction false} FilterFilter<T(!new)>(xs: seq<T>, p: T -> bool, q: T -> bool)
    ensures Filter(Filter(xs, p), q) == Filter(xs, x => p(x) && q(x))
    decreases |xs|
  {
    if xs != [] {
      FilterFilter(xs[..|xs| - 1], p, q);
      var r := Filter(xs[..|xs| - 1], p);
      if p(xs[|xs| - 1]) {
        assert (r + [xs[|xs| - 1]])[..|r|] == r;
      }
    }
  }

  /** Two filters in a row are one filter by any predicate that is their conjunction on `xs`. */
  lemma {:induction false} FilterFilterOn<T(!new)>(xs: seq<T>, p: T -> bool, q: T -> bool, r: T -> bool)
    requires forall i :: 0 <= i < |xs| ==> r(xs[i]) == (p(xs[i]) && q(xs[i]))
    ensures Filter(Filter(xs, p), q) == Filter(xs, r)
    decreases |xs|
  {
    if xs != [] {
      FilterFilterOn(xs[..|xs| - 1], p, q, r);
      var f := Filter(xs[..|xs| - 1], p);
      if p(xs[|xs| - 1]) {
        assert (f + [xs[|xs| - 1]])[..|f|] == f;
      }
    }
  }

  /** A predicate and its negation split a list into two parts whose lengths add up. */
  lemma {:induction false} FilterComplement<T(!new)>(xs: seq<T>, p: T -> bool, q: T -> bool)
    requires forall x :: q(x) == !p(x)
    ensures |Filter(xs, p)| + |Filter(xs, q)| == |xs|
    decreases |xs|
  {
    if xs != [] {
      FilterComplement(xs[..|xs| - 1], p, q);
    }
  }

  /** Two exclusive predicates that together make up `c` split `xs.filter(c)` into two parts. */
  lemma {:induction false} FilterSplit<T(!new)>(xs: seq<T>, c: T -> bool, a: T -> bool, b: T -> bool)
    requires forall x :: c(x) == (a(x) || b(x))
    requires forall x :: !(a(x) && b(x))
    ensures |Filter(xs, a)| + |Filter(xs, b)| == |Filter(xs, c)|
    decreases |xs|
  {
    if xs != [] {
      FilterSplit(xs[..|xs| - 1], c, a, b);
    }
  }

  /** Filtering keeps keys distinct. */
  lemma {:induction false} FilterKeepsDistinct<T(!new), K>(xs: seq<T>, p: T -> bool, key: T -> K)
    requires DistinctKeys(xs, key)
    ensures DistinctKeys(Filter(xs, p), key)
    decreases |xs|
  {
    if xs != [] {
      var init := xs[..|xs| - 1];
      var last := xs[|xs| - 1];
      FilterKeepsDistinct(init, p, key);
      var r := Filter(init, p);
      if p(last) {
        forall i | 0 <= i < |r|
          ensures key(r[i]) != key(last)
        {
          assert r[i] in init;
          var j :| 0 <= j < |init| && init[j] == r[i];
          assert xs[j] == init[j];
        }
      }
    }
  }

  /** Filtering keeps every occurrence of an element that satisfies `p`, and none of the others. */
  lemma {:induction false} FilterMultiplicity<T(!new)>(xs: seq<T>, p: T -> bool, x: T)
    ensures multiset(Filter(xs, p))[x] == if p(x) then multiset(xs)[x] else 0
    decreases |xs|
  {
    if xs != [] {
      var init := xs[..|xs| - 1];
      assert xs == init + [xs[|xs| - 1]];
      FilterMultiplicity(init, p, x);
    }
  }

  /** `FilterMultiplicity` for every element at once. */
  lemma FilterMultiplicities<T(!new)>(xs: seq<T>, p: T -> bool)
    ensures forall x :: multiset(Filter(xs, p))[x] == if p(x) then multiset(xs)[x] else 0
  {
    forall x
      ensures multiset(Filter(xs, p))[x] == if p(x) then multiset(xs)[x] else 0
    {
      FilterMultiplicity(xs, p, x);
    }
  }

  /**
   * Three predicates that hold for exactly one of them on every element split a list into three
   * parts whose lengths add up.
   */
  lemma {:induction false} FilterPartition3<T(!new)>(xs: seq<T>, p: T -> bool, q: T -> bool, s: T -> bool)
    requires forall i :: 0 <= i < |xs| ==> (p(xs[i]) || q(xs[i]) || s(xs[i]))
    requires forall i :: 0 <= i < |xs| ==> !(p(xs[i]) && q(xs[i])) && !(p(xs[i]) && s(xs[i])) && !(q(xs[i]) && s(xs[i]))
    ensures |Filter(xs, p)| + |Filter(xs, q)| + |Filter(xs, s)| == |xs|
    decreases |xs|
  {
    if xs != [] {
      FilterPartition3(xs[..|xs| - 1], p, q, s);
    }
  }

  /** `xs.filter(p).length`. */
  function Count<T(!new)>(xs: seq<T>, p: T -> bool): (n: nat)
    ensures n <= |xs|
  {
    |Filter(xs, p)|
  }

  /** `xs.map(f)`. */
  function Map<T, U>(xs: seq<T>, f: T -> U): (r: seq<U>)
    ensures |r| == |xs|
    ensures forall i :: 0 <= i < |xs| ==> r[i] == f(xs[i])
  {
    seq(|xs|, i requires 0 <= i < |xs| => f(xs[i]))
  }

  lemma MapIn<T(!new), U>(xs: seq<T>, f: T -> U, y: U)
    ensures y in Map(xs, f) <==> exists x :: x in xs && f(x) == y
  {
    if y in Map(xs, f) {
      var i :| 0 <= i < |xs| && Map(xs, f)[i] == y;
      assert xs[i] in xs;
    }
    if exists x :: x in xs && f(x) == y {
      var x :| x in xs && f(x) == y;
      var i :| 0 <= i < |xs| && xs[i] == x;
      assert Map(xs, f)[i] == y;
    }
  }

  /** The first element satisfying `p` (`xs.find(p)`). */
  function Find<T(!new)>(xs: seq<T>, p: T -> bool): (r: Option<T>)
    ensures r.Some? <==> exists x :: x in xs && p(x)
    ensures r.Some? ==> r.value in xs && p(r.value)
  {
    if xs == [] then None
    else if p(xs[0]) then Some(xs[0])
    else
      assert forall x :: x in xs ==> x == xs[0] || x in xs[1..];
      Find(xs[1..], p)
  }

  /** Some element before index `i` has the same key as `xs[i]`. */
  predicate SeenBefore<T, K(==)>(xs: seq<T>, key: T -> K, i: nat)
    requires i < |xs|
  {
    exists j :: 0 <= j < i && key(xs[j]) == key(xs[i])
  }

  ghost function Keys<T, K>(xs: seq<T>, key: T -> K): set<K> {
    set x | x in xs :: key(x)
  }

  /** Pairwise-distinct keys. */
  predicate DistinctKeys<T, K(==)>(xs: seq<T>, key: T -> K) {
    forall i, j :: 0 <= i < j < |xs| ==> key(xs[i]) != key(xs[j])
  }

  /** A prefix of a list with distinct keys has distinct keys. */
  lemma DistinctPrefix<T, K>(xs: seq<T>, n: nat, key: T -> K)
    requires DistinctKeys(xs, key) && n <= |xs|
    ensures DistinctKeys(xs[..n], key)
  {
    forall i, j | 0 <= i < j < n
      ensures key(xs[..n][i]) != key(xs[..n][j])
    {
      assert xs[..n][i] == xs[i] && xs[..n][j] == xs[j];
    }
  }

  /** Appending an element whose key is new keeps the keys distinct. */
  lemma DistinctSnoc<T, K>(xs: seq<T>, x: T, key: T -> K)
    requires DistinctKeys(xs, key)
    requires forall i :: 0 <= i < |xs| ==> key(xs[i]) != key(x)
    ensures DistinctKeys(xs + [x], key)
  {
    var all := xs + [x];
    forall i, j | 0 <= i < j < |all|
      ensures key(all[i]) != key(all[j])
    {
      assert all[i] == xs[i];
    }
  }

  /** `DistinctSnoc` for an element that is appended only when `b` holds. */
  lemma DistinctSnocIf<T, K>(xs: seq<T>, b: bool, x: T, key: T -> K)
    requires DistinctKeys(xs, key)
    requires forall i :: 0 <= i < |xs| ==> key(xs[i]) != key(x)
    ensures DistinctKeys(xs + (if b then [x] else []), key)
  {
    if b {
      DistinctSnoc(xs, x, key);
    } else {
      assert xs + [] == xs;
    }
  }

  /**
   * Keep-first de-duplication: `xs.filter((x, i) => i === xs.findIndex(y => key(y) === key(x)))`,
   * and, with the identity as key, `Array.from(new Set(xs))` (a JavaScript Set keeps insertion order).
   * Index `i` survives iff no earlier element shares its key.
   */
  function DedupBy<T(!new), K(==)>(xs: seq<T>, key: T -> K): (r: seq<T>)
    ensures forall x :: x in r ==> x in xs
    ensures DistinctKeys(r, key)
    ensures Keys(r, key) == Keys(xs, key)
    ensures |r| <= |xs|
  {
    if xs == [] then []
    else
      var init := xs[..|xs| - 1];
      var last := xs[|xs| - 1];
      assert xs == init + [last];
      var r := DedupBy(init, key);
      KeysSnoc(init, last, key);
      if SeenBefore(xs, key, |xs| - 1) then
        ghost var j :| 0 <= j < |xs| - 1 && key(xs[j]) == key(last);
        assert xs[j] in init;
        r
      else
        assert key(last) !in Keys(r, key);
        KeysSnoc(r, last, key);
        r + [last]
  }

  lemma KeysSnoc<T, K>(xs: seq<T>, x: T, key: T -> K)
    ensures Keys(xs + [x], key) == Keys(xs, key) + {key(x)}
  {
    assert forall y :: y in xs + [x] <==> y in xs || y == x;
  }

  /** The first element always survives de-duplication, in first place. */
  lemma {:induction false} DedupByHead<T(!new), K>(xs: seq<T>, key: T -> K)
    requires xs != []
    ensures DedupBy(xs, key) != [] && DedupBy(xs, key)[0] == xs[0]
    decreases |xs|
  {
    if |xs| > 1 {
      var init := xs[..|xs| - 1];
      DedupByHead(init, key);
    }
  }

  /** An element that survives de-duplication is the first of its key. */
  lemma {:induction false} DedupByKeepsFirst<T(!new), K>(xs: seq<T>, key: T -> K, k: nat)
    requires k < |DedupBy(xs, key)|
    ensures exists i :: 0 <= i < |xs| && xs[i] == DedupBy(xs, key)[k] && !SeenBefore(xs, key, i)
    decreases |xs|
  {
    var init := xs[..|xs| - 1];
    var r := DedupBy(init, key);
    if k < |r| {
      DedupByKeepsFirst(init, key, k);
      var i :| 0 <= i < |init| && init[i] == r[k] && !SeenBefore(init, key, i);
      assert xs[i] == init[i];
      forall j | 0 <= j < i
        ensures key(xs[j]) != key(xs[i])
      {
        assert xs[j] == init[j];
      }
    } else {
      assert DedupBy(xs, key)[k] == xs[|xs| - 1];
    }
  }

  /** Non-increasing by `key`. */
  predicate SortedDesc<T>(xs: seq<T>, key: T -> int) {
    forall i, j :: 0 <= i < j < |xs| ==> key(xs[i]) >= key(xs[j])
  }

  /**
   * A database `orderBy: { key: "desc" }`: the rows rearranged into non-increasing key order.
   */
  function SortByDesc<T(!new)>(xs: seq<T>, key: T -> int): (r: seq<T>)
    ensures SortedDesc(r, key)
    ensures multiset(r) == multiset(xs)
    ensures |r| == |xs|
  {
    if xs == [] then []
    else
      assert xs == xs[..|xs| - 1] + [xs[|xs| - 1]];
      InsertAfterEqual(xs[|xs| - 1], SortByDesc(xs[..|xs| - 1], key), key)
  }

  /** Sorting neither adds nor drops an element. */
  lemma SortByDescMembers<T(!new)>(xs: seq<T>, key: T -> int)
    ensures forall x :: x in SortByDesc(xs, key) <==> x in xs
  {
    forall x
      ensures x in SortByDesc(xs, key) <==> x in xs
    {
      assert x in SortByDesc(xs, key) <==> x in multiset(SortByDesc(xs, key));
      assert x in xs <==> x in multiset(xs);
    }
  }

  /** Insertion that places `x` after every element of equal key. */
  function InsertAfterEqual<T(!new)>(x: T, xs: seq<T>, key: T -> int): (r: seq<T>)
    requires SortedDesc(xs, key)
    ensures SortedDesc(r, key)
    ensures multiset(r) == multiset(xs) + multiset{x}
    ensures |r| == |xs| + 1
  {
    if xs == [] then [x]
    else if key(x) > key(xs[|xs| - 1]) then
      var init := xs[..|xs| - 1];
      assert xs == init + [xs[|xs| - 1]];
      var r := InsertAfterEqual(x, init, key);
      forall y | y in r
        ensures key(y) >= key(xs[|xs| - 1])
      {
        assert y in multiset(r);
        if y != x {
          assert y in init;
        }
      }
      SortedSnoc(r, xs[|xs| - 1], key);
      r + [xs[|xs| - 1]]
    else
      SortedSnoc(xs, x, key);
      xs + [x]
  }

  lemma SortedSnoc<T>(xs: seq<T>, y: T, key: T -> int)
    requires SortedDesc(xs, key)
    requires forall z :: z in xs ==> key(z) >= key(y)
    ensures SortedDesc(xs + [y], key)
  {
    forall i, j | 0 <= i < j < |xs| + 1
      ensures key((xs + [y])[i]) >= key((xs + [y])[j])
    {
      if j == |xs| {
        assert xs[i] in xs;
      }
    }
  }

  /** A sorted list is the sort of itself; in particular sorting is idempotent. */
  lemma {:induction false} SortedIsFixpoint<T(!new)>(xs: seq<T>, key: T -> int)
    requires SortedDesc(xs, key)
    ensures SortByDesc(xs, key) == xs
  {
    if xs != [] {
      var init := xs[..|xs| - 1];
      SortedIsFixpoint(init, key);
      assert xs == init + [xs[|xs| - 1]];
    }
  }
}

=== FILE: signup.dfy ===
/** `POST /api/auth/signup`: register a customer under a new email and sign them in. */
module Signup {

  import opened Base
  import opened Http
  import opened Db

  /** The JSON body; an absent field is `None`. */
  datatype SignupInput = SignupInput(name: Option<string>, email: Option<string>, password: Option<string>)

  /** The user record the route returns: every column it selects, and no password. */
  datatype PublicUser = PublicUser(
    id: UserId, email: string, name: string, kind: UserType, isPremium: bool, phone: Option<string>,
    interests: Option<string>, avatar: Option<string>, location: Option<string>, bio: Option<string>, createdAt: int)

  /** The claims signed into the session token. */
  datatype TokenPayload = TokenPayload(id: UserId, email: string, kind: UserType, isPremium: bool)

  /** The `auth-token` cookie the response sets. */
  datatype Cookie = Cookie(name: string, value: string, maxAge: nat, httpOnly: bool, path: string)

  datatype Session = Session(user: PublicUser, token: string, cookie: Cookie, message: string, success: bool)

  const SessionSeconds: nat := 60 * 60 * 24 * 7

  predicate EmailTaken(rows: seq<User>, email: string) {
    exists i :: 0 <= i < |rows| && rows[i].email == email
  }

  /**
   * The checks and the new row: all three fields must be truthy and the email unused; the
   * stored password is `hash(password)` (bcrypt, abstract here), and the user is a
   * non-premium CUSTOMER with every optional column empty.
   */
  function Decide(input: SignupInput, rows: seq<User>, hash: string -> string, freshId: UserId, now: int)
    : (r: Response<User>)
    ensures !(Truthy(input.name) && Truthy(input.email) && Truthy(input.password)) ==>
              r == Fail(400, "Name, email, and password are required")
    ensures r.Ok? <==> Truthy(input.name) && Truthy(input.email) && Truthy(input.password) &&
                       !EmailTaken(rows, input.email.value)
    ensures r.Fail? ==> r.status == 400
    ensures r.Ok? ==> r.body.id == freshId && r.body.name == input.name.value && r.body.email == input.email.value
    ensures r.Ok? ==> r.body.password == hash(input.password.value)
    ensures r.Ok? ==> r.body.kind == Customer && !r.body.isPremium && r.body.createdAt == now && r.body.tripCount == 0
    ensures r.Ok? ==> r.body.phone.None? && r.body.interests.None? && r.body.location.None? &&
                      r.body.bio.None? && r.body.avatar.None?
  {
    if !Truthy(input.name) || !Truthy(input.email) || !Truthy(input.password) then
      Fail(400, "Name, email, and password are required")
    else if EmailTaken(rows, input.email.value) then Fail(400, "User already exists with this email")
    else Ok(200, User(freshId, input.name.value, input.email.value, hash(input.password.value), Customer, false,
                      None, None, None, None, None, now, 0))
  }

  /** The returned record: the user without the password. */
  function Public(u: User): (p: PublicUser)
    ensures p.id == u.id && p.email == u.email && p.name == u.name && p.kind == u.kind && p.isPremium == u.isPremium
    ensures p.phone == u.phone && p.interests == u.interests && p.avatar == u.avatar && p.location == u.location
    ensures p.bio == u.bio && p.createdAt == u.createdAt
  {
    PublicUser(u.id, u.email, u.name, u.kind, u.isPremium, u.phone, u.interests, u.avatar, u.location, u.bio, u.createdAt)
  }

  /** The session for a new user: the token signs the user's own id, email, type and premium flag. */
  function SessionFor(u: User, sign: TokenPayload -> string): (s: Session)
    ensures s.user == Public(u) && s.token == sign(TokenPayload(u.id, u.email, u.kind, u.isPremium))
    ensures s.cookie.name == "auth-token" && s.cookie.value == s.token && s.cookie.maxAge == SessionSeconds
    ensures s.success
  {
    var token := sign(TokenPayload(u.id, u.email, u.kind, u.isPremium));
    Session(Public(u), token, Cookie("auth-token", token, SessionSeconds, true, "/"), "User created successfully", true)
  }

  /**
   * `POST`: insert the user and answer with the session, or leave the table unchanged.
   * `freshId` and `now` are the id and the creation time the database assigns.
   */
  method Register(table: UserTable, input: SignupInput, hash: string -> string, sign: TokenPayload -> string,
                  freshId: UserId, now: int)
    returns (r: Response<Session>)
    requires table.Valid()
    requires forall i :: 0 <= i < |table.rows| ==> table.rows[i].id != freshId
    modifies table
    ensures table.Valid()
    ensures Decide(input, old(table.rows), hash, freshId, now).Fail? ==>
              r == Fail(400, Decide(input, old(table.rows), hash, freshId, now).error) && table.rows == old(table.rows)
    ensures Decide(input, old(table.rows), hash, freshId, now).Ok? ==>
              var u := Decide(input, old(table.rows), hash, freshId, now).body;
              table.rows == old(table.rows) + [u] && r == Ok(200, SessionFor(u, sign))
  {
    var d := Decide(input, table.rows, hash, freshId, now);
    if d.Fail? {
      return Fail(400, d.error);
    }
    table.Insert(d.body);
    r := Ok(200, SessionFor(d.body, sign));
  }

  /**
   * Once an email is registered, every later sign-up with it is refused, whatever the
   * other fields say.
   */
  lemma SecondSignupRefused(first: SignupInput, second: SignupInput, rows: seq<User>, hash: string -> string,
                            id1: UserId, id2: UserId, now1: int, now2: int)
    requires Decide(first, rows, hash, id1, now1).Ok?
    requires Truthy(second.name) && Truthy(second.password) && second.email == first.email
    ensures Decide(second, rows + [Decide(first, rows, hash, id1, now1).body], hash, id2, now2) ==
              Fail(400, "User already exists with this email")
  {
    var rows' := rows + [Decide(first, rows, hash, id1, now1).body];
    assert rows'[|rows|].email == second.email.value;
  }

  /** The token's claims describe the user that was created, and the password never leaves the route. */
  lemma SessionDescribesNewUser(input: SignupInput, rows: seq<User>, hash: string -> string,
                                sign: TokenPayload -> string, freshId: UserId, now: int)
    requires Decide(input, rows, hash, freshId, now).Ok?
    ensures var s := SessionFor(Decide(input, rows, hash, freshId, now).body, sign);
            s.token == sign(TokenPayload(freshId, input.email.value, Customer, false)) &&
            s.user.id == freshId && s.user.email == input.email.value && s.user.kind == Customer && !s.user.isPremium
  {
  }
}

=== FILE: text.dfy ===
/**
 * The JavaScript string operations the handlers use. A string is a sequence of Unicode code
 * points here, where JavaScript counts UTF-16 units.
 */
module Text {

  import opened Base

  /**
   * What `String.prototype.trim` removes: the WhiteSpace (tab, vertical tab, form feed,
   * the Zs space separators, U+FEFF) and LineTerminator (LF, CR, U+2028, U+2029) code points.
   */
  predicate IsSpace(c: char) {
    c == '\t' || c == '\n' || c == '\U{000B}' || c == '\U{000C}' || c == '\r' || c == ' ' ||
    c == '\U{00A0}' || c == '\U{1680}' || ('\U{2000}' <= c <= '\U{200A}') ||
    c == '\U{2028}' || c == '\U{2029}' || c == '\U{202F}' || c == '\U{205F}' ||
    c == '\U{3000}' || c == '\U{FEFF}'
  }

  predicate AllSpace(s: string) {
    forall i :: 0 <= i < |s| ==> IsSpace(s[i])
  }

  /** Number of white-space code points at the start of `s`. */
  function LeadingSpaces(s: string): (n: nat)
    ensures n <= |s|
    ensures AllSpace(s[..n])
    ensures n < |s| ==> !IsSpace(s[n])
  {
    if s == [] || !IsSpace(s[0]) then 0
    else
      var n := LeadingSpaces(s[1..]);
      assert s[..n + 1] == [s[0]] + s[1..][..n];
      n + 1
  }

  /** Number of white-space code points at the end of `s`. */
  function TrailingSpaces(s: string): (n: nat)
    ensures n <= |s|
    ensures AllSpace(s[|s| - n..])
    ensures n < |s| ==> !IsSpace(s[|s| - n - 1])
  {
    if s == [] || !IsSpace(s[|s| - 1]) then 0
    else
      var init := s[..|s| - 1];
      var n := TrailingSpaces(init);
      assert s[|s| - (n + 1)..] == init[|init| - n..] + [s[|s| - 1]];
      n + 1
  }

  /** `s.trim()`: the slice of `s` between its leading and its trailing white space. */
  function Trim(s: string): (r: string)
    ensures |r| <= |s|
    ensures r == [] || (!IsSpace(r[0]) && !IsSpace(r[|r| - 1]))
    ensures LeadingSpaces(s) + |r| <= |s|
    ensures r == s[LeadingSpaces(s)..LeadingSpaces(s) + |r|]
    ensures AllSpace(s[..LeadingSpaces(s)]) && AllSpace(s[LeadingSpaces(s) + |r|..])
  {
    var a := LeadingSpaces(s);
    var t := s[a..];
    var b := TrailingSpaces(t);
    assert t[|t| - b..] == s[a + (|t| - b)..];
    if b == |t| then
      assert s[a..a + 0] == [];
      []
    else
      var r := t[..|t| - b];
      assert r == s[a..a + |r|];
      assert r[0] == s[a] && r[|r| - 1] == t[|t| - b - 1];
      r
  }

  /** Trimming twice is trimming once. */
  lemma TrimIdempotent(s: string)
    ensures Trim(Trim(s)) == Trim(s)
  {
    var t := Trim(s);
    assert LeadingSpaces(t) == 0;
    assert TrailingSpaces(t) == 0;
  }

  /** A character that is absent from `s` is absent from its trimmed form. */
  lemma TrimSubstring(s: string, c: char)
    requires c !in s
    ensures c !in Trim(s)
  {
    var a := LeadingSpaces(s);
    var t := Trim(s);
    forall k | 0 <= k < |t|
      ensures t[k] != c
    {
      assert t[k] == s[a + k];
    }
  }

  /** The first character of an all-space suffix is a space. */
  lemma AllSpaceAt(s: string, k: nat)
    requires k <= |s|
    ensures AllSpace(s[k..]) && k < |s| ==> IsSpace(s[k])
  {
    if AllSpace(s[k..]) && k < |s| {
      assert s[k..][0] == s[k];
    }
  }

  /** A string trims to "" exactly when it is all white space. */
  lemma TrimEmpty(s: string)
    ensures Trim(s) == "" <==> AllSpace(s)
  {
    var a := LeadingSpaces(s);
    var r := Trim(s);
    if r == "" {
      AllSpaceAt(s, a);
      assert s[..a] == s;
    } else {
      assert s[a] == r[0] && !IsSpace(s[a]);
    }
  }

  /** `s.substring(0, n)`: the first `n` code points, or all of `s` when it is shorter. */
  function Prefix(s: string, n: nat): (r: string)
    ensures |r| <= n && r <= s
    ensures |s| <= n ==> r == s
  {
    if |s| <= n then s else s[..n]
  }

  /** `s.indexOf(c)` for a character that occurs in `s`. */
  function IndexOf(s: string, c: char): (i: nat)
    requires c in s
    ensures i < |s| && s[i] == c && c !in s[..i]
  {
    if s[0] == c then 0
    else
      var i := IndexOf(s[1..], c);
      assert s[..i + 1] == [s[0]] + s[1..][..i];
      i + 1
  }

  /** `s.split(d)` for a one-character separator: the pieces between separators, empty ones included. */
  function Split(s: string, d: char): (parts: seq<string>)
    ensures |parts| >= 1
    ensures forall k :: 0 <= k < |parts| ==> d !in parts[k]
    decreases |s|
  {
    if d !in s then [s]
    else
      var i := IndexOf(s, d);
      [s[..i]] + Split(s[i + 1..], d)
  }

  /** `parts.join(d)`. */
  function Join(parts: seq<string>, d: char): (s: string)
  {
    if parts == [] then ""
    else if |parts| == 1 then parts[0]
    else parts[0] + [d] + Join(parts[1..], d)
  }

  lemma JoinCons(x: string, rest: seq<string>, d: char)
    requires |rest| >= 1
    ensures Join([x] + rest, d) == x + [d] + Join(rest, d)
  {
    assert ([x] + rest)[1..] == rest;
  }

  /** Splitting and joining back with the same separator gives the original string. */
  lemma {:induction false} JoinSplit(s: string, d: char)
    ensures Join(Split(s, d), d) == s
    decreases |s|
  {
    if d in s {
      var i := IndexOf(s, d);
      var rest := Split(s[i + 1..], d);
      JoinSplit(s[i + 1..], d);
      assert Split(s, d) == [s[..i]] + rest;
      JoinCons(s[..i], rest, d);
      assert s == s[..i] + [d] + s[i + 1..];
    }
  }

  /** Joining pieces that hold no separator and splitting again gives the pieces back. */
  lemma {:induction false} SplitJoin(parts: seq<string>, d: char)
    requires |parts| >= 1
    requires forall k :: 0 <= k < |parts| ==> d !in parts[k]
    ensures Split(Join(parts, d), d) == parts
    decreases |parts|
  {
    if |parts| > 1 {
      var s := Join(parts, d);
      var rest := Join(parts[1..], d);
      assert s == parts[0] + [d] + rest;
      assert s[|parts[0]|] == d;
      assert s[..|parts[0]|] == parts[0];
      assert IndexOf(s, d) == |parts[0]|;
      assert s[|parts[0]| + 1..] == rest;
      SplitJoin(parts[1..], d);
    }
  }

  /** The number of pieces is one more than the number of separators. */
  lemma {:induction false} SplitCount(s: string, d: char)
    ensures |Split(s, d)| == multiset(s)[d] + 1
    decreases |s|
  {
    if d in s {
      var i := IndexOf(s, d);
      SplitCount(s[i + 1..], d);
      assert s == s[..i] + [d] + s[i + 1..];
      assert multiset(s[..i])[d] == 0;
    } else {
      assert multiset(s)[d] == 0;
    }
  }

  /** The first index at which `pat` occurs in `s`, at or after `from`. */
  function FindFrom(s: string, pat: string, from: nat): (r: Option<nat>)
    requires from <= |s|
    ensures r.Some? ==> from <= r.value && r.value + |pat| <= |s| && s[r.value..r.value + |pat|] == pat
    ensures r.Some? ==> forall k :: from <= k < r.value ==> !OccursAt(s, pat, k)
    ensures r.None? ==> forall k :: from <= k <= |s| ==> !OccursAt(s, pat, k)
    decreases |s| - from
  {
    if OccursAt(s, pat, from) then Some(from)
    else if from == |s| then None
    else FindFrom(s, pat, from + 1)
  }

  predicate OccursAt(s: string, pat: string, k: nat) {
    k + |pat| <= |s| && s[k..k + |pat|] == pat
  }

  /** `s.includes(pat)`. */
  predicate Includes(s: string, pat: string) {
    FindFrom(s, pat, 0).Some?
  }

  /** `s.replace(pat, rep)` with a string pattern: only the first occurrence is replaced. */
  function ReplaceFirst(s: string, pat: string, rep: string): (r: string)
    ensures !Includes(s, pat) ==> r == s
    ensures Includes(s, pat) ==>
              exists i: nat :: OccursAt(s, pat, i) && (forall k: nat :: k < i ==> !OccursAt(s, pat, k)) &&
                          r == s[..i] + rep + s[i + |pat|..]
  {
    match FindFrom(s, pat, 0)
    case None => s
    case Some(i) => s[..i] + rep + s[i + |pat|..]
  }
}

=== FILE: trips.dfy ===
/**
 * `POST /api/trips` (create a trip and enrol its creator) and `GET /api/trips` (the public
 * trips, newest first, with the caller's participation).
 */
module Trips {

  import opened Base
  import opened Seqs
  import opened Http
  import opened Db

  /**
   * The JSON body of `POST`. A text field that is absent, null or otherwise falsy is `None`.
   * `isPublic` is `None` only when absent or null: an explicit `false` arrives as `Some(false)`
   * and is kept. For `maxParticipants`, 0 is falsy too and arrives as `Some(0)`. `startDate` and `endDate` are
   * the date strings, turned into timestamps by `toDate` (`new Date(s)`).
   */
  datatype TripInput = TripInput(
    destination: Option<string>, startDate: Option<string>, endDate: Option<string>, budget: Option<string>,
    description: Option<string>, isPublic: Option<bool>, maxParticipants: Option<int>)

  const DefaultMaxParticipants := 6
  const MinParticipants := 2
  const MaxParticipants := 20

  /** `maxParticipants ? parseInt(maxParticipants) : 6`: a missing or zero value means 6. */
  function MaxParticipantsOf(raw: Option<int>): (n: int)
    ensures raw.None? || raw.value == 0 ==> n == DefaultMaxParticipants
    ensures raw.Some? && raw.value != 0 ==> n == raw.value
  {
    if raw.Some? && raw.value != 0 then raw.value else DefaultMaxParticipants
  }

  /** The validation of `POST` and the trip row it creates for `caller`. */
  function CreateDecision(caller: UserId, input: TripInput, toDate: string -> int, freshId: TripId, now: int)
    : (r: Response<Trip>)
    ensures r.Ok? <==>
              Truthy(input.destination) && Truthy(input.startDate) && Truthy(input.endDate) && Truthy(input.budget) &&
              MinParticipants <= MaxParticipantsOf(input.maxParticipants) <= MaxParticipants
    ensures !(Truthy(input.destination) && Truthy(input.startDate) && Truthy(input.endDate) && Truthy(input.budget)) ==>
              r == Fail(400, "Missing required fields")
    ensures r.Fail? ==> r.status == 400
    ensures r.Ok? ==>
              r.body.id == freshId && r.body.creatorId == caller && r.body.destination == input.destination.value &&
              r.body.budget == input.budget.value &&
              r.body.startDate == toDate(input.startDate.value) && r.body.endDate == toDate(input.endDate.value) &&
              r.body.description == OrElse(input.description, "") &&
              r.body.isPublic == input.isPublic.GetOr(true) &&
              r.body.maxParticipants == MaxParticipantsOf(input.maxParticipants) &&
              r.body.status == Open && r.body.createdAt == now
  {
    if !Truthy(input.destination) || !Truthy(input.startDate) || !Truthy(input.endDate) || !Truthy(input.budget) then
      Fail(400, "Missing required fields")
    else
      var max := MaxParticipantsOf(input.maxParticipants);
      if max < MinParticipants || max > MaxParticipants then
        Fail(400, "Max participants must be between 2 and 20")
      else
        Ok(200, Trip(freshId, input.destination.value, toDate(input.startDate.value), toDate(input.endDate.value),
                     input.budget.value, OrElse(input.description, ""), input.isPublic.GetOr(true), max,
                     caller, Open, now))
  }

  /** `isPublic: isPublic ?? true`: only a missing value defaults; an explicit `false` is kept. */
  lemma PublicDefault(caller: UserId, input: TripInput, toDate: string -> int, freshId: TripId, now: int)
    requires CreateDecision(caller, input, toDate, freshId, now).Ok?
    ensures input.isPublic == Some(false) ==> !CreateDecision(caller, input, toDate, freshId, now).body.isPublic
    ensures input.isPublic.None? ==> CreateDecision(caller, input, toDate, freshId, now).body.isPublic
    ensures input.maxParticipants.None? ==> CreateDecision(caller, input, toDate, freshId, now).body.maxParticipants == 6
  {
  }

  /**
   * `POST`: authenticate, validate, then create the trip and a CREATOR participant row for the
   * caller. Sending the notification e-mail may fail without changing the answer, so it is not
   * part of the model. The database assigns `freshId` and `now`.
   */
  method Create(trips: TripTable, participants: ParticipantTable, header: Option<string>, verify: Verifier,
                input: TripInput, toDate: string -> int, freshId: TripId, now: int)
    returns (r: Response<TripId>)
    requires trips.Valid() && participants.Valid()
    requires forall i :: 0 <= i < |trips.rows| ==> trips.rows[i].id != freshId
    requires forall i :: 0 <= i < |participants.rows| ==> participants.rows[i].tripId != freshId
    modifies trips, participants
    ensures trips.Valid() && participants.Valid()
    ensures BearerToken(header).None? ==> r == Fail(401, "Not authenticated")
    ensures r.Fail? && r.status != 401 && r.status != 400 ==> r == Fail(500, "Failed to create trip")
    ensures r.Ok? <==> BearerClaims(header, verify, "Not authenticated", "Failed to create trip").Ok? &&
                       CreateDecision(BearerClaims(header, verify, "Not authenticated", "Failed to create trip").body.id,
                                      input, toDate, freshId, now).Ok?
    ensures r.Ok? ==>
              var caller := BearerClaims(header, verify, "Not authenticated", "Failed to create trip").body.id;
              r.body == freshId &&
              trips.rows == old(trips.rows) + [CreateDecision(caller, input, toDate, freshId, now).body] &&
              participants.rows == old(participants.rows) + [TripParticipant(caller, freshId, Creator, now)]
    ensures r.Fail? ==> trips.rows == old(trips.rows) && participants.rows == old(participants.rows)
  {
    var auth := BearerClaims(header, verify, "Not authenticated", "Failed to create trip");
    if auth.Fail? {
      return Fail(auth.status, auth.error);
    }
    var decision := CreateDecision(auth.body.id, input, toDate, freshId, now);
    if decision.Fail? {
      return Fail(decision.status, decision.error);
    }
    trips.Insert(decision.body);
    participants.Insert(TripParticipant(auth.body.id, freshId, Creator, now));
    r := Ok(200, freshId);
  }

  /** A participant as the trip lists show it. */
  datatype ParticipantView = ParticipantView(id: UserId, name: string, avatar: Option<string>, role: string, joinedAt: int)

  function ToParticipantView(p: ParticipantWithUser): ParticipantView {
    ParticipantView(p.user.id, p.user.name, p.user.avatar, RoleName(p.row.role), p.row.joinedAt)
  }

  /** A public trip as `GET` lists it. */
  datatype PublicTrip = PublicTrip(trip: Trip, participantCount: nat, participants: seq<ParticipantView>,
                                   isParticipant: bool)

  function CreatedAt(t: Trip): int {
    t.createdAt
  }

  /** The public trips, newest first. */
  function PublicTrips(trips: seq<Trip>): (r: seq<Trip>)
    ensures forall t :: t in r <==> t in trips && t.isPublic
    ensures forall t :: multiset(r)[t] == if t.isPublic then multiset(trips)[t] else 0
    ensures SortedDesc(r, CreatedAt)
  {
    var pub := Filter(trips, (t: Trip) => t.isPublic);
    FilterMultiplicities(trips, (t: Trip) => t.isPublic);
    SortByDescMembers(pub, CreatedAt);
    SortByDesc(pub, CreatedAt)
  }

  /** The caller's own participant rows of trip `t` (`participants: { where: { userId } }`). */
  function OwnRows(t: Trip, caller: UserId, parts: seq<ParticipantWithUser>): seq<ParticipantWithUser> {
    Filter(parts, (p: ParticipantWithUser) => p.row.tripId == t.id && p.row.userId == caller)
  }

  function ListTrip(t: Trip, caller: Option<UserId>, parts: seq<ParticipantWithUser>): (v: PublicTrip)
    ensures v.trip == t
    ensures caller.None? ==> v.participants == [] && !v.isParticipant
    ensures caller.Some? ==>
              (v.isParticipant <==> exists p :: p in parts && p.row.tripId == t.id && p.row.userId == caller.value)
  {
    var count := Count(parts, (p: ParticipantWithUser) => p.row.tripId == t.id);
    match caller
    case None => PublicTrip(t, count, [], false)
    case Some(uid) =>
      var own := OwnRows(t, uid, parts);
      assert (exists p :: p in parts && p.row.tripId == t.id && p.row.userId == uid) ==> |own| > 0 by {
        if exists p :: p in parts && p.row.tripId == t.id && p.row.userId == uid {
          var p :| p in parts && p.row.tripId == t.id && p.row.userId == uid;
          assert p in own;
        }
      }
      PublicTrip(t, count, Map(own, ToParticipantView), |own| > 0)
  }

  /** `GET`: never an authentication error; an invalid token only makes the caller anonymous. */
  function List(header: Option<string>, verify: Verifier, trips: seq<Trip>, parts: seq<ParticipantWithUser>)
    : (r: seq<PublicTrip>)
    ensures |r| == |PublicTrips(trips)|
    ensures forall k :: 0 <= k < |r| ==> r[k] == ListTrip(PublicTrips(trips)[k], OptionalCaller(header, verify), parts)
  {
    var caller := OptionalCaller(header, verify);
    Map(PublicTrips(trips), (t: Trip) => ListTrip(t, caller, parts))
  }

  /** Only public trips are listed, each of them, newest first. */
  lemma ListShowsPublicTrips(header: Option<string>, verify: Verifier, trips: seq<Trip>, parts: seq<ParticipantWithUser>)
    ensures forall v :: v in List(header, verify, trips, parts) ==> v.trip in trips && v.trip.isPublic
    ensures forall t :: t in trips && t.isPublic ==> exists v :: v in List(header, verify, trips, parts) && v.trip == t
    ensures forall p, q :: 0 <= p < q < |List(header, verify, trips, parts)| ==>
              List(header, verify, trips, parts)[p].trip.createdAt >= List(header, verify, trips, parts)[q].trip.createdAt
  {
    var pub := PublicTrips(trips);
    var r := List(header, verify, trips, parts);
    forall v | v in r
      ensures v.trip in trips && v.trip.isPublic
    {
      var k :| 0 <= k < |r| && r[k] == v;
      assert pub[k] in pub;
    }
    forall t | t in trips && t.isPublic
      ensures exists v :: v in r && v.trip == t
    {
      var k :| 0 <= k < |pub| && pub[k] == t;
      assert r[k] in r;
    }
    forall p, q | 0 <= p < q < |r|
      ensures r[p].trip.createdAt >= r[q].trip.createdAt
    {
      assert CreatedAt(pub[p]) >= CreatedAt(pub[q]);
    }
  }
}
